=== FILE: README.md ===
# Live fragmented-BMFF hashing in c2pa-rs, modelled in Dafny

This project models the code in the c2pa-rs fork that signs live MPEG-DASH
streams. The pieces modelled are:

- **Rolling hash.** Each fMP4 fragment's digest is chained onto the previous
  value, `CH(previous, fragment)`. A fragment carries the previous value as
  an *anchor point* in an embedded box, so a viewer can join the stream at
  any fragment. This covers the `c2pa.rolling_hash` assertion and the
  rolling-hash record of `c2pa.hash.bmff`.
- **Merkle maps** of a fragmented `c2pa.hash.bmff` assertion:
  - cutting a box list into fragments;
  - dealing the per-fragment proofs out to the maps;
  - the Sample To Chunk lookup;
  - adding or replacing a map;
  - replaying a Merkle proof up to a map's stored row.
- **Live CLI helpers:**
  - which files of a representation are signed, and which are forwarded
    to the CDN and in what order;
  - where a signed copy is written;
  - classifying request URIs with the CLI's two regular expressions;
  - the window of fragments a Merkle tree is built over;
  - the per-representation hand-off of rolling hashes to manifest requests
    (the *manifold*).
- **Supporting pieces:**
  - the in-place replacement of a C2PA `uuid` box in a signed fragment;
  - the CAWG identity assertion's check of its referenced assertions
    against the claim;
  - the `Debug` rendering of byte slices.

Digests are not computed here. `concat_and_hash` and the stream hash are
uninterpreted functions passed in as parameters, so every property holds
for any hash function. Files, directory listings, HTTP and box parsing are
also outside the model. Their results (box lists, file contents, path
lists, URL pairs) are given as inputs.

The modules are:

| module | covers |
|---|---|
| `Wrappers`, `Text` | `Option`/`Result`/`Outcome`, decimal and hex text, splitting and joining |
| `Hashing` | placeholder hashes and the hash chain |
| `MerkleProof` | proof playback |
| `BmffHash` | the fragmented-BMFF bookkeeping |
| `RollingHashes` | the rolling-hash assertion |
| `LiveBox` | box replacement |
| `SignerPayload` | the CAWG check |
| `DebugByteSlice` | byte-slice `Debug` output |
| `LivePaths` | Unix paths and their order |
| `LiveSigner` | the signer's selection logic |
| `LiveRegexp` | URI classification |
| `LiveMerkleTree` | the live Merkle tree |
| `Manifold` | the rolling-hash hand-off |

## Model

| member | source | states |
|---|---|---|
| Hashing.PlaceholderHash | sdk/src/assertions/bmff_hash.rs:1657-1663 | exactly sha256, sha384 and sha512 get a placeholder; it is all zeros and as long as that algorithm's digest |
| Hashing.PlaceholderDeterminesAlg | sdk/src/assertions/rolling_hash.rs:282-289 | two supported algorithms with the same placeholder are the same algorithm (32, 48 and 64 bytes differ) |
| Hashing.Chain | sdk/src/assertions/bmff_hash.rs:1560-1577 | chaining a non-empty run of fragments always yields a value; an empty run leaves the previous value as it was |
| Hashing.ChainAppend | sdk/src/assertions/rolling_hash.rs:498-505 | chaining `a + b` from `prev` is chaining `b` from the result of chaining `a`, so a stream can be verified from any fragment onwards |
| MerkleProof.CheckMerkleTree | sdk/src/assertions/bmff_hash.rs:161-219 | checks iff the location is below the map's count, the proof (when given) does not run out, and `hash_check` (`HashCheck`) finds the played-back hash at the played-back index of the stored row |
| MerkleProof.PlaybackIgnoresExtra | sdk/src/assertions/bmff_hash.rs:180-206 | once playback reaches the stored row, extra proof elements after the used ones change nothing |
| MerkleProof.PlaybackIndex | sdk/src/assertions/bmff_hash.rs:180-206 | where playback lands in the stored row depends only on the layout and the location, not on the hashes |
| MerkleProof.TreeShape | sdk/src/assertions/bmff_hash.rs:172-184 | the reference tree has one row per entry of the layout, each row as long as the layout says, and every row above the leaves is shorter than the leaf row |
| MerkleProof.PlaybackStep | sdk/src/assertions/bmff_hash.rs:185-204 | one playback step from a row takes the node's sibling, if it has one, and continues from the parent in the next row |
| MerkleProof.PlaybackComplete | sdk/src/assertions/bmff_hash.rs:180-206 | for every leaf and every row of the reference tree, replaying the leaf's sibling path lands on that leaf's ancestor in the row and yields the ancestor's hash |
| MerkleProof.CheckMerkleTreeComplete | sdk/src/assertions/bmff_hash.rs:161-219 | a map holding any row of the reference tree accepts every fragment at its own location with its sibling path |
| MerkleProof.EmptyProofChecksLeaf | sdk/src/assertions/bmff_hash.rs:153-218 | when the map stores the leaf row itself, no proof is needed and the check compares the leaf directly |
| MerkleProof.ExhaustedProofFails | sdk/src/assertions/bmff_hash.rs:186-203 | a proof that runs out while a sibling is still needed fails the check |
| BmffHash.FirstMoof | sdk/src/assertions/bmff_hash.rs:510-511 | finds the first `moof` box, and None exactly when there is none |
| BmffHash.CollectFragments | sdk/src/assertions/bmff_hash.rs:518-525 | the collected groups are fragments (one leading `moof`, no other) and together they are exactly the boxes read |
| BmffHash.SplitFragmentBoxes | sdk/src/assertions/bmff_hash.rs:507-528 | no groups iff there is no `moof` or the list starts with one (the source's `Some(0)` case); otherwise the fragments concatenate to the boxes from the first `moof` on |
| BmffHash.FragmentsAreUnique | sdk/src/assertions/bmff_hash.rs:507-528 | a box list splits into fragments in only one way |
| BmffHash.StoredGroupsKeys | sdk/src/assertions/bmff_hash.rs:483-504 | the split proof map has exactly the local ids of the Merkle maps as keys |
| BmffHash.StoredGroupOfLast | sdk/src/assertions/bmff_hash.rs:489-501 | a local id maps to the proofs of the last Merkle map carrying it, at that map's offset |
| BmffHash.SplitBmffMerkleMap | sdk/src/assertions/bmff_hash.rs:483-504 | without Merkle maps, all proofs go under id 0; with maps, the keys are the local ids, each holding the last such map's slice of `count` proofs |
| BmffHash.StscIndex | sdk/src/assertions/bmff_hash.rs:1611-1625 | no entries is `InvalidAsset("BMFF has no stsc entries")`; a first entry that already starts after the id is `InvalidAsset("BMFF no sample not found")`, and these are the only failures. Otherwise the result is the last entry whose first sample is at or before the sample id |
| BmffHash.FindMerkleMap | sdk/src/assertions/bmff_hash.rs:1449-1457 | the first map with the given unique and local id, and None exactly when no map has both |
| BmffHash.InsertMerkleMap | sdk/src/assertions/bmff_hash.rs:1448-1463 | a map with matching ids is replaced in place and nothing else moves; a new one is appended; the first one starts the list |
| BmffHash.InsertMerkleMapIdempotent | sdk/src/assertions/bmff_hash.rs:1448-1463 | inserting the same map twice is inserting it once, and afterwards the map is found |
| BmffHash.NewMerkleMap | sdk/src/assertions/bmff_hash.rs:1433-1446 | an unsupported algorithm is UnsupportedType. Otherwise the map has the ids, the row, the algorithm, the fragment count truncated to `u32`, and the algorithm's all-zero placeholder as init hash |
| BmffHash.AddMerkleMap | sdk/src/assertions/bmff_hash.rs:1433-1465 | fails iff the algorithm is unsupported, and then with `UnsupportedType`. On success the new map replaces the first map with its ids, or is appended when there is none; every other map keeps its place |
| BmffHash.NewRollingRecord | sdk/src/assertions/bmff_hash.rs:1652-1665 | only supported algorithms give a record; any other fails with `UnsupportedType`. The record has no rolling or previous hash and the placeholder init hash |
| BmffHash.ShiftProperties | sdk/src/assertions/bmff_hash.rs:1667-1714 | shifting hands the current value on as the previous one and keeps algorithm and init hash; each setter is undone by its own clear |
| BmffHash.AddRollingHashFragment | sdk/src/assertions/bmff_hash.rs:1560-1578 | fails iff the algorithm is unsupported, even when a record exists, and then with `UnsupportedType`. The new rolling hash chains the previous hash, if any, with the fragment. An existing record keeps every other field |
| BmffHash.AddFragmentsChains | sdk/src/assertions/bmff_hash.rs:1468-1588 | adding fragments one by one and shifting after each leaves as previous hash the chain of all their hashes from the starting previous hash |
| RollingHashes.NewRollingHashAcceptsAnyInit | sdk/src/assertions/rolling_hash.rs:53-62 | `RollingHash::new` (`NewRollingHash`) stores the algorithm and name and no hashes, so every init segment passes its check |
| RollingHashes.ShiftHandsOver | sdk/src/assertions/rolling_hash.rs:80-119 | shifting moves the rolling hash to the previous hash and clears it, touching nothing else; each setter is undone by its clear |
| RollingHashes.VerifyStreamHash | sdk/src/assertions/rolling_hash.rs:302-327 | passes iff no init hash is stored or the stored one equals the init segment's digest under the current algorithm |
| RollingHashes.VerifyStreamSegment | sdk/src/assertions/rolling_hash.rs:335-399 | passes iff the init hash checks and, with a previous hash, the fragment has at most one anchor and one Merkle box and its anchor (if any) is the previous hash, and the stored rolling hash is the chain step of previous and fragment |
| RollingHashes.VerifyFragment | sdk/src/assertions/rolling_hash.rs:401-469 | passes iff init hash and box counts check, an anchor point agrees with both the given and the stored previous hash, and the stored rolling hash is the step from the given previous hash; each anchor disagreement gets its own message |
| RollingHashes.VerifyFragmentMemory | sdk/src/assertions/rolling_hash.rs:524-551 | passes iff the given rolling hash is the chain step of the given previous hash and the fragment |
| RollingHashes.HashFragment | sdk/src/assertions/rolling_hash.rs:553-599 | succeeds iff a previous hash is given exactly for non-first fragments and the fragment has no anchor (first) or exactly one (others); the value is the chain step |
| RollingHashes.FragmentHashes | sdk/src/assertions/rolling_hash.rs:498-505 | one digest per fragment, in order |
| RollingHashes.RollOverIsChain | sdk/src/assertions/rolling_hash.rs:501-505 | the fold over the later fragments succeeds iff each has exactly one anchor, and then equals the hash chain over their digests |
| RollingHashes.VerifyStreamFragmentsIsChain | sdk/src/assertions/rolling_hash.rs:476-517 | `verify_stream_fragments` (`VerifyStreamFragments`): a run of fragments verifies iff the init hash checks, the first fragment has no anchor and the others one each, and the stored rolling hash is the chain of all fragment digests |
| RollingHashes.AddNewFragment | sdk/src/assertions/rolling_hash.rs:173-292 | the source is checked in the code's order, each failure with its own `BadParam` message and the assertion untouched: not exactly one `moof`, then not exactly one `mdat`, then more than one rolling-hash or Merkle box. A failing digest of the output stream is passed on, again with the assertion untouched. Otherwise the rolling hash becomes the chain step, and the placeholder init hash is set iff the algorithm is supported; an unsupported one fails with `UnsupportedType` after the rolling hash was replaced. Only the rolling hash and the init hash ever change: name, exclusions, algorithm and previous hash are kept in every outcome |
| RollingHashes.UpdateInitHash | sdk/src/assertions/rolling_hash.rs:156-171 | only the init hash changes, and it is set |
| RollingHashes.UpdatedInitHashVerifies | sdk/src/assertions/rolling_hash.rs:156-171 | after the update the init segment passes the stream-hash check |
| RollingHashes.GenHashFromStream | sdk/src/assertions/rolling_hash.rs:122-153 | succeeds iff the digest is non-empty, and then stores it as the init hash; otherwise nothing changes and the error is BadParam |
| RollingHashes.ProducedSegmentVerifies | sdk/src/assertions/rolling_hash.rs:173-292 | a fragment produced from a well-formed source whose output stream hashes, once the init hash is updated, passes `verify_stream_segment` with its embedded anchor |
| RollingHashes.FirstProducedFragmentRejectedByFold | sdk/src/assertions/rolling_hash.rs:587-594 | a first fragment that carries an embedded box, even an empty one, is rejected by `verify_stream_fragments` |
| RollingHashes.ProduceAllChains | sdk/src/assertions/rolling_hash.rs:173-292 | producing a run of well-formed fragments whose output streams hash succeeds and leaves as rolling hash the chain of their digests from the previous hash |
| LiveBox.BigEndianRoundTrip | sdk/src/utils/live.rs:45-47 | reading back the four big-endian bytes of a `u32` gives the number |
| LiveBox.WriteAt | sdk/src/utils/live.rs:54-56 | writing at a position keeps the bytes before it, puts the data there, keeps the bytes after it, and grows the file only as needed |
| LiveBox.ReplaceC2paBox | sdk/src/utils/live.rs:33-62 | fails iff the size field cannot be read. Otherwise the result keeps the prefix, then the new box, then the bytes that followed the old box. The length is the larger of the old length and the written length, and any bytes past the written ones are the old file's |
| LiveBox.ReplaceWithLongerBox | sdk/src/utils/live.rs:122-191 | a new box at least as long as the old one gives exactly prefix, new box and the old remainder |
| LiveBox.ReplaceWithShorterBoxLeavesStaleBytes | sdk/src/utils/live.rs:49-59 | for every new box shorter than the old one by `d` bytes, the file keeps its length and its last `d` bytes are the old ones, so it is not the intended prefix, new box and remainder |
| LiveBox.ReplaceC2paBoxTruncating | sdk/src/utils/live.rs:33-62 | with truncation: fails iff the size field cannot be read; otherwise the file is exactly prefix, new box and remainder |
| LiveBox.TruncatingReplaceIsUndone | sdk/src/utils/live.rs:33-62 | replacing a box and then putting the old box back restores the file |
| SignerPayload.FirstMatch | cawg_identity/src/identity_assertion/signer_payload.rs:123 | finds the leftmost match of `/c2pa/[^/]+/`, and None exactly when no position matches |
| SignerPayload.StripAbsoluteUrl | cawg_identity/src/identity_assertion/signer_payload.rs:52-59 | for an absolute assertion URL `p/c2pa/<manifest>/r` with no slash in `p`, removing the prefix gives `p` followed by `r` |
| SignerPayload.StripNeedsSegment | cawg_identity/src/identity_assertion/signer_payload.rs:58 | the replacement changes the URL only if it contains `/c2pa/` |
| SignerPayload.FindReference | cawg_identity/src/identity_assertion/signer_payload.rs:51-60 | the first claim assertion whose URL, as is or with the prefix removed, equals the reference; None exactly when there is none |
| SignerPayload.ReferenceErrorIff | cawg_identity/src/identity_assertion/signer_payload.rs:50-87 | a reference is fine iff a claim assertion matches and the first such has the same hash; NotInClaim iff no claim assertion matches; Mismatch iff one matches but the first such has another hash |
| SignerPayload.CheckReferences | cawg_identity/src/identity_assertion/signer_payload.rs:50-88 | passes iff every reference is fine; otherwise the error is the first failing reference's, and every earlier reference is fine |
| SignerPayload.LastSegment | cawg_identity/src/identity_assertion/signer_payload.rs:98 | None iff the URL has no `/`; else the text after the last `/` |
| SignerPayload.FindDuplicate | cawg_identity/src/identity_assertion/signer_payload.rs:107-116 | None iff no URL repeats an earlier one; otherwise the first URL that does |
| SignerPayload.CheckAgainstManifest | cawg_identity/src/identity_assertion/signer_payload.rs:44-119 | passes iff every reference matches, some reference's last segment starts with `c2pa.hash.`, and no URL is repeated. The errors are checked in the source's order, and a reference failure is the first failing reference's own error |
| DebugByteSlice.DebugFormat | cawg_identity/src/internal/debug_byte_slice.rs:21-32 | up to 20 bytes print as a hex list that parses back to the bytes. Longer slices print their length and the infix, then a list that parses back to the first 20 bytes |
| DebugByteSlice.ListBodyRoundTrip | cawg_identity/src/internal/debug_byte_slice.rs:30 | the comma-separated `xx` entries parse back to the bytes |
| DebugByteSlice.HexListRoundTrip | cawg_identity/src/internal/debug_byte_slice.rs:30 | the bracketed `{:02x?}` list parses back to the bytes |
| DebugByteSlice.DebugFormatBranches | cawg_identity/src/internal/debug_byte_slice.rs:22-31 | the output starts with `[` exactly for short slices; the long form's length is fixed by the slice length |
| LivePaths.Components | cli/src/live/utility.rs:96-123 | after the first, no component is a root or `.`; every normal component is a plain name |
| LivePaths.FileName | cli/src/live/utility.rs:96-107 | a file name, when there is one, is a plain name |
| LivePaths.FileNameOfChild | cli/src/live/utility.rs:96-107 | the file name of `dir/name` is `name`, except none for `..` |
| LivePaths.Extension | cli/src/live/utility.rs:96-107 | an extension exists iff the file name has a dot after its first character; it has no dot, and the file name ends with `.` and the extension |
| LivePaths.ExtensionOfChild | cli/src/live/utility.rs:96-107 | the extension of `dir/stem.ext` is `ext` |
| LivePaths.HiddenFileHasNoExtension | cli/src/live/utility.rs:96-107 | `dir/.ext` has no extension |
| LivePaths.FragmentIff | cli/src/live/utility.rs:96-107 | a path is a fragment iff its file name ends with `.m4s` and is longer than that |
| LivePaths.FragmentOfChild | cli/src/live/utility.rs:96-107 | `dir/stem.ext` is a fragment iff `ext` is `m4s` |
| LivePaths.InitIff | cli/src/live/utility.rs:112-123 | `dir/name` is an init segment iff `name` contains `init` |
| LivePaths.PathOrder | cli/src/live/mod.rs:189-198 | the path order is total and transitive, and two paths tie exactly when their components agree |
| LivePaths.SortBy | cli/src/live/mod.rs:164 | sorting permutes the list |
| LivePaths.SortBySorted | cli/src/live/mod.rs:164 | the sorted list is ordered under any total preorder |
| LiveSigner.ForwardTypeNamesDistinct | cli/src/live/mod.rs:42-59 | the four forward types print differently |
| LiveSigner.SignedPathPieces | cli/src/live/mod.rs:236-253 | the signed path has the same pieces as the path, with exactly the pieces equal to the stream name renamed to `<name>_<type>` |
| LiveSigner.SignedPathUnchanged | cli/src/live/mod.rs:236-253 | a path without the stream name is left as it is |
| LiveSigner.AsWrittenAgreesOnPlainRelativePaths | cli/src/live/mod.rs:236-253 | for relative paths without empty pieces, the source's rebuild and the corrected one agree |
| LiveSigner.AsWrittenDropsRoot | cli/src/live/mod.rs:240-252 | for every name without `/`, the source's rebuild turns `/name` into `name_ty` where `/name_ty` is meant (`/a` into `a_manifest`) |
| LiveSigner.PartitionSpec | cli/src/live/mod.rs:146-162 | the scan fails iff more than one init file is seen; otherwise it keeps the one init file and the other paths in order |
| LiveSigner.PathsToSign | cli/src/live/mod.rs:142-167 | two or more init files and no init file are distinct errors. Otherwise the result is the one init file and a sorted permutation of the other paths |
| LiveSigner.LastChunkUnique | cli/src/live/mod.rs:218-222 | the last chunk of `w` is the only non-empty suffix of at most `w` elements that starts at a multiple of `w` |
| LiveSigner.ForwardErrors | cli/src/live/mod.rs:175-231 | the corrected `forward` (`Forward`) fails with the not-init error exactly when no pair is an init pair; the only other failure is the missing-fragments error |
| LiveSigner.ForwardShape | cli/src/live/mod.rs:175-231 | a successful forward list is the init pair followed by fragments, each one the fragment at a stated position of the sorted fragment list |
| LiveSigner.LastChunk | cli/src/live/mod.rs:218-222 | the last chunk of `w` is a non-empty suffix of at most `w` elements that starts at a multiple of `w` |
| LiveSigner.ForwardAll | cli/src/live/mod.rs:188-205 | window size 0 forwards the init pair and all fragments in path order |
| LiveSigner.ForwardManifest | cli/src/live/mod.rs:209-216 | a manifest forwards the init pair and then the newest five fragments, newest first |
| LiveSigner.ForwardWindow | cli/src/live/mod.rs:217-228 | other types forward the init pair and then the last chunk of `w` fragments, newest first; no fragments is an error |
| LiveSigner.InitListedOnce | cli/src/live/mod.rs:175-231 | a successful forward list starts with the init pair and lists no other init |
| LiveSigner.ForwardTail | cli/src/live/mod.rs:175-231 | after the init pair, every forwarded pair is one of the fragments |
| LiveSigner.AsWrittenRepeatsInit | cli/src/live/mod.rs:209-216 | with exactly five pairs, the source's manifest list (`ForwardAsWritten`) names the init pair twice |
| LiveSigner.AsWrittenAgreesOffBoundary | cli/src/live/mod.rs:209-216 | off that boundary, the source and the corrected forward agree |
| LiveRegexp.ParseIndex | cli/src/live/regexp.rs:30-41 | a parsed index is `init`, `mpd`, `master`, `media` in any case, or a `u32`; a number is the decimal value of the text. It fails iff the lower-cased text is no keyword and no `u32`, and the error is the parse's message for that text (`ParseIntError`): empty string, too large when its leading digits are worth `2^32` or more, else invalid digit |
| LiveRegexp.FromStrRadixMeaning | cli/src/live/regexp.rs:38 | the `u32` parse, written as core's digit loop (`FromStrRadix`, `ScanDigits`: left to right, a non-digit or an overflowing digit ends it), succeeds exactly when the text is an optional `+` and digits worth less than the limit, with that value. Otherwise it reports an empty string, overflow when the leading digit run is worth the limit or more even if a non-digit follows, or else an invalid digit |
| LiveRegexp.ParseIndexOverflowFirst | cli/src/live/regexp.rs:38 | any number of `2^32` or more followed by any text at all is rejected as too large, not as an invalid digit (`ParseIndexOverflowExample`: `4294967296x`) |
| LiveRegexp.ParseIndexName | cli/src/live/regexp.rs:20-58 | parsing the display (`IndexName`, with `ManifestTypeName` for manifests) of any index gives it back |
| LiveRegexp.ParseIndexTooLarge | cli/src/live/regexp.rs:30-41 | a number of `2^32` or more is rejected as too large |
| LiveRegexp.ParseIndexIgnoresCase | cli/src/live/regexp.rs:30-41 | upper and lower case parse alike |
| LiveRegexp.RunOf | cli/src/live/regexp.rs:119 | a run of digits (or zeros) followed by a non-member has exactly that length |
| LiveRegexp.Uri | cli/src/live/regexp.rs:67-83 | Errors with `no matches uri` exactly when the fragment pattern does not match. On success the id is below 256 and the index is `init` or a `u32`. The only other error is a too-large number |
| LiveRegexp.UriRoundTrip | cli/src/live/regexp.rs:67-83 | `dir<rep>/segment_<zeros><index>.m4s` with `rep < 256` gives back `rep` and the index, for every `dir` that does not end in a digit and holds no `/segment_` (`SegmentDir`; e.g. `cam1/` or `/srv/2024/`) |
| LiveRegexp.UriRepTooLarge | cli/src/live/regexp.rs:80 | for the same segment URIs, a representation id of 256 or more is rejected as too large |
| LiveRegexp.Manifest | cli/src/live/regexp.rs:85-113 | The result is MPD iff the URL contains `.mpd`. It is Master iff there is no `.mpd` and it contains `master.m3u8`. Otherwise, with `media_` in it, the playlist pattern's leftmost match decides: none is `no matches manifest`, a `rep` capture that fits a `u8` is Media with that id, a larger one is the too-large error. Without `media_` it is the invalid-URL error |
| LiveRegexp.ManifestRoundTrip | cli/src/live/regexp.rs:85-120 | `<dir>media_<rep>.m3u8`, for any `dir` that does not itself contain `.mpd`, `master.m3u8` or `media_`, and `rep < 256`, gives back a media manifest for `rep` |
| LiveMerkleTree.QuotRemUnique | cli/src/live/merkle_tree.rs:38-43 | quotient and remainder of `usize` division are unique |
| LiveMerkleTree.WindowAsWritten | cli/src/live/merkle_tree.rs:38-43 | the window is `w` long and starts one after a multiple of `w`. It contains the requested index iff the index is not a multiple of `w` |
| LiveMerkleTree.SegmentWindow | cli/src/live/merkle_tree.rs:38-43 | the corrected window is `w` long, contains the requested index and starts at its group's first fragment |
| LiveMerkleTree.WholeWindowIsGroup | cli/src/live/merkle_tree.rs:75-82 | every fragment of the corrected window belongs to the requested fragment's Merkle group |
| LiveMerkleTree.WindowAsWrittenOffBoundary | cli/src/live/merkle_tree.rs:38-43 | off a multiple of `w`, the source's window is the corrected one |
| LiveMerkleTree.WindowAsWrittenOnBoundary | cli/src/live/merkle_tree.rs:38-43 | on a multiple of `w`, the source's window is the next group: it misses the index, and every fragment in it has the next Merkle index |
| LiveMerkleTree.MakeLeaf | cli/src/live/merkle_tree.rs:96-134 | A leaf is built iff its file can be read. Then the leaf hash is the fragment digest under the assertion's exclusions. Proofs are `-NONE-` iff the fragment's map has no hashes. It is current iff it is the requested fragment |
| LiveMerkleTree.Leaves | cli/src/live/merkle_tree.rs:96-134 | one leaf per fragment of the window, each as built alone; fails iff some file of the window cannot be read, and then with the error of the first such fragment, every earlier one being readable (`FirstFailure`) |
| LiveMerkleTree.Build | cli/src/live/merkle_tree.rs:23-134 | each failure before the leaf loop with the source's message, in its order: no index requested, init unreadable, `missing MerkleMaps`, the wrong number of maps, `missing init hash`. It gets through the leaf loop iff the last map is the group's and has an init hash and every window fragment that opens has one Merkle box and an algorithm is known; a failure there is the first failing fragment's error. The init part is copied from that map, and leaf `j` is fragment `from + j` built alone. The layer loop after it is not modelled, so Ok means the init part and leaves were built |
| LiveMerkleTree.NewMerkleTreeAsWritten | cli/src/live/merkle_tree.rs:23-134 | the same failures, first-failing-fragment error and success condition as `Build`; the source's tree has `w` leaves over its window, each the fragment's leaf built alone; a leaf exists iff its file does, and is current iff it is the requested index |
| LiveMerkleTree.NewMerkleTree | cli/src/live/merkle_tree.rs:23-134 | the same failures, first-failing-fragment error and success condition as `Build`; the corrected tree's leaves are the requested fragment's group, each that fragment's leaf built alone, named `Fragment <i>`, with exactly the requested one current |
| Manifold.NewEventPayload | cli/src/live/manifold.rs:26-32 | a new payload serves one read |
| Manifold.Insert | cli/src/live/manifold.rs:41-43 | the payload replaces any earlier one for the representation; others are kept |
| Manifold.Remove | cli/src/live/manifold.rs:59-61 | the representation is gone and the rest is unchanged |
| Manifold.Get | cli/src/live/manifold.rs:45-57 | A missing representation is `missing value`. Otherwise the payload comes back with its count one lower. It stays stored iff that count is still positive, and others are untouched |
| Manifold.Drain | cli/src/live/manifold.rs:45-57 | a payload stored with count `c` serves exactly `c` reads, with counts `c-1` down to 0, then `missing value`; others are untouched |
| Manifold.InsertThenGet | cli/src/live/manifold.rs:26-57 | a freshly inserted payload serves one manifest request and is then gone |

## Left out

- Hashing: digests (`hash_stream_by_alg`, `concat_and_hash`) are uninterpreted parameters; no property depends on their values. sdk/src/utils/hash_utils.rs is not part of this model.
- LiveMerkleTree.MakeLeaf: treats the fragment digest as total. Its `hash_stream_by_alg` call (cli/src/live/merkle_tree.rs:121) can fail, for example on an algorithm it does not know, and that error is not modelled. The same holds for the stream digests in `RollingHashes.GenHashFromStream`, `RollingHashes.UpdateInitHash` and the verifiers (sdk/src/assertions/rolling_hash.rs:146, 166, 378, 452, 541, 564). Only `RollingHashes.AddNewFragment` models a failing stream digest (sdk/src/assertions/rolling_hash.rs:266-267), through `Crypto.streamError`.
- Box parsing (`read_bmff_c2pa_boxes`, `C2PABmffBoxesRollingHash::from_reader`, `bmff_to_jumbf_exclusions`) is not modelled. Its results are inputs.
- File and stream I/O, `fs::copy`, directory listings, `signed_output` in `sdk/src/utils/live.rs`, and the `clear_media`/`process_request_body` helpers are all I/O and not modelled.
- `C2PAMerkleTree` and `to_layout` are not part of this model. The layout is a parameter of the proof playback. `Tree`/`Layout` are a reference tree that promotes an unpaired last node.
- `add_merkle_for_fragmented` is modelled only from the stored row on (building the map and inserting it). Reading the mp4 tracks with the `mp4` crate, and the floating-point `max_proofs` computation, are left out.
- `BmffHash::verify_stream_segment`, `verify_fragment`, `verify_fragment_memory` and `verify_stream_segments` are left out. They repeat the rolling-hash checks already modelled in `RollingHashes` and add Merkle checks over parsed mp4 tracks.
- The layer loop of `MerkleTree::_new` (cli/src/live/merkle_tree.rs:136-171) and the base64 encoding of its nodes are left out, so `LiveMerkleTree.Build` and the two `NewMerkleTree` functions stop after the leaf loop: their Ok means the init part and the leaves were built, not that `_new` returns. The loop builds the layers inline and does not reach Ok in many cases:
  - It pairs the left element `2i` with element `i + 1`, where `i` counts the pairs (line 145), so from the second pair on it hashes the wrong siblings.
  - With a window of 1 the single leaf's partner `tree[0][1]` is out of bounds, so it panics.
  - When a layer starts with a missing leaf it ends that layer at once and pushes an empty one. It never reaches a one-element layer, so it loops forever.
  - It can fail with `missing alg` (line 149).
- `Manifold::get_json` (serde JSON) is left out.
- The async waits and the concurrent `DashMap` are not modelled: the manifold is a plain map value.
- `local_path`, `cdn_url`, `output`, `local`, `path_to_cdn_url`, `paths`, `rolling_hash_input_paths`, `rolling_hash_forward_urls`, `post`, `delete`, `sign` and `clear_dir` in `cli/src/live/mod.rs` are filesystem, URL or HTTP plumbing. `forward` receives its (path, URL) pairs already built.
- The manifest signer, COSE signing, routes and benchmarks are outside the modelled core.
- LiveRegexp.Uri: `\d` is modelled as the ASCII digits, while the `regex` crate's `\d` also matches other Unicode digits.
- LivePaths.FileName: non-UTF-8 paths and URIs (the source's `to_str` failing) are not modelled.
- LiveSigner.ForwardErrors: requires at most one init pair. `forward` does not check this itself, and with two init pairs its comparator is not a total order. `sign` calls `paths_to_sign` on the same listing just before (cli/src/live/mod.rs:433-435), and that rejects a second init file (cli/src/live/mod.rs:146-156). A file added between the two directory reads is not covered.
- LiveSigner.Forward and LiveSigner.ForwardAsWritten: require a non-empty listing, because `forward` indexes `pairs[0]` (cli/src/live/mod.rs:200) and panics on an empty one. They also require at most one init pair, for the reason given on the `LiveSigner.ForwardErrors` line. Every forward lemma inherits both requirements.
- LiveSigner.ForwardShape: the forward lemmas are stated for any init test `isInit`. The source's test is `is_init` on the local path, `PairIsInit` here, so they hold for it in particular.
- LivePaths.SortBy: stability of the sort is not stated, only that it permutes and orders.
- LiveMerkleTree.NewMerkleTree: requires the index to be at least 1 and a non-empty Merkle list where it is read. These are the `usize` underflow and index panics of the source. It also requires a window of at least 1 (`w > 0`, as do `Build`, `NewMerkleTreeAsWritten`, `WindowOf` and the window lemmas). `_new` computes `idx % window_size` (cli/src/live/merkle_tree.rs:38) and `(idx - 1) / window_size` (line 75), so a zero window panics there, and the CLI does accept 0 as a window size (cli/src/live/mod.rs:203, 445).
- LiveBox.ReplaceC2paBox: requires an offset, because the source panics (`unimplemented!`) without one.
- BmffHash.SplitBmffMerkleMap: requires the maps' counts to fit in the proof list; the source would index out of bounds.
- RollingHashes.VerifyStreamSegment and RollingHashes.VerifyFragment: require an embedded box where the source reads `rolling_hashes[0]`, since the source panics on an empty list.
- RollingHashes.FirstProducedFragmentRejectedByFold: the first fragment `add_new_fragment` writes embeds an empty anchor box, which `verify_stream_fragments` rejects. Whether streams are meant to be verified with that function is not decided here, so this is recorded but not claimed as a defect.

## Findings

| source | as written | input that shows it | evidently intended | confidence | as-written member | corrected member |
|---|---|---|---|---|---|---|
| sdk/src/utils/live.rs:49-59 | the new box and remainder are written over the file, which is never truncated | any new box shorter than the old one, e.g. a 12-byte file with an 8-byte box at 0 replaced by a 4-byte box, leaves the old last bytes behind | the file ends after the remainder, so putting the old box back restores the file | not executed | LiveBox.ReplaceWithShorterBoxLeavesStaleBytes | LiveBox.TruncatingReplaceIsUndone |
| cli/src/live/mod.rs:240-252 | the pieces of `path.split('/')` are pushed onto an empty `PathBuf`; the empty first piece of an absolute path is dropped | name `a`, path `/a`, type manifest gives `a_manifest` | `/a_manifest`, the documented `/path/to/media/<name>_<ty>/...` | not executed | LiveSigner.AsWrittenDropsRoot | LiveSigner.SignedPathPieces |
| cli/src/live/mod.rs:209-216 | the manifest list starts at `len - 5` unless `len < 5` | exactly five sorted pairs (init plus four fragments): the cutoff 0 makes the init pair appear again at the end | the cutoff never reaches back past the first fragment (`len <= 5` uses 1) | not executed | LiveSigner.AsWrittenRepeatsInit | LiveSigner.InitListedOnce |
| cli/src/live/merkle_tree.rs:38-43 | the window is `idx - idx % w + 1 ..= idx + (w - idx % w)` | index 4, window size 4: the window is fragments 5..8, which misses fragment 4 and belongs to Merkle group 1, while `merkle_idx` picks group 0 | the window of the requested fragment's group, `idx - (idx - 1) % w ..` | not executed | LiveMerkleTree.WindowAsWrittenOnBoundary | LiveMerkleTree.WholeWindowIsGroup |

=== FILE: bmff_hash.dfy ===
/** The bookkeeping of a `c2pa.hash.bmff` assertion for fragmented media:
    cutting a box list into fragments, distributing the per-fragment proofs
    over the assertion's Merkle maps, the Sample To Chunk lookup (section
    8.7.4 of ISO/IEC 14496-12), adding a Merkle map, and the assertion's
    rolling-hash record. */
module BmffHash {
  import opened Wrappers
  import opened Text
  import opened Hashing
  import opened MerkleProof

  // ---- fragment boxes ----

  /** `BoxInfoLite`: a top-level box's path (its type), offset and size. */
  datatype BoxInfo = BoxInfo(path: string, offset: nat, size: nat)

  const MOOF: string := "moof"

  predicate IsMoof(b: BoxInfo) {
    b.path == MOOF
  }

  /** The position of the first `moof` box. */
  function FirstMoof(boxes: seq<BoxInfo>): (r: Option<nat>)
    ensures r.None? <==> forall i :: 0 <= i < |boxes| ==> !IsMoof(boxes[i])
    ensures r.Some? ==> (r.value < |boxes| && IsMoof(boxes[r.value])
                         && forall i :: 0 <= i < r.value ==> !IsMoof(boxes[i]))
  {
    if |boxes| == 0 then None
    else if IsMoof(boxes[0]) then Some(0)
    else
      match FirstMoof(boxes[1..])
      case None => None
      case Some(p) => Some(p + 1)
  }

  /** A fragment: a `moof` box followed by boxes that are not `moof`. */
  predicate IsFragment(group: seq<BoxInfo>) {
    |group| > 0 && IsMoof(group[0]) && forall i :: 1 <= i < |group| ==> !IsMoof(group[i])
  }

  function Flatten(groups: seq<seq<BoxInfo>>): seq<BoxInfo> {
    if |groups| == 0 then [] else groups[0] + Flatten(groups[1..])
  }

  /** The loop of `split_fragment_boxes`: `current` is the fragment being
      collected; each further `moof` closes it and opens a new one. */
  function CollectFragments(current: seq<BoxInfo>, rest: seq<BoxInfo>): (groups: seq<seq<BoxInfo>>)
    requires IsFragment(current)
    ensures |groups| > 0
    ensures forall g :: 0 <= g < |groups| ==> IsFragment(groups[g])
    ensures Flatten(groups) == current + rest
    decreases |rest|
  {
    if |rest| == 0 then [current]
    else if IsMoof(rest[0]) then
      var tail := CollectFragments([rest[0]], rest[1..]);
      assert [rest[0]] + rest[1..] == rest;
      [current] + tail
    else
      var tail := CollectFragments(current + [rest[0]], rest[1..]);
      assert current + [rest[0]] + rest[1..] == current + rest;
      tail
  }

  /** `split_fragment_boxes`: the boxes from the first `moof` on, cut into
      fragments. Nothing is returned when there is no `moof`, or when the
      first box is a `moof` (no initialization segment in front: not
      fragmented content). */
  function SplitFragmentBoxes(boxes: seq<BoxInfo>): (groups: seq<seq<BoxInfo>>)
    ensures FirstMoof(boxes).None? || FirstMoof(boxes) == Some(0) <==> |groups| == 0
    ensures forall g :: 0 <= g < |groups| ==> IsFragment(groups[g])
    ensures |groups| > 0 ==> Flatten(groups) == boxes[FirstMoof(boxes).value..]
  {
    match FirstMoof(boxes)
    case None => []
    case Some(pos) =>
      if pos == 0 then []
      else
        assert [boxes[pos]] + boxes[pos + 1..] == boxes[pos..];
        CollectFragments([boxes[pos]], boxes[pos + 1..])
  }

  /** Splitting into fragments is undone by concatenation, and cuts exactly
      before each `moof`: there is one way only to write a box list as a
      run of fragments. */
  lemma {:induction false} FragmentsAreUnique(groups: seq<seq<BoxInfo>>, others: seq<seq<BoxInfo>>)
    requires forall g :: 0 <= g < |groups| ==> IsFragment(groups[g])
    requires forall g :: 0 <= g < |others| ==> IsFragment(others[g])
    requires Flatten(groups) == Flatten(others)
    ensures groups == others
    decreases |groups|
  {
    if |groups| > 0 && |others| > 0 {
      var a, b := groups[0], others[0];
      var fa, fb := Flatten(groups[1..]), Flatten(others[1..]);
      assert a + fa == b + fb;
      FlattenHead(groups[1..]);
      FlattenHead(others[1..]);
      FragmentPrefix(a, fa, b, fb);
      assert fa == fb by {
        assert fa == (a + fa)[|a|..];
        assert fb == (b + fb)[|b|..];
      }
      FragmentsAreUnique(groups[1..], others[1..]);
    } else {
      FlattenHead(groups);
      FlattenHead(others);
    }
  }

  /** A run of fragments flattens to nothing only when it is empty, and
      otherwise starts with a `moof`. */
  lemma FlattenHead(groups: seq<seq<BoxInfo>>)
    requires forall g :: 0 <= g < |groups| ==> IsFragment(groups[g])
    ensures |groups| == 0 <==> |Flatten(groups)| == 0
    ensures |groups| > 0 ==> IsMoof(Flatten(groups)[0])
  {
    if |groups| > 0 {
      assert Flatten(groups)[0] == groups[0][0];
    }
  }

  lemma FirstMoofAfterFree(x: seq<BoxInfo>, y: seq<BoxInfo>)
    requires forall i :: 0 <= i < |x| ==> !IsMoof(x[i])
    requires |y| > 0 && IsMoof(y[0])
    ensures FirstMoof(x + y) == Some(|x|)
  {
    assert (x + y)[|x|] == y[0];
    assert forall i :: 0 <= i < |x| ==> (x + y)[i] == x[i];
  }

  /** Where the fragment at the head of a box list ends: at the next `moof`,
      or at the end of the list. */
  function FragmentEnd(s: seq<BoxInfo>): nat
    requires |s| > 0
  {
    match FirstMoof(s[1..])
    case None => |s|
    case Some(p) => p + 1
  }

  lemma FragmentEndIsLength(a: seq<BoxInfo>, fa: seq<BoxInfo>)
    requires IsFragment(a)
    requires fa == [] || IsMoof(fa[0])
    ensures FragmentEnd(a + fa) == |a|
  {
    assert (a + fa)[1..] == a[1..] + fa;
    if fa == [] {
      assert a[1..] + fa == a[1..];
    } else {
      FirstMoofAfterFree(a[1..], fa);
    }
  }

  /** Two fragments at the head of the same box list are equal. */
  lemma FragmentPrefix(a: seq<BoxInfo>, fa: seq<BoxInfo>, b: seq<BoxInfo>, fb: seq<BoxInfo>)
    requires IsFragment(a) && IsFragment(b)
    requires fa == [] || IsMoof(fa[0])
    requires fb == [] || IsMoof(fb[0])
    requires a + fa == b + fb
    ensures a == b
  {
    FragmentEndIsLength(a, fa);
    FragmentEndIsLength(b, fb);
    assert a == (a + fa)[..|a|];
    assert b == (b + fb)[..|b|];
  }

  // ---- per-fragment proofs ----

  /** `BmffMerkleMap`: the proof a fragment carries for one Merkle map. */
  datatype BmffMerkleMap = BmffMerkleMap(uniqueId: nat, localId: nat, location: nat, hashes: Option<seq<Bytes>>)

  /** Number of proofs the maps before the `k`-th claim. */
  function Offset(maps: seq<MerkleMap>, k: nat): nat
    requires k <= |maps|
  {
    if k == 0 then 0 else Offset(maps, k - 1) + maps[k - 1].count
  }

  lemma {:induction false} OffsetMonotone(maps: seq<MerkleMap>, j: nat, k: nat)
    requires j <= k <= |maps|
    ensures Offset(maps, j) <= Offset(maps, k)
    decreases k - j
  {
    if j < k {
      OffsetMonotone(maps, j, k - 1);
    }
  }

  /** The proofs the `k`-th map claims. */
  function Group(proofs: seq<BmffMerkleMap>, maps: seq<MerkleMap>, k: nat): seq<BmffMerkleMap>
    requires k < |maps| && Offset(maps, |maps|) <= |proofs|
  {
    OffsetMonotone(maps, k + 1, |maps|);
    proofs[Offset(maps, k)..Offset(maps, k + 1)]
  }

  /** The local ids of the first `n` maps. */
  function LocalIds(maps: seq<MerkleMap>, n: nat): set<nat>
    requires n <= |maps|
  {
    set k | 0 <= k < n :: maps[k].localId
  }

  lemma LocalIdsStep(maps: seq<MerkleMap>, n: nat)
    requires 0 < n <= |maps|
    ensures LocalIds(maps, n) == LocalIds(maps, n - 1) + {maps[n - 1].localId}
  {
    forall id | id in LocalIds(maps, n)
      ensures id in LocalIds(maps, n - 1) + {maps[n - 1].localId}
    {
      var k :| 0 <= k < n && maps[k].localId == id;
      if k < n - 1 {
        assert id in LocalIds(maps, n - 1);
      }
    }
  }

  /** No later map shares the `k`-th map's local id, so its group is the one
      the map keeps. */
  predicate LastWithLocalId(maps: seq<MerkleMap>, k: nat, upTo: nat)
    requires k < upTo <= |maps|
  {
    forall j :: k < j < upTo ==> maps[j].localId != maps[k].localId
  }

  /** The groups after the first `n` maps: each map in turn stores its group
      under its local id, overwriting an earlier one. */
  function StoredGroups(proofs: seq<BmffMerkleMap>, maps: seq<MerkleMap>, n: nat): map<nat, seq<BmffMerkleMap>>
    requires n <= |maps| && Offset(maps, |maps|) <= |proofs|
  {
    if n == 0 then map[] else StoredGroups(proofs, maps, n - 1)[maps[n - 1].localId := Group(proofs, maps, n - 1)]
  }

  lemma {:induction false} StoredGroupsKeys(proofs: seq<BmffMerkleMap>, maps: seq<MerkleMap>, n: nat)
    requires n <= |maps| && Offset(maps, |maps|) <= |proofs|
    ensures StoredGroups(proofs, maps, n).Keys == LocalIds(maps, n)
  {
    if n > 0 {
      StoredGroupsKeys(proofs, maps, n - 1);
      var id := maps[n - 1].localId;
      assert StoredGroups(proofs, maps, n).Keys == StoredGroups(proofs, maps, n - 1).Keys + {id};
      LocalIdsStep(maps, n);
    }
  }

  /** The group kept under a local id is that of the last map with the id. */
  lemma {:induction false} StoredGroupOfLast(proofs: seq<BmffMerkleMap>, maps: seq<MerkleMap>, n: nat, k: nat)
    requires k < n <= |maps| && Offset(maps, |maps|) <= |proofs|
    requires LastWithLocalId(maps, k, n)
    ensures maps[k].localId in StoredGroups(proofs, maps, n)
    ensures StoredGroups(proofs, maps, n)[maps[k].localId] == Group(proofs, maps, k)
  {
    if k < n - 1 {
      assert maps[n - 1].localId != maps[k].localId;
      assert LastWithLocalId(maps, k, n - 1);
      StoredGroupOfLast(proofs, maps, n - 1, k);
    }
  }

  /** `split_bmff_merkle_map`: the proofs, stored contiguously, are cut into
      groups of each map's `count`, keyed by the map's local id (a later map
      with the same id overwrites the group); proofs past the last group are
      dropped. Without maps everything is one group under key 0. `split_off`
      panics when a count runs past the end, hence the precondition; under
      it the count check never fails. */
  method SplitBmffMerkleMap(proofs: seq<BmffMerkleMap>, merkle: Option<seq<MerkleMap>>)
    returns (r: Result<map<nat, seq<BmffMerkleMap>>, Error>)
    requires merkle.Some? ==> Offset(merkle.value, |merkle.value|) <= |proofs|
    ensures r.Ok?
    ensures merkle.None? ==> r.value == map[0 := proofs]
    ensures merkle.Some? ==> r.value.Keys == LocalIds(merkle.value, |merkle.value|)
    ensures merkle.Some? ==> forall k :: 0 <= k < |merkle.value| && LastWithLocalId(merkle.value, k, |merkle.value|) ==>
      r.value[merkle.value[k].localId] == Group(proofs, merkle.value, k)
  {
    if merkle.None? {
      return Ok(map[0 := proofs]);
    }
    var maps := merkle.value;
    var current := proofs;
    var output: map<nat, seq<BmffMerkleMap>> := map[];
    var i := 0;
    while i < |maps|
      invariant 0 <= i <= |maps|
      invariant Offset(maps, i) <= |proofs| && current == proofs[Offset(maps, i)..]
      invariant output == StoredGroups(proofs, maps, i)
    {
      SplitStep(proofs, maps, i, current);
      var m := maps[i];
      var rest := current[m.count..];
      current := current[..m.count];
      if |current| != m.count {
        return Err(HashMismatch("MerkleMap count incorrect"));
      }
      ghost var stored := StoredGroups(proofs, maps, i + 1);
      assert stored == StoredGroups(proofs, maps, i)[m.localId := Group(proofs, maps, i)];
      output := output[m.localId := current];
      assert output == stored;
      current := rest;
      i := i + 1;
    }
    StoredGroupsComplete(proofs, maps);
    return Ok(output);
  }

  /** After all maps: one key per local id, each holding the group of the
      last map with that id. */
  lemma StoredGroupsComplete(proofs: seq<BmffMerkleMap>, maps: seq<MerkleMap>)
    requires Offset(maps, |maps|) <= |proofs|
    ensures StoredGroups(proofs, maps, |maps|).Keys == LocalIds(maps, |maps|)
    ensures forall k :: 0 <= k < |maps| && LastWithLocalId(maps, k, |maps|) ==>
      StoredGroups(proofs, maps, |maps|)[maps[k].localId] == Group(proofs, maps, k)
  {
    StoredGroupsKeys(proofs, maps, |maps|);
    forall k | 0 <= k < |maps| && LastWithLocalId(maps, k, |maps|)
      ensures StoredGroups(proofs, maps, |maps|)[maps[k].localId] == Group(proofs, maps, k)
    {
      StoredGroupOfLast(proofs, maps, |maps|, k);
    }
  }

  /** One round of the split: the next `count` proofs are the map's group
      and the rest starts at the next map's offset. */
  lemma SplitStep(proofs: seq<BmffMerkleMap>, maps: seq<MerkleMap>, i: nat, current: seq<BmffMerkleMap>)
    requires i < |maps| && Offset(maps, |maps|) <= |proofs|
    requires Offset(maps, i) <= |proofs| && current == proofs[Offset(maps, i)..]
    ensures maps[i].count <= |current| && Offset(maps, i + 1) <= |proofs|
    ensures current[..maps[i].count] == Group(proofs, maps, i)
    ensures current[maps[i].count..] == proofs[Offset(maps, i + 1)..]
  {
    OffsetMonotone(maps, i + 1, |maps|);
    assert Offset(maps, i + 1) == Offset(maps, i) + maps[i].count;
  }

  // ---- Sample To Chunk ----

  /** An entry of the Sample To Chunk box, with the index of its first sample. */
  datatype StscEntry = StscEntry(firstChunk: nat, samplesPerChunk: nat, sampleDescriptionIndex: nat, firstSample: nat)

  /** `stsc_index`: the entry whose run of chunks holds `sampleId` — the last
      entry before the first one that starts after it. Empty tables and
      samples before the first entry are errors. */
  method StscIndex(entries: seq<StscEntry>, sampleId: nat) returns (r: Result<nat, Error>)
    ensures |entries| == 0 ==> r == Err(InvalidAsset("BMFF has no stsc entries"))
    ensures |entries| > 0 && sampleId < entries[0].firstSample ==> r == Err(InvalidAsset("BMFF no sample not found"))
    ensures r.Err? <==> |entries| == 0 || sampleId < entries[0].firstSample
    ensures r.Ok? ==>
      && r.value < |entries|
      && (forall j :: 0 <= j <= r.value ==> entries[j].firstSample <= sampleId)
      && (r.value + 1 == |entries| || sampleId < entries[r.value + 1].firstSample)
  {
    if |entries| == 0 {
      return Err(InvalidAsset("BMFF has no stsc entries"));
    }
    var i := 0;
    while i < |entries|
      invariant 0 <= i <= |entries|
      invariant forall j :: 0 <= j < i ==> entries[j].firstSample <= sampleId
    {
      if sampleId < entries[i].firstSample {
        if i == 0 {
          return Err(InvalidAsset("BMFF no sample not found"));
        }
        return Ok(i - 1);
      }
      i := i + 1;
    }
    return Ok(|entries| - 1);
  }

  // ---- adding a Merkle map ----

  /** The first map with the given ids. */
  function FindMerkleMap(maps: seq<MerkleMap>, uniqueId: nat, localId: nat): (r: Option<nat>)
    ensures r.None? <==> forall k :: 0 <= k < |maps| ==> !(maps[k].uniqueId == uniqueId && maps[k].localId == localId)
    ensures r.Some? ==> (r.value < |maps| && maps[r.value].uniqueId == uniqueId && maps[r.value].localId == localId
                         && forall k :: 0 <= k < r.value ==> !(maps[k].uniqueId == uniqueId && maps[k].localId == localId))
  {
    if |maps| == 0 then None
    else if maps[0].uniqueId == uniqueId && maps[0].localId == localId then Some(0)
    else
      match FindMerkleMap(maps[1..], uniqueId, localId)
      case None => None
      case Some(k) => Some(k + 1)
  }

  /** The insertion at the end of `add_merkle_for_fragmented`: replace the
      first map with the same unique and local ids, else append; with no
      list yet, start one. */
  function InsertMerkleMap(merkle: Option<seq<MerkleMap>>, mm: MerkleMap): (r: seq<MerkleMap>)
    ensures merkle.None? ==> r == [mm]
    ensures merkle.Some? ==>
      match FindMerkleMap(merkle.value, mm.uniqueId, mm.localId)
      case Some(k) => |r| == |merkle.value| && r[k] == mm
        && forall j :: 0 <= j < |r| && j != k ==> r[j] == merkle.value[j]
      case None => |r| == |merkle.value| + 1 && r[..|merkle.value|] == merkle.value && r[|merkle.value|] == mm
  {
    match merkle
    case None => [mm]
    case Some(maps) =>
      match FindMerkleMap(maps, mm.uniqueId, mm.localId)
      case Some(k) => maps[k := mm]
      case None => maps + [mm]
  }

  /** Adding the same map twice is the same as adding it once, and
      afterwards the map is found under its ids. */
  lemma InsertMerkleMapIdempotent(merkle: Option<seq<MerkleMap>>, mm: MerkleMap)
    ensures InsertMerkleMap(Some(InsertMerkleMap(merkle, mm)), mm) == InsertMerkleMap(merkle, mm)
    ensures FindMerkleMap(InsertMerkleMap(merkle, mm), mm.uniqueId, mm.localId).Some?
  {
    var r := InsertMerkleMap(merkle, mm);
    match merkle
    case None =>
      assert FindMerkleMap(r, mm.uniqueId, mm.localId) == Some(0);
    case Some(maps) =>
      match FindMerkleMap(maps, mm.uniqueId, mm.localId)
      case Some(k) =>
        assert FindMerkleMap(r, mm.uniqueId, mm.localId) == Some(k);
      case None =>
        assert FindMerkleMap(r, mm.uniqueId, mm.localId) == Some(|maps|);
  }

  /** The map `add_merkle_for_fragmented` builds for a run of fragments,
      storing `row` of their tree: the count is the number of fragments as a
      32-bit value, and the init hash a placeholder for the algorithm. */
  function NewMerkleMap(uniqueId: nat, localId: nat, fragments: nat, alg: string, row: seq<Bytes>): (r: Result<MerkleMap, Error>)
    ensures r.Err? <==> !IsSupportedAlg(alg)
    ensures r.Err? ==> r.error == UnsupportedType
    ensures r.Ok? ==> (r.value.count == fragments % U32_LIMIT && r.value.alg == Some(alg) && r.value.hashes == row
                       && r.value.uniqueId == uniqueId && r.value.localId == localId
                       && r.value.initHash == PlaceholderHash(alg)
                       && r.value.initHash.Some? && |r.value.initHash.value| == DigestLength(alg))
  {
    match PlaceholderHash(alg)
    case None => Err(UnsupportedType)
    case Some(h) => Ok(MerkleMap(uniqueId, localId, fragments % U32_LIMIT, Some(alg), Some(h), row))
  }

  /** The last step of `add_merkle_for_fragmented`: an unsupported algorithm
      fails before the list is touched. */
  function AddMerkleMap(merkle: Option<seq<MerkleMap>>, uniqueId: nat, localId: nat, fragments: nat,
                        alg: string, row: seq<Bytes>): (r: Result<seq<MerkleMap>, Error>)
    ensures r.Err? <==> !IsSupportedAlg(alg)
    ensures r.Err? ==> r.error == UnsupportedType
    ensures r.Ok? ==> FindMerkleMap(r.value, uniqueId, localId).Some?
    ensures r.Ok? && merkle.Some? ==> |r.value| >= |merkle.value|
    ensures r.Ok? ==>
      var mm := NewMerkleMap(uniqueId, localId, fragments, alg, row).value;
      var maps := if merkle.Some? then merkle.value else [];
      match FindMerkleMap(maps, uniqueId, localId)
      case Some(k) => |r.value| == |maps| && r.value[k] == mm
        && forall j :: 0 <= j < |maps| && j != k ==> r.value[j] == maps[j]
      case None => r.value == maps + [mm]
  {
    var mm :- NewMerkleMap(uniqueId, localId, fragments, alg, row);
    InsertMerkleMapIdempotent(merkle, mm);
    Ok(InsertMerkleMap(merkle, mm))
  }

  // ---- the assertion's rolling-hash record ----

  /** `bmff_hash::RollingHash`: algorithm, current and previous rolling
      hash, and the init segment's hash. */
  datatype RollingRecord = RollingRecord(alg: Option<string>, rollingHash: Option<Bytes>,
                                         previousHash: Option<Bytes>, initHash: Option<Bytes>)
  {
    /** `shift_rolling_hash`: the current value becomes the previous one. */
    function Shift(): RollingRecord {
      this.(previousHash := rollingHash, rollingHash := None)
    }

    function SetRollingHash(h: Bytes): RollingRecord {
      this.(rollingHash := Some(h))
    }

    function ClearRollingHash(): RollingRecord {
      this.(rollingHash := None)
    }

    function SetPreviousHash(h: Bytes): RollingRecord {
      this.(previousHash := Some(h))
    }

    function ClearPreviousHash(): RollingRecord {
      this.(previousHash := None)
    }

    function SetInitHash(h: Bytes): RollingRecord {
      this.(initHash := Some(h))
    }

    function ClearInitHash(): RollingRecord {
      this.(initHash := None)
    }

    function SetAlg(a: string): RollingRecord {
      this.(alg := Some(a))
    }
  }

  /** `RollingHash::new`: empty hashes and a placeholder init hash;
      `UnsupportedType` for other algorithms. */
  function NewRollingRecord(alg: string): (r: Result<RollingRecord, Error>)
    ensures r.Err? <==> !IsSupportedAlg(alg)
    ensures r.Err? ==> r.error == UnsupportedType
    ensures r.Ok? ==> (r.value.alg == Some(alg) && r.value.rollingHash.None? && r.value.previousHash.None?
                       && r.value.initHash == PlaceholderHash(alg))
  {
    match PlaceholderHash(alg)
    case None => Err(UnsupportedType)
    case Some(h) => Ok(RollingRecord(Some(alg), None, None, Some(h)))
  }

  /** Shifting twice loses the value: the second shift moves the emptied
      current hash into `previousHash`. The setters touch only their field. */
  lemma ShiftProperties(r: RollingRecord, h: Bytes)
    ensures r.SetRollingHash(h).Shift().previousHash == Some(h)
    ensures r.Shift().Shift().previousHash.None? && r.Shift().Shift().rollingHash.None?
    ensures r.Shift().alg == r.alg && r.Shift().initHash == r.initHash
    ensures r.SetPreviousHash(h).ClearPreviousHash() == r.ClearPreviousHash()
    ensures r.SetRollingHash(h).ClearRollingHash() == r.ClearRollingHash()
    ensures r.SetInitHash(h).ClearInitHash() == r.ClearInitHash()
  {
  }

  /** `BmffHash::previous_hash`. */
  function PreviousHash(rolling: Option<RollingRecord>): Option<Bytes> {
    match rolling
    case None => None
    case Some(rh) => rh.previousHash
  }

  /** `BmffHash::shift_rolling_hash`. */
  function ShiftRolling(rolling: Option<RollingRecord>): Option<RollingRecord> {
    match rolling
    case None => None
    case Some(rh) => Some(rh.Shift())
  }

  /** The state update of `add_rolling_hash_fragment` for a fragment whose
      hash is `fragmentHash`: the new rolling hash chains the previous one
      (if any) with the fragment. `RollingHash::new(alg)?` is evaluated
      before `unwrap_or` looks at the existing record, so an unsupported
      algorithm fails even when a record exists; then nothing changes. */
  function AddRollingHashFragment(ch: ConcatHash, rolling: Option<RollingRecord>, alg: string, fragmentHash: Bytes)
    : (r: Result<RollingRecord, Error>)
    ensures r.Err? <==> !IsSupportedAlg(alg)
    ensures r.Err? ==> r.error == UnsupportedType
    ensures r.Ok? ==> r.value.rollingHash == Some(ChainStep(ch, alg, PreviousHash(rolling), fragmentHash))
    ensures r.Ok? && rolling.Some? ==> r.value == rolling.value.(rollingHash := r.value.rollingHash)
    ensures r.Ok? && rolling.None? ==> r.value.previousHash.None? && r.value.alg == Some(alg)
  {
    var (left, right) := match PreviousHash(rolling)
      case Some(prev) => (prev, Some(fragmentHash))
      case None => (fragmentHash, None);
    var created :- NewRollingRecord(alg);
    var rh := rolling.GetOr(created);
    Ok(rh.SetRollingHash(ch(alg, left, right)))
  }

  /** Adding fragments one by one and shifting after each, starting from
      `rolling`. */
  function AddFragments(ch: ConcatHash, rolling: Option<RollingRecord>, alg: string, fragmentHashes: seq<Bytes>)
    : Result<Option<RollingRecord>, Error>
    decreases |fragmentHashes|
  {
    if |fragmentHashes| == 0 then Ok(rolling)
    else
      var rh :- AddRollingHashFragment(ch, rolling, alg, fragmentHashes[0]);
      AddFragments(ch, ShiftRolling(Some(rh)), alg, fragmentHashes[1..])
  }

  /** Producing fragment after fragment leaves the rolling hash of the whole
      run, anchored at the previous hash the record started with, in
      `previousHash`. */
  lemma {:induction false} AddFragmentsChains(ch: ConcatHash, rolling: Option<RollingRecord>, alg: string, fragmentHashes: seq<Bytes>)
    requires IsSupportedAlg(alg) && |fragmentHashes| > 0
    ensures AddFragments(ch, rolling, alg, fragmentHashes).Ok?
    ensures PreviousHash(AddFragments(ch, rolling, alg, fragmentHashes).value)
         == Chain(ch, alg, PreviousHash(rolling), fragmentHashes)
    decreases |fragmentHashes|
  {
    var rh := AddRollingHashFragment(ch, rolling, alg, fragmentHashes[0]).value;
    var next := ShiftRolling(Some(rh));
    assert PreviousHash(next) == Some(ChainStep(ch, alg, PreviousHash(rolling), fragmentHashes[0]));
    if |fragmentHashes| > 1 {
      AddFragmentsChains(ch, next, alg, fragmentHashes[1..]);
    }
  }
}

=== FILE: debug_byte_slice.dfy ===
/** `DebugByteSlice`'s `Debug` formatting: a byte slice rendered as Rust's
    `{:02x?}` list (`[0a, ff]`), cut to its first twenty bytes behind a
    length prefix when it is longer than twenty bytes. */
module DebugByteSlice {
  import opened Wrappers
  import opened Text

  /** Number of bytes shown before the list is cut. */
  const PREVIEW_LEN: nat := 20

  const LONG_INFIX: string := " bytes starting with "

  /** The items of `{:02x?}`: each byte as two hex digits, separated by ", ". */
  function ListBody(bs: Bytes): (s: string)
    ensures |bs| == 0 ==> |s| == 0
    ensures |bs| > 0 ==> |s| == 4 * |bs| - 2
  {
    if |bs| == 0 then ""
    else if |bs| == 1 then HexByte(bs[0])
    else HexByte(bs[0]) + ", " + ListBody(bs[1..])
  }

  /** `{:02x?}` of a byte slice. */
  function HexList(bs: Bytes): (s: string)
    ensures |s| >= 2 && s[0] == '[' && s[|s| - 1] == ']'
  {
    "[" + ListBody(bs) + "]"
  }

  /** The `Debug` rendering. */
  function DebugFormat(bs: Bytes): (s: string)
    ensures |bs| <= PREVIEW_LEN ==> ParseHexList(s) == Some(bs)
    ensures |bs| > PREVIEW_LEN ==>
      StartsWith(s, NatToDecimal(|bs|) + LONG_INFIX)
      && ParseHexList(s[|NatToDecimal(|bs|) + LONG_INFIX|..]) == Some(bs[..PREVIEW_LEN])
  {
    if |bs| > PREVIEW_LEN then
      var head := NatToDecimal(|bs|) + LONG_INFIX;
      var s := head + HexList(bs[..PREVIEW_LEN]);
      HexListRoundTrip(bs[..PREVIEW_LEN]);
      assert s[|head|..] == HexList(bs[..PREVIEW_LEN]);
      s
    else
      HexListRoundTrip(bs);
      HexList(bs)
  }

  /** Reads one byte from two hex digits. */
  function ParseHexByte(a: char, b: char): Option<byte> {
    if IsHexDigit(a) && IsHexDigit(b) then Some((HexValue(a) * 16 + HexValue(b)) as byte) else None
  }

  /** Reads the items of a `{:02x?}` list back. */
  function ParseListBody(s: string): Option<Bytes>
    decreases |s|
  {
    if |s| == 0 then Some([])
    else if |s| < 2 then None
    else
      match ParseHexByte(s[0], s[1])
      case None => None
      case Some(b) =>
        if |s| == 2 then Some([b])
        else if |s| > 4 && s[2] == ',' && s[3] == ' ' then
          match ParseListBody(s[4..])
          case None => None
          case Some(rest) => Some([b] + rest)
        else None
  }

  /** Reads a whole `{:02x?}` list back; the partner of `HexList`. */
  function ParseHexList(s: string): Option<Bytes> {
    if |s| < 2 || s[0] != '[' || s[|s| - 1] != ']' then None
    else ParseListBody(s[1..|s| - 1])
  }

  lemma {:induction false} ListBodyRoundTrip(bs: Bytes)
    ensures ParseListBody(ListBody(bs)) == Some(bs)
    decreases |bs|
  {
    if |bs| > 0 {
      HexByteRoundTrip(bs[0]);
      var h := HexByte(bs[0]);
      assert ParseHexByte(h[0], h[1]) == Some(bs[0]);
      if |bs| > 1 {
        var s := ListBody(bs);
        assert s == h + ", " + ListBody(bs[1..]);
        assert s[4..] == ListBody(bs[1..]);
        ListBodyRoundTrip(bs[1..]);
        assert [bs[0]] + bs[1..] == bs;
      } else {
        assert ListBody(bs) == h;
        assert [bs[0]] == bs;
      }
    }
  }

  /** The list rendering loses nothing: parsing it gives the bytes back. */
  lemma HexListRoundTrip(bs: Bytes)
    ensures ParseHexList(HexList(bs)) == Some(bs)
  {
    var s := HexList(bs);
    assert s[1..|s| - 1] == ListBody(bs);
    ListBodyRoundTrip(bs);
  }

  /** The two branches are told apart by the first character: a list starts
      with `[`, the cut form with the decimal length. The boundary length 20
      takes the full-list branch. */
  lemma DebugFormatBranches(bs: Bytes)
    ensures |bs| <= PREVIEW_LEN <==> DebugFormat(bs)[0] == '['
    ensures |bs| > PREVIEW_LEN ==> |DebugFormat(bs)| == |NatToDecimal(|bs|)| + |LONG_INFIX| + 4 * PREVIEW_LEN
  {
    var s := DebugFormat(bs);
    if |bs| > PREVIEW_LEN {
      var d := NatToDecimal(|bs|);
      assert s[0] == d[0];
      assert IsDigit(d[0]);
    }
  }
}

=== FILE: hashing.dfy ===
/** The hashing primitives the fragment bindings are built from. The digests
    themselves are not modelled: `concat_and_hash` and `hash_stream_by_alg`
    are uninterpreted functions passed in by the caller. What is modelled is
    the one algorithm-dependent constant the code fixes itself, the
    zero-filled placeholder hash. */
module Hashing {
  import opened Wrappers
  import opened Text

  /** The SDK's error kinds met in the modelled code, with their messages. */
  datatype Error =
    | HashMismatch(msg: string)
    | InvalidAsset(msg: string)
    | BadParam(msg: string)
    | UnsupportedType

  /** `concat_and_hash(alg, left, right)`: the digest of `left` followed by
      `right` when there is a right part, else of `left` alone. */
  type ConcatHash = (string, Bytes, Option<Bytes>) -> Bytes

  const SHA256: string := "sha256"
  const SHA384: string := "sha384"
  const SHA512: string := "sha512"

  predicate IsSupportedAlg(alg: string) {
    alg == SHA256 || alg == SHA384 || alg == SHA512
  }

  /** The digest length of a supported algorithm, in bytes. */
  function DigestLength(alg: string): (n: nat)
    requires IsSupportedAlg(alg)
  {
    if alg == SHA256 then 32 else if alg == SHA384 then 48 else 64
  }

  function Zeros(n: nat): (z: Bytes)
    ensures |z| == n && forall i :: 0 <= i < n ==> z[i] == 0
  {
    seq(n, i => 0)
  }

  /** The placeholder `init_hash`/`hash` written before the real value is
      known: as many zero bytes as the algorithm's digest has; any other
      algorithm is `UnsupportedType`. */
  function PlaceholderHash(alg: string): (r: Option<Bytes>)
    ensures r.Some? <==> IsSupportedAlg(alg)
    ensures r.Some? ==> |r.value| == DigestLength(alg) && forall i :: 0 <= i < |r.value| ==> r.value[i] == 0
  {
    if alg == SHA256 then Some(Zeros(32))
    else if alg == SHA384 then Some(Zeros(48))
    else if alg == SHA512 then Some(Zeros(64))
    else None
  }

  /** The three placeholders differ pairwise, so the algorithm can be read
      back from the placeholder's length. */
  lemma PlaceholderDeterminesAlg(a: string, b: string)
    requires PlaceholderHash(a).Some? && PlaceholderHash(a) == PlaceholderHash(b)
    ensures a == b
  {
    assert |PlaceholderHash(a).value| == DigestLength(a);
    assert |PlaceholderHash(b).value| == DigestLength(b);
  }

  /** One link of a rolling hash: the digest of the fragment hash alone when
      there is no previous value, else of the previous value followed by the
      fragment hash. */
  function ChainStep(ch: ConcatHash, alg: string, previous: Option<Bytes>, fragment: Bytes): Bytes {
    match previous
    case None => ch(alg, fragment, None)
    case Some(p) => ch(alg, p, Some(fragment))
  }

  /** The rolling hash after a run of fragment hashes, starting from
      `previous` (an anchor point, or nothing at the start of a stream). */
  function Chain(ch: ConcatHash, alg: string, previous: Option<Bytes>, fragments: seq<Bytes>): (r: Option<Bytes>)
    ensures |fragments| > 0 ==> r.Some?
    ensures |fragments| == 0 ==> r == previous
    decreases |fragments|
  {
    if |fragments| == 0 then previous
    else Chain(ch, alg, Some(ChainStep(ch, alg, previous, fragments[0])), fragments[1..])
  }

  /** Chains compose: the rolling hash of a split run is the rolling hash of
      the second part anchored at that of the first. This is what lets a
      viewer join a live stream at any anchor point. */
  lemma {:induction false} ChainAppend(ch: ConcatHash, alg: string, previous: Option<Bytes>, a: seq<Bytes>, b: seq<Bytes>)
    ensures Chain(ch, alg, previous, a + b) == Chain(ch, alg, Chain(ch, alg, previous, a), b)
    decreases |a|
  {
    if |a| > 0 {
      assert (a + b)[0] == a[0];
      assert (a + b)[1..] == a[1..] + b;
      ChainAppend(ch, alg, Some(ChainStep(ch, alg, previous, a[0])), a[1..], b);
    } else {
      assert a + b == b;
    }
  }
}

=== FILE: live_merkle_tree.dfy ===
/** `MerkleTree::_new` in the live CLI (`cli/src/live/merkle_tree.rs`):
    the window of fragments around a requested fragment, the choice of the
    init segment's Merkle map, and the list of leaves, one per fragment of
    the window.

    Fragments are numbered from 1 and grouped `w` at a time: fragments
    1..w form group 0, w+1..2w group 1, and so on; the init segment keeps
    one Merkle map per group. */
module LiveMerkleTree {
  import opened Wrappers
  import opened Text
  import MerkleProof
  import BmffHash
  import RollingHashes
  import LiveRegexp

  // ---- unsigned division ----

  /** Rust's `%` on `usize` for a non-zero divisor. */
  function Rem(n: nat, w: nat): (r: nat)
    requires w > 0
    ensures r < w && r <= n
    decreases n
  {
    if n < w then n else Rem(n - w, w)
  }

  /** Rust's `/` on `usize` for a non-zero divisor. */
  function Quot(n: nat, w: nat): (q: nat)
    requires w > 0
    ensures q * w + Rem(n, w) == n
    decreases n
  {
    if n < w then 0 else 1 + Quot(n - w, w)
  }

  /** Quotient and remainder are the only such pair. */
  lemma {:induction false} QuotRemUnique(n: nat, w: nat, q: nat, r: nat)
    requires w > 0 && r < w && q * w + r == n
    ensures Quot(n, w) == q && Rem(n, w) == r
    decreases q
  {
    if q > 0 {
      assert (q - 1) * w + r == n - w;
      QuotRemUnique(n - w, w, q - 1, r);
    }
  }

  // ---- windows ----

  /** An inclusive range of fragment numbers, as `from..=to`. */
  datatype Window = Window(from: nat, to: nat)
  {
    predicate Covers(i: nat) {
      from <= i <= to
    }
  }

  /** The group a fragment belongs to: `merkle_idx = (idx - 1) / w`. */
  function MerkleIndex(idx: nat, w: nat): nat
    requires idx >= 1 && w > 0
  {
    Quot(idx - 1, w)
  }

  /** The window as written: `rem = idx % w`, from `idx - rem + 1` to
      `idx + (w - rem)`. It always spans `w` fragments and starts right
      after a whole number of groups, but it holds `idx` only when `idx`
      is not a multiple of `w`. */
  function WindowAsWritten(idx: nat, w: nat): (r: Window)
    requires w > 0
    ensures r.to + 1 == r.from + w
    ensures r.from >= 1 && Rem(r.from - 1, w) == 0
    ensures r.Covers(idx) <==> Rem(idx, w) != 0
  {
    var rem := Rem(idx, w);
    QuotRemUnique(idx - rem, w, Quot(idx, w), 0);
    Window(idx - rem + 1, idx + (w - rem))
  }

  /** The window of the group `idx` belongs to. */
  function SegmentWindow(idx: nat, w: nat): (r: Window)
    requires idx >= 1 && w > 0
    ensures r.to + 1 == r.from + w
    ensures r.Covers(idx)
    ensures r.from == MerkleIndex(idx, w) * w + 1
  {
    var from := idx - Rem(idx - 1, w);
    Window(from, from + w - 1)
  }

  /** Every fragment of the window belongs to the group of `idx`, the
      group whose Merkle map `_new` picks. */
  lemma SegmentWindowIsGroup(idx: nat, w: nat, i: nat)
    requires idx >= 1 && w > 0 && SegmentWindow(idx, w).Covers(i)
    ensures i >= 1 && MerkleIndex(i, w) == MerkleIndex(idx, w)
  {
    var from := SegmentWindow(idx, w).from;
    QuotRemUnique(i - 1, w, MerkleIndex(idx, w), i - from);
  }

  lemma WholeWindowIsGroup(idx: nat, w: nat)
    requires idx >= 1 && w > 0
    ensures forall i: nat :: SegmentWindow(idx, w).Covers(i) ==> i >= 1 && MerkleIndex(i, w) == MerkleIndex(idx, w)
  {
    forall i: nat | SegmentWindow(idx, w).Covers(i) ensures i >= 1 && MerkleIndex(i, w) == MerkleIndex(idx, w) {
      SegmentWindowIsGroup(idx, w, i);
    }
  }

  /** Off a group boundary the window as written is the group's window. */
  lemma WindowAsWrittenOffBoundary(idx: nat, w: nat)
    requires idx >= 1 && w > 0 && Rem(idx, w) != 0
    ensures WindowAsWritten(idx, w) == SegmentWindow(idx, w)
  {
    QuotRemUnique(idx - 1, w, Quot(idx, w), Rem(idx, w) - 1);
  }

  /** On a group boundary the window as written is the next group's window:
      it misses `idx`, and none of its fragments belongs to the group whose
      Merkle map is picked. */
  lemma WindowAsWrittenOnBoundary(idx: nat, w: nat)
    requires idx >= 1 && w > 0 && Rem(idx, w) == 0
    ensures !WindowAsWritten(idx, w).Covers(idx)
    ensures WindowAsWritten(idx, w).from == SegmentWindow(idx, w).to + 1
    ensures forall i: nat :: WindowAsWritten(idx, w).Covers(i) ==> i >= 1 && MerkleIndex(i, w) == MerkleIndex(idx, w) + 1
  {
    var q := Quot(idx, w);
    assert q >= 1;
    assert (q - 1) * w + (w - 1) == idx - 1;
    QuotRemUnique(idx - 1, w, q - 1, w - 1);
    forall i: nat | WindowAsWritten(idx, w).Covers(i)
      ensures i >= 1 && MerkleIndex(i, w) == MerkleIndex(idx, w) + 1
    {
      QuotRemUnique(i - 1, w, q, i - 1 - idx);
    }
  }

  // ---- the tree ----

  /** What `_new` reads from a fragment file that opens: its C2PA Merkle
      boxes and its bytes. */
  datatype LeafFile = LeafFile(merkleBoxes: seq<BmffHash.BmffMerkleMap>, content: Bytes)

  /** The init segment's BMFF hash assertion, as far as `_new` uses it. */
  datatype InitAssertion = InitAssertion(
    alg: Option<string>,
    exclusions: seq<RollingHashes.Exclusion>,
    merkle: Option<seq<MerkleProof.MerkleMap>>)

  /** `MerkleTreeInit`; hashes are kept as bytes, not base64 text. */
  datatype TreeInit = TreeInit(count: nat, initHash: Bytes, uniqueId: nat, localId: nat, merkle: seq<Bytes>)

  /** A leaf's proofs: the box's hashes, or the `-NONE-` marker. */
  datatype Proofs = ProofHashes(hashes: seq<Bytes>) | NoProofs

  /** `MerkleTreeNode` of the leaf layer. */
  datatype Leaf = Leaf(hash: Bytes, proofs: Proofs, name: string, isCurrent: bool)

  /** The tree's init part and its leaf layer. */
  datatype MerkleTree = MerkleTree(init: TreeInit, leaves: seq<Option<Leaf>>)

  const ONE_TREE: string := "Fragment must have exactly 1 MerkleTree"
  const MISSING_ALG: string := "missing algorithm"

  function LeafName(i: nat): string {
    "Fragment " + NatToDecimal(i)
  }

  /** Whether a leaf can be built: the file is missing, or it holds one
      Merkle box and the assertion names an algorithm. */
  predicate LeafReadable(a: InitAssertion, file: Option<LeafFile>) {
    file.None? || (|file.value.merkleBoxes| == 1 && a.alg.Some?)
  }

  /** One pass of the leaf loop, for fragment `i`. */
  function MakeLeaf(c: RollingHashes.Crypto, a: InitAssertion, idx: nat, i: nat, file: Option<LeafFile>)
    : (r: Result<Option<Leaf>, string>)
    ensures r.Ok? <==> LeafReadable(a, file)
    ensures r.Err? ==> r.error == (if |file.value.merkleBoxes| != 1 then ONE_TREE else MISSING_ALG)
    ensures r.Ok? ==> (r.value.Some? <==> file.Some?)
    ensures r.Ok? && r.value.Some? ==> r.value.value.name == LeafName(i) && (r.value.value.isCurrent <==> i == idx)
    ensures r.Ok? && r.value.Some? ==>
      r.value.value.hash == c.fragHash(a.alg.value, file.value.content, a.exclusions)
      && (r.value.value.proofs.NoProofs? <==> file.value.merkleBoxes[0].hashes.None?)
  {
    match file
    case None => Ok(None)
    case Some(f) =>
      if |f.merkleBoxes| != 1 then Err(ONE_TREE)
      else
        var proofs := match f.merkleBoxes[0].hashes
          case Some(h) => ProofHashes(h)
          case None => NoProofs;
        match a.alg
        case None => Err(MISSING_ALG)
        case Some(alg) => Ok(Some(Leaf(c.fragHash(alg, f.content, a.exclusions), proofs, LeafName(i), i == idx)))
  }

  /** The leaf loop fails with `e` at some fragment of the `n` from `from`
      on, all fragments before it having been readable. */
  predicate FirstFailure(c: RollingHashes.Crypto, a: InitAssertion, idx: nat, from: nat, n: nat,
                         files: nat -> Option<LeafFile>, e: string) {
    exists i :: from <= i < from + n
      && (forall k :: from <= k < i ==> LeafReadable(a, files(k)))
      && MakeLeaf(c, a, idx, i, files(i)) == Err(e)
  }

  /** The leaf loop over the `n` fragments from `from` on, stopping at the
      first fragment whose leaf cannot be built. */
  function Leaves(c: RollingHashes.Crypto, a: InitAssertion, idx: nat, from: nat, n: nat,
                  files: nat -> Option<LeafFile>): (r: Result<seq<Option<Leaf>>, string>)
    ensures r.Ok? <==> forall i :: from <= i < from + n ==> LeafReadable(a, files(i))
    ensures r.Err? ==> r.error in {ONE_TREE, MISSING_ALG}
    ensures r.Err? ==> FirstFailure(c, a, idx, from, n, files, r.error)
    ensures r.Ok? ==> |r.value| == n
    ensures r.Ok? ==> forall j :: 0 <= j < |r.value| ==> Ok(r.value[j]) == MakeLeaf(c, a, idx, from + j, files(from + j))
    decreases n
  {
    if n == 0 then Ok([])
    else
      match MakeLeaf(c, a, idx, from, files(from))
      case Err(e) => Err(e)
      case Ok(leaf) =>
        match Leaves(c, a, idx, from + 1, n - 1, files)
        case Err(e) => FailureAfterReadable(c, a, idx, from, n, files, e); Err(e)
        case Ok(rest) =>
          assert forall j :: 0 < j <= |rest| ==> ([leaf] + rest)[j] == rest[j - 1];
          Ok([leaf] + rest)
  }

  /** A failure later in the window, after a readable fragment, is the
      window's first failure. */
  lemma FailureAfterReadable(c: RollingHashes.Crypto, a: InitAssertion, idx: nat, from: nat, n: nat,
                             files: nat -> Option<LeafFile>, e: string)
    requires n > 0 && LeafReadable(a, files(from)) && FirstFailure(c, a, idx, from + 1, n - 1, files, e)
    ensures FirstFailure(c, a, idx, from, n, files, e)
  {
    var i :| from + 1 <= i < from + n
      && (forall k :: from + 1 <= k < i ==> LeafReadable(a, files(k)))
      && MakeLeaf(c, a, idx, i, files(i)) == Err(e);
    assert forall k :: from <= k < i ==> LeafReadable(a, files(k));
  }

  function NotEnoughTrees(expected: nat, got: nat): string {
    "Merkle does not have enough Trees, expected " + NatToDecimal(expected) + " got " + NatToDecimal(got)
  }

  /** The preconditions of `_new` beyond a non-zero window: `idx - 1` and
      `merkle.len() - 1` are computed on `usize` and must not underflow. */
  predicate NoUnderflow(info: LiveRegexp.UriInfo, init: Result<InitAssertion, string>) {
    info.index.Index? && init.Ok? && init.value.merkle.Some?
    ==> info.index.n >= 1 && |init.value.merkle.value| >= 1
  }

  /** The window of leaves: as written, or the group of `idx`. */
  function WindowOf(idx: nat, w: nat, perGroup: bool): Window
    requires w > 0 && (perGroup ==> idx >= 1)
  {
    if perGroup then SegmentWindow(idx, w) else WindowAsWritten(idx, w)
  }

  /** The init segment supplies what the tree's init part needs: an index
      was asked for, the manifest was read, it has Merkle maps, the last map
      is the one for `idx`'s group, and that map has an init hash. */
  predicate MapsReady(info: LiveRegexp.UriInfo, init: Result<InitAssertion, string>, w: nat)
    requires w > 0 && NoUnderflow(info, init)
  {
    && info.index.Index? && init.Ok? && init.value.merkle.Some?
    && |init.value.merkle.value| == MerkleIndex(info.index.n, w) + 1
    && init.value.merkle.value[|init.value.merkle.value| - 1].initHash.Some?
  }

  /** The Merkle map of `idx`'s group, once `MapsReady` holds. */
  function GroupMap(info: LiveRegexp.UriInfo, init: Result<InitAssertion, string>, w: nat): MerkleProof.MerkleMap
    requires w > 0 && NoUnderflow(info, init) && MapsReady(info, init, w)
  {
    init.value.merkle.value[|init.value.merkle.value| - 1]
  }

  /** The tree's init part copied from the group's map. */
  function InitOf(mm: MerkleProof.MerkleMap): TreeInit
    requires mm.initHash.Some?
  {
    TreeInit(mm.count, mm.initHash.value, mm.uniqueId, mm.localId, mm.hashes)
  }

  /** Every fragment of the `w` from `from` on has a leaf that can be built. */
  predicate WindowReadable(a: InitAssertion, files: nat -> Option<LeafFile>, from: nat, w: nat) {
    forall i :: from <= i < from + w ==> LeafReadable(a, files(i))
  }

  /** The failures of `_new` before the leaf loop, each with the source's
      message, in the source's order: no index asked for, the init
      manifest unreadable, no Merkle maps, the wrong number of maps, no
      init hash in the group's map. */
  predicate FailsBeforeLeaves(info: LiveRegexp.UriInfo, init: Result<InitAssertion, string>, w: nat,
                              r: Result<MerkleTree, string>)
    requires w > 0 && NoUnderflow(info, init)
  {
    && (!info.index.Index? ==> r == Err("cannot build MerkleTree from init Segment"))
    && (info.index.Index? && init.Err? ==> r == Err(init.error))
    && (info.index.Index? && init.Ok? && init.value.merkle.None? ==> r == Err("missing MerkleMaps"))
    && (info.index.Index? && init.Ok? && init.value.merkle.Some? ==>
          var maps := init.value.merkle.value;
          var merkleIdx := MerkleIndex(info.index.n, w);
          && (|maps| != merkleIdx + 1 ==> r == Err(NotEnoughTrees(|maps| - 1, merkleIdx)))
          && (|maps| == merkleIdx + 1 && maps[merkleIdx].initHash.None? ==> r == Err("missing init hash")))
  }

  /** The body of `_new`, with the window either as written or per group.
      `init` is the outcome of reading the init segment's manifest and BMFF
      hash assertion; `files(i)` is fragment `i` of the representation, or
      `None` when its file cannot be opened. */
  function Build(c: RollingHashes.Crypto, info: LiveRegexp.UriInfo, init: Result<InitAssertion, string>,
                 files: nat -> Option<LeafFile>, w: nat, perGroup: bool): (r: Result<MerkleTree, string>)
    requires w > 0 && NoUnderflow(info, init)
    ensures FailsBeforeLeaves(info, init, w, r)
    ensures r.Ok? <==> MapsReady(info, init, w) && WindowReadable(init.value, files, WindowOf(info.index.n, w, perGroup).from, w)
    ensures r.Err? && MapsReady(info, init, w) ==> r.error in {ONE_TREE, MISSING_ALG}
    ensures r.Err? && MapsReady(info, init, w) ==>
      FirstFailure(c, init.value, info.index.n, WindowOf(info.index.n, w, perGroup).from, w, files, r.error)
    ensures r.Ok? ==> r.value.init == InitOf(GroupMap(info, init, w))
    ensures r.Ok? ==> |r.value.leaves| == w
    ensures r.Ok? ==> forall j :: 0 <= j < w ==>
      Ok(r.value.leaves[j]) == MakeLeaf(c, init.value, info.index.n, WindowOf(info.index.n, w, perGroup).from + j,
                                        files(WindowOf(info.index.n, w, perGroup).from + j))
  {
    if !info.index.Index? then Err("cannot build MerkleTree from init Segment")
    else
      var idx := info.index.n;
      var a :- init;
      match a.merkle
      case None => Err("missing MerkleMaps")
      case Some(maps) =>
        var merkleIdx := MerkleIndex(idx, w);
        if |maps| - 1 != merkleIdx then Err(NotEnoughTrees(|maps| - 1, merkleIdx))
        else
          var mm := maps[merkleIdx];
          match mm.initHash
          case None => Err("missing init hash")
          case Some(_) => TreeOf(c, a, idx, mm, WindowOf(idx, w, perGroup).from, w, files)
  }

  /** The last step of `_new`: the init part from the group's map, then the
      leaf loop over the window. */
  function TreeOf(c: RollingHashes.Crypto, a: InitAssertion, idx: nat, mm: MerkleProof.MerkleMap, from: nat, w: nat,
                  files: nat -> Option<LeafFile>): (r: Result<MerkleTree, string>)
    requires mm.initHash.Some?
    ensures r.Ok? <==> WindowReadable(a, files, from, w)
    ensures r.Err? ==> r.error in {ONE_TREE, MISSING_ALG} && FirstFailure(c, a, idx, from, w, files, r.error)
    ensures r.Ok? ==> r.value.init == InitOf(mm) && |r.value.leaves| == w
    ensures r.Ok? ==> forall j :: 0 <= j < w ==> Ok(r.value.leaves[j]) == MakeLeaf(c, a, idx, from + j, files(from + j))
  {
    var leaves :- Leaves(c, a, idx, from, w, files);
    Ok(MerkleTree(InitOf(mm), leaves))
  }

  /** `MerkleTree::_new` as written. */
  function NewMerkleTreeAsWritten(c: RollingHashes.Crypto, info: LiveRegexp.UriInfo, init: Result<InitAssertion, string>,
                                  files: nat -> Option<LeafFile>, w: nat): (r: Result<MerkleTree, string>)
    requires w > 0 && NoUnderflow(info, init)
    ensures FailsBeforeLeaves(info, init, w, r)
    ensures r.Ok? <==> MapsReady(info, init, w) && WindowReadable(init.value, files, WindowAsWritten(info.index.n, w).from, w)
    ensures r.Err? && MapsReady(info, init, w) ==>
      FirstFailure(c, init.value, info.index.n, WindowAsWritten(info.index.n, w).from, w, files, r.error)
    ensures r.Ok? ==> r.value.init == InitOf(GroupMap(info, init, w))
    ensures r.Ok? ==> |r.value.leaves| == w
    ensures r.Ok? ==> forall j :: 0 <= j < w ==>
      var i := WindowAsWritten(info.index.n, w).from + j;
      Ok(r.value.leaves[j]) == MakeLeaf(c, init.value, info.index.n, i, files(i))
      && (r.value.leaves[j].Some? <==> files(i).Some?)
      && (r.value.leaves[j].Some? ==> (r.value.leaves[j].value.isCurrent <==> i == info.index.n))
  {
    Build(c, info, init, files, w, false)
  }

  /** `MerkleTree::_new` with the window of the requested fragment's group:
      the init data come from the group's Merkle map (the last one, which
      must be the group's), and the leaves are the group's fragments in
      order, the requested one marked current. */
  function NewMerkleTree(c: RollingHashes.Crypto, info: LiveRegexp.UriInfo, init: Result<InitAssertion, string>,
                         files: nat -> Option<LeafFile>, w: nat): (r: Result<MerkleTree, string>)
    requires w > 0 && NoUnderflow(info, init)
    ensures FailsBeforeLeaves(info, init, w, r)
    ensures r.Ok? <==> MapsReady(info, init, w) && WindowReadable(init.value, files, SegmentWindow(info.index.n, w).from, w)
    ensures r.Err? && MapsReady(info, init, w) ==>
      FirstFailure(c, init.value, info.index.n, SegmentWindow(info.index.n, w).from, w, files, r.error)
    ensures r.Ok? ==> r.value.init == InitOf(GroupMap(info, init, w))
    ensures r.Ok? ==> |r.value.leaves| == w
    ensures r.Ok? ==> forall j :: 0 <= j < w ==>
      var i := SegmentWindow(info.index.n, w).from + j;
      i >= 1 && MerkleIndex(i, w) == MerkleIndex(info.index.n, w)
      && Ok(r.value.leaves[j]) == MakeLeaf(c, init.value, info.index.n, i, files(i))
      && (r.value.leaves[j].Some? <==> files(i).Some?)
      && (r.value.leaves[j].Some? ==>
            (r.value.leaves[j].value.name == LeafName(i) && (r.value.leaves[j].value.isCurrent <==> i == info.index.n)))
  {
    if info.index.Index? && info.index.n >= 1 then
      WholeWindowIsGroup(info.index.n, w);
      Build(c, info, init, files, w, true)
    else
      Build(c, info, init, files, w, true)
  }

  /** The tree holds the requested fragment's leaf exactly when its file
      opens, at its place in the group. */
  lemma CurrentLeaf(c: RollingHashes.Crypto, info: LiveRegexp.UriInfo, init: Result<InitAssertion, string>,
                    files: nat -> Option<LeafFile>, w: nat)
    requires w > 0 && NoUnderflow(info, init)
    requires NewMerkleTree(c, info, init, files, w).Ok?
    ensures var t := NewMerkleTree(c, info, init, files, w).value;
      var j := info.index.n - SegmentWindow(info.index.n, w).from;
      0 <= j < |t.leaves|
      && (t.leaves[j].Some? <==> files(info.index.n).Some?)
      && (t.leaves[j].Some? ==> t.leaves[j].value.isCurrent)
      && (forall k :: 0 <= k < |t.leaves| && k != j && t.leaves[k].Some? ==> !t.leaves[k].value.isCurrent)
  {
  }

  /** As written, a request for the last fragment of a group builds a tree
      with no current leaf. */
  lemma AsWrittenLosesCurrent(c: RollingHashes.Crypto, info: LiveRegexp.UriInfo, init: Result<InitAssertion, string>,
                              files: nat -> Option<LeafFile>, w: nat)
    requires w > 0 && NoUnderflow(info, init)
    requires info.index.Index? && Rem(info.index.n, w) == 0
    requires NewMerkleTreeAsWritten(c, info, init, files, w).Ok?
    ensures var t := NewMerkleTreeAsWritten(c, info, init, files, w).value;
      forall j :: 0 <= j < w && t.leaves[j].Some? ==> !t.leaves[j].value.isCurrent
  {
  }
}

=== FILE: live_paths.dfy ===
/** Unix path handling the live CLI relies on: `Path::components`,
    `file_name`, `extension`, the total order `Ord for Path` (component by
    component), the stable `sort` over it, and the CLI's own predicates
    `is_fragment` and `is_init` (`cli/src/live/utility.rs`).

    A path is a string; non-UTF-8 paths (where `to_str` gives `None`) are
    not modelled. */
module LivePaths {
  import opened Wrappers
  import opened Text

  // ---- components ----

  /** A component of a Unix path (there is no `Prefix` on Unix). */
  datatype Component = RootDir | CurDir | ParentDir | Normal(name: string)

  function PartComponent(part: string): Component {
    if part == ".." then ParentDir else Normal(part)
  }

  /** A piece of a path that is a plain name. */
  predicate IsPlainName(s: string) {
    s != "" && s != "." && s != ".." && '/' !in s
  }

  /** The components of a run of `/`-separated pieces after the first:
      empty pieces (repeated or trailing separators) and `.` are dropped. */
  function Kept(parts: seq<string>): (cs: seq<Component>)
    requires forall j :: 0 <= j < |parts| ==> '/' !in parts[j]
    ensures forall k :: 0 <= k < |cs| ==> cs[k] != RootDir && cs[k] != CurDir
    ensures forall k :: 0 <= k < |cs| ==> cs[k].Normal? ==> IsPlainName(cs[k].name)
  {
    if |parts| == 0 then []
    else (if parts[0] == "" || parts[0] == "." then [] else [PartComponent(parts[0])]) + Kept(parts[1..])
  }

  /** A piece that `Kept` turns into a component. */
  predicate IsNamedPiece(s: string) {
    s != "" && s != "." && '/' !in s
  }

  lemma {:induction false} KeptAppend(parts: seq<string>, last: string)
    requires forall j :: 0 <= j < |parts| ==> '/' !in parts[j]
    requires IsNamedPiece(last)
    ensures Kept(parts + [last]) == Kept(parts) + [PartComponent(last)]
  {
    if |parts| == 0 {
      assert Kept([last]) == [PartComponent(last)] + Kept([]);
    } else {
      assert (parts + [last])[1..] == parts[1..] + [last];
      KeptAppend(parts[1..], last);
    }
  }

  /** `Path::components`: a leading `/` is the root, a leading `.` piece is
      the current directory, and after that empty pieces and `.` vanish. */
  function Components(p: string): (cs: seq<Component>)
    ensures forall k :: 0 < k < |cs| ==> cs[k] != RootDir && cs[k] != CurDir
    ensures forall k :: 0 <= k < |cs| ==> cs[k].Normal? ==> IsPlainName(cs[k].name)
  {
    var parts := Split(p, '/');
    if |p| > 0 && p[0] == '/' then [RootDir] + Kept(parts[1..])
    else if parts[0] == "." then [CurDir] + Kept(parts[1..])
    else Kept(parts)
  }

  /** `Path::file_name`: the last component, when it is a plain name. */
  function FileName(p: string): (r: Option<string>)
    ensures r.Some? ==> IsPlainName(r.value)
  {
    var cs := Components(p);
    if |cs| > 0 && cs[|cs| - 1].Normal? then Some(cs[|cs| - 1].name) else None
  }

  lemma {:induction false} JoinAppend(parts: seq<string>, last: string, sep: char)
    requires |parts| >= 1
    ensures Join(parts + [last], sep) == Join(parts, sep) + [sep] + last
  {
    if |parts| > 1 {
      assert (parts + [last])[1..] == parts[1..] + [last];
      JoinAppend(parts[1..], last, sep);
    }
  }

  /** The file name of `dir/name` is `name`, whatever `dir` is, and
      `dir/..` has none. */
  lemma FileNameOfChild(dir: string, name: string)
    requires IsNamedPiece(name)
    ensures FileName(dir + "/" + name) == if name == ".." then None else Some(name)
  {
    var p := dir + "/" + name;
    var pieces := Split(dir, '/');
    JoinAppend(pieces, name, '/');
    assert p == Join(pieces + [name], '/');
    SplitJoin(pieces + [name], '/');
    assert Split(p, '/') == pieces + [name];
    ComponentsEndIn(p, pieces, name);
  }

  /** When the last `/`-piece of `p` is a named piece, it is the last
      component. */
  lemma ComponentsEndIn(p: string, pieces: seq<string>, name: string)
    requires |pieces| >= 1 && IsNamedPiece(name)
    requires forall j :: 0 <= j < |pieces| ==> '/' !in pieces[j]
    requires Split(p, '/') == pieces + [name]
    ensures |Components(p)| > 0 && Components(p)[|Components(p)| - 1] == PartComponent(name)
  {
    var parts := pieces + [name];
    var cs := Components(p);
    assert parts[1..] == pieces[1..] + [name];
    if |p| > 0 && p[0] == '/' {
      assert cs == [RootDir] + Kept(parts[1..]);
      KeptAppend(pieces[1..], name);
    } else if parts[0] == "." {
      assert cs == [CurDir] + Kept(parts[1..]);
      KeptAppend(pieces[1..], name);
    } else {
      assert cs == Kept(parts);
      KeptAppend(pieces, name);
    }
  }


  // ---- extension ----

  /** Index of the last occurrence of `c` in `s`. */
  function LastIndex(s: string, c: char): (r: Option<nat>)
    ensures r.None? ==> c !in s
    ensures r.Some? ==> r.value < |s| && s[r.value] == c && c !in s[r.value + 1..]
  {
    if |s| == 0 then None
    else if s[|s| - 1] == c then Some(|s| - 1)
    else
      match LastIndex(s[..|s| - 1], c)
      case None => assert s == s[..|s| - 1] + [s[|s| - 1]]; None
      case Some(i) => assert s[i + 1..] == s[..|s| - 1][i + 1..] + [s[|s| - 1]]; Some(i)
  }

  lemma {:induction false} LastIndexBeforeFree(a: string, c: char, b: string)
    requires c !in b
    ensures LastIndex(a + [c] + b, c) == Some(|a|)
  {
    var s := a + [c] + b;
    if |b| > 0 {
      assert s[|s| - 1] == b[|b| - 1];
      assert s[..|s| - 1] == a + [c] + b[..|b| - 1];
      LastIndexBeforeFree(a, c, b[..|b| - 1]);
    }
  }

  /** A `.` somewhere after the first character of a file name. */
  predicate HasInnerDot(name: string) {
    exists i :: 0 < i < |name| && name[i] == '.'
  }

  /** `Path::extension`: what follows the last `.` of the file name, unless
      that `.` is its first character (a hidden file has no extension). */
  function Extension(p: string): (r: Option<string>)
    ensures r.Some? <==> FileName(p).Some? && HasInnerDot(FileName(p).value)
    ensures r.Some? ==> '.' !in r.value && |r.value| + 1 < |FileName(p).value|
    ensures r.Some? ==> EndsWith(FileName(p).value, "." + r.value)
  {
    match FileName(p)
    case None => None
    case Some(name) =>
      match LastIndex(name, '.')
      case None => None
      case Some(i) =>
        if i == 0 then
          OnlyLeadingDot(name);
          None
        else
          var e := name[i + 1..];
          assert HasInnerDot(name) by { assert name[i] == '.'; }
          assert name[|name| - |"." + e|..] == "." + e;
          Some(e)
  }

  /** A name whose last `.` is its first character has no inner `.`. */
  lemma OnlyLeadingDot(name: string)
    requires LastIndex(name, '.') == Some(0)
    ensures !HasInnerDot(name)
  {
    forall j | 0 < j < |name| ensures name[j] != '.' {
      assert name[j] == name[1..][j - 1];
    }
  }

  /** `is_fragment`: the extension is exactly `m4s`, compared
      case-sensitively. */
  predicate IsFragment(p: string) {
    Extension(p) == Some("m4s")
  }

  /** A path is a fragment exactly when its file name ends in `.m4s` with a
      non-empty stem. */
  lemma FragmentIff(p: string)
    ensures IsFragment(p) <==> FileName(p).Some? && EndsWith(FileName(p).value, ".m4s") && |FileName(p).value| > 4
  {
    assert "." + "m4s" == ".m4s";
    if FileName(p).Some? && EndsWith(FileName(p).value, ".m4s") && |FileName(p).value| > 4 {
      var name := FileName(p).value;
      var stem := name[..|name| - 4];
      assert name == stem + "." + "m4s";
      ExtensionOfName(p, stem, "m4s");
    }
  }

  /** A file name `stem.ext` with a non-empty stem and no `.` in `ext` has
      extension `ext`. */
  lemma ExtensionOfName(p: string, stem: string, ext: string)
    requires FileName(p) == Some(stem + "." + ext) && stem != "" && '.' !in ext
    ensures Extension(p) == Some(ext)
  {
    var name := stem + "." + ext;
    assert name == stem + ['.'] + ext;
    LastIndexBeforeFree(stem, '.', ext);
    assert name[|stem| + 1..] == ext;
  }

  /** The extension of `dir/stem.ext` is `ext` when `ext` holds no `.`
      and the stem is not empty. */
  lemma ExtensionOfChild(dir: string, stem: string, ext: string)
    requires IsPlainName(stem + "." + ext) && stem != "" && '.' !in ext
    ensures Extension(dir + "/" + (stem + "." + ext)) == Some(ext)
  {
    FileNameOfChild(dir, stem + "." + ext);
    ExtensionOfName(dir + "/" + (stem + "." + ext), stem, ext);
  }

  /** Such a path is a fragment exactly when `ext` is `m4s`, letter for
      letter: `M4S` does not qualify. */
  lemma FragmentOfChild(dir: string, stem: string, ext: string)
    requires IsPlainName(stem + "." + ext) && stem != "" && '.' !in ext
    ensures IsFragment(dir + "/" + (stem + "." + ext)) <==> ext == "m4s"
  {
    ExtensionOfChild(dir, stem, ext);
  }

  /** A hidden file such as `dir/.m4s` has no extension, so it is never a
      fragment. */
  lemma HiddenFileHasNoExtension(dir: string, ext: string)
    requires IsPlainName("." + ext) && '.' !in ext
    ensures Extension(dir + "/" + ("." + ext)) == None
  {
    var name := "." + ext;
    FileNameOfChild(dir, name);
    assert name == [] + ['.'] + ext;
    LastIndexBeforeFree([], '.', ext);
  }

  /** `is_init`: the path has a file name and it contains `init`. */
  predicate IsInit(p: string) {
    match FileName(p)
    case Some(name) => Contains(name, "init")
    case None => false
  }

  /** Only the last component decides: the directories above do not. */
  lemma InitIff(dir: string, name: string)
    requires IsPlainName(name)
    ensures IsInit(dir + "/" + name) <==> Contains(name, "init")
  {
    FileNameOfChild(dir, name);
  }

  // ---- ordering ----

  datatype Ordering = Less | Equal | Greater {
    function Flip(): Ordering {
      match this
      case Less => Greater
      case Equal => Equal
      case Greater => Less
    }
  }

  /** Lexicographic comparison of two sequences under an element order. */
  function LexCmp<T>(a: seq<T>, b: seq<T>, cmp: (T, T) -> Ordering): Ordering {
    if |a| == 0 then (if |b| == 0 then Equal else Less)
    else if |b| == 0 then Greater
    else if cmp(a[0], b[0]) != Equal then cmp(a[0], b[0])
    else LexCmp(a[1..], b[1..], cmp)
  }

  ghost predicate IsTotalOrder<T(!new)>(cmp: (T, T) -> Ordering) {
    && (forall x, y :: cmp(y, x) == cmp(x, y).Flip())
    && (forall x, y :: cmp(x, y) == Equal <==> x == y)
    && (forall x, y, z :: cmp(x, y) != Greater && cmp(y, z) != Greater ==> cmp(x, z) != Greater)
  }

  lemma {:induction false} LexFlip<T(!new)>(a: seq<T>, b: seq<T>, cmp: (T, T) -> Ordering)
    requires IsTotalOrder(cmp)
    ensures LexCmp(b, a, cmp) == LexCmp(a, b, cmp).Flip()
  {
    if |a| > 0 && |b| > 0 {
      LexFlip(a[1..], b[1..], cmp);
    }
  }

  lemma {:induction false} LexEqual<T(!new)>(a: seq<T>, b: seq<T>, cmp: (T, T) -> Ordering)
    requires IsTotalOrder(cmp)
    ensures LexCmp(a, b, cmp) == Equal <==> a == b
  {
    if |a| > 0 && |b| > 0 {
      LexEqual(a[1..], b[1..], cmp);
      if a[0] == b[0] && a[1..] == b[1..] {
        assert a == [a[0]] + a[1..] && b == [b[0]] + b[1..];
      }
    }
  }

  lemma {:induction false} LexTrans<T(!new)>(a: seq<T>, b: seq<T>, c: seq<T>, cmp: (T, T) -> Ordering)
    requires IsTotalOrder(cmp)
    requires LexCmp(a, b, cmp) != Greater && LexCmp(b, c, cmp) != Greater
    ensures LexCmp(a, c, cmp) != Greater
  {
    if |a| > 0 && |b| > 0 && |c| > 0 {
      if cmp(a[0], b[0]) == Equal && cmp(b[0], c[0]) == Equal {
        LexTrans(a[1..], b[1..], c[1..], cmp);
      } else if cmp(a[0], b[0]) == Equal {
        assert a[0] == b[0];
      } else if cmp(b[0], c[0]) == Equal {
        assert b[0] == c[0];
      } else {
        assert cmp(c[0], b[0]) == cmp(b[0], c[0]).Flip();
        assert cmp(a[0], c[0]) != Greater;
      }
    }
  }

  lemma LexIsTotalOrder<T(!new)>(cmp: (T, T) -> Ordering)
    requires IsTotalOrder(cmp)
    ensures IsTotalOrder((a: seq<T>, b: seq<T>) => LexCmp(a, b, cmp))
  {
    forall a: seq<T>, b: seq<T> ensures LexCmp(b, a, cmp) == LexCmp(a, b, cmp).Flip() {
      LexFlip(a, b, cmp);
    }
    forall a: seq<T>, b: seq<T> ensures LexCmp(a, b, cmp) == Equal <==> a == b {
      LexEqual(a, b, cmp);
    }
    forall a: seq<T>, b: seq<T>, c: seq<T> | LexCmp(a, b, cmp) != Greater && LexCmp(b, c, cmp) != Greater
      ensures LexCmp(a, c, cmp) != Greater
    {
      LexTrans(a, b, c, cmp);
    }
  }

  function CharCmp(x: char, y: char): Ordering {
    if x < y then Less else if y < x then Greater else Equal
  }

  /** The derived order of `Component`: by variant, names bytewise. */
  function Rank(c: Component): nat {
    match c
    case RootDir => 1
    case CurDir => 2
    case ParentDir => 3
    case Normal(_) => 4
  }

  function ComponentCmp(x: Component, y: Component): Ordering {
    if Rank(x) < Rank(y) then Less
    else if Rank(y) < Rank(x) then Greater
    else if x.Normal? && y.Normal? then LexCmp(x.name, y.name, CharCmp)
    else Equal
  }

  lemma ComponentCmpIsTotalOrder()
    ensures IsTotalOrder(ComponentCmp)
  {
    assert IsTotalOrder(CharCmp);
    forall x: string, y: string ensures LexCmp(y, x, CharCmp) == LexCmp(x, y, CharCmp).Flip() {
      LexFlip(x, y, CharCmp);
    }
    forall x: string, y: string ensures LexCmp(x, y, CharCmp) == Equal <==> x == y {
      LexEqual(x, y, CharCmp);
    }
    forall x: string, y: string, z: string | LexCmp(x, y, CharCmp) != Greater && LexCmp(y, z, CharCmp) != Greater
      ensures LexCmp(x, z, CharCmp) != Greater
    {
      LexTrans(x, y, z, CharCmp);
    }
  }

  /** `Ord for Path`: the component sequences compared lexicographically. */
  function PathCmp(p: string, q: string): Ordering {
    LexCmp(Components(p), Components(q), ComponentCmp)
  }

  predicate PathLeq(p: string, q: string) {
    PathCmp(p, q) != Greater
  }

  /** The path order is total and transitive, and paths compare equal
      exactly when their components agree (so `a//b` and `a/b` tie). */
  lemma PathOrder(p: string, q: string, r: string)
    ensures PathLeq(p, q) || PathLeq(q, p)
    ensures PathLeq(p, q) && PathLeq(q, r) ==> PathLeq(p, r)
    ensures PathCmp(p, q) == Equal <==> Components(p) == Components(q)
  {
    ComponentCmpIsTotalOrder();
    LexFlip(Components(p), Components(q), ComponentCmp);
    LexEqual(Components(p), Components(q), ComponentCmp);
    if PathLeq(p, q) && PathLeq(q, r) {
      LexTrans(Components(p), Components(q), Components(r), ComponentCmp);
    }
  }

  /** The path order is a total preorder. */
  lemma PathLeqIsTotalPreorder()
    ensures IsTotalPreorder(PathLeq)
  {
    forall p, q, r ensures (PathLeq(p, q) || PathLeq(q, p)) && (PathLeq(p, q) && PathLeq(q, r) ==> PathLeq(p, r)) {
      PathOrder(p, q, r);
    }
  }

  // ---- sorting ----

  ghost predicate IsTotalPreorder<T(!new)>(le: (T, T) -> bool) {
    && (forall x, y :: le(x, y) || le(y, x))
    && (forall x, y, z :: le(x, y) && le(y, z) ==> le(x, z))
  }

  predicate SortedBy<T>(s: seq<T>, le: (T, T) -> bool) {
    forall i, j :: 0 <= i < j < |s| ==> le(s[i], s[j])
  }

  /** Insertion in front of the first element that is not smaller: an
      element goes before the later ones it ties with. */
  function InsertBy<T(==)>(x: T, s: seq<T>, le: (T, T) -> bool): (r: seq<T>)
    ensures |r| == |s| + 1
    ensures multiset(r) == multiset(s) + multiset{x}
  {
    if |s| == 0 then [x]
    else if le(x, s[0]) then [x] + s
    else
      assert s == [s[0]] + s[1..];
      [s[0]] + InsertBy(x, s[1..], le)
  }

  /** `slice::sort` (stable) under `le`. */
  function SortBy<T(==)>(s: seq<T>, le: (T, T) -> bool): (r: seq<T>)
    ensures multiset(r) == multiset(s)
    ensures |r| == |s|
  {
    if |s| == 0 then []
    else
      assert s == [s[0]] + s[1..];
      InsertBy(s[0], SortBy(s[1..], le), le)
  }

  lemma {:induction false} InsertBySorted<T(!new)>(x: T, s: seq<T>, le: (T, T) -> bool)
    requires IsTotalPreorder(le) && SortedBy(s, le)
    ensures SortedBy(InsertBy(x, s, le), le)
  {
    if |s| > 0 && !le(x, s[0]) {
      var tail := InsertBy(x, s[1..], le);
      InsertBySorted(x, s[1..], le);
      forall j | 0 <= j < |tail| ensures le(s[0], tail[j]) {
        assert tail[j] in multiset(tail);
        if tail[j] != x {
          assert tail[j] in multiset(s[1..]);
          var k :| 0 <= k < |s[1..]| && s[1..][k] == tail[j];
          assert s[k + 1] == tail[j];
        }
      }
    }
  }

  lemma {:induction false} SortBySorted<T(!new)>(s: seq<T>, le: (T, T) -> bool)
    requires IsTotalPreorder(le)
    ensures SortedBy(SortBy(s, le), le)
  {
    if |s| > 0 {
      SortBySorted(s[1..], le);
      InsertBySorted(s[0], SortBy(s[1..], le), le);
    }
  }
}

=== FILE: live_regexp.dfy ===
/** Request classification in the live CLI (`cli/src/live/regexp.rs`):
    `FragmentIndex` and `ManifestTypes` with their `Display` and `FromStr`,
    and the two lookups `uri` and `manifest`.

    The two regular expressions are written out as the matches the `regex`
    crate reports (leftmost start, then greedy, first alternative first):
    `(?P<rep>\d+)/segment_0*(?P<index>\d+|init)\.m4s` for fragments and
    `media_(?P<rep>\d+)\.m3u8` for media playlists. */
module LiveRegexp {
  import opened Wrappers
  import opened Text

  datatype ManifestType = Mpd | Master | Media

  /** `FragmentIndex`; an `Index` holds a `u32`. */
  datatype FragmentIndex = Index(n: nat) | Init | ManifestIndex(kind: ManifestType)

  predicate ValidIndex(x: FragmentIndex) {
    x.Index? ==> x.n < U32_LIMIT
  }

  /** `UriInfo`; the representation id is a `u8`. */
  datatype UriInfo = UriInfo(repId: nat, index: FragmentIndex)

  /** The message of Rust's `ParseIntError` for a digit string too long for
      its type, the only way a captured number can fail to parse. */
  const TOO_LARGE: string := "number too large to fit in target type"

  /** The message for input that is not a number at all. */
  const INVALID_DIGIT: string := "invalid digit found in string"

  /** The kinds of `ParseIntError` an unsigned parse can report. */
  datatype IntErrorKind = Empty | InvalidDigit | PosOverflow

  /** The `Display` text of each kind. */
  function KindMessage(k: IntErrorKind): string {
    match k
    case Empty => "cannot parse integer from empty string"
    case InvalidDigit => INVALID_DIGIT
    case PosOverflow => TOO_LARGE
  }

  /** The digit loop of core's `from_str_radix` (radix 10) for a type whose
      values are below `limit`: characters are read left to right, and the
      first one that is not a digit, or whose digit takes the value to
      `limit` or beyond, ends the parse with that error. */
  function ScanDigits(t: string, acc: nat, limit: nat): Result<nat, IntErrorKind>
    decreases |t|
  {
    if |t| == 0 then Ok(acc)
    else if !IsDigit(t[0]) then Err(InvalidDigit)
    else
      var v := acc * 10 + DigitValue(t[0]);
      if v >= limit then Err(PosOverflow) else ScanDigits(t[1..], v, limit)
  }

  /** The digits an unsigned parse reads: the text after an optional `+`. */
  function UnsignedDigits(s: string): string {
    if |s| > 0 && s[0] == '+' then s[1..] else s
  }

  /** `str::parse` for an unsigned type: the empty string and a lone `+`
      are rejected up front, otherwise the digit loop decides. */
  function FromStrRadix(s: string, limit: nat): Result<nat, IntErrorKind> {
    if |s| == 0 then Err(Empty)
    else if s == "+" then Err(InvalidDigit)
    else ScanDigits(UnsignedDigits(s), 0, limit)
  }

  /** Which error an unsigned parse that fails reports, stated over the whole
      string: empty input; else overflow when the leading run of digits
      (after an optional `+`) is worth `limit` or more, even if a non-digit
      follows it; else an invalid digit. */
  function ParseIntErrorKind(s: string, limit: nat): IntErrorKind {
    var digits := UnsignedDigits(s);
    var d := DigitRun(digits);
    DigitRunIsDigits(digits);
    if |s| == 0 then Empty
    else if d > 0 && DecimalValue(digits[..d]) >= limit then PosOverflow
    else InvalidDigit
  }

  /** The message of Rust's `ParseIntError` for a string that fails to parse. */
  function ParseIntError(s: string, limit: nat): string {
    KindMessage(ParseIntErrorKind(s, limit))
  }

  /** A run of digits at the start is at least as long as any all-digit prefix. */
  lemma DigitRunCovers(t: string, j: nat)
    requires j <= |t| && AllDigits(t[..j])
    ensures j <= DigitRun(t)
  {
  }

  /** The digit loop, resumed at `i` with the value of what it has read, ends
      as the whole-string description says. */
  lemma {:induction false} ScanFrom(t: string, i: nat, limit: nat)
    requires i <= |t| && AllDigits(t[..i]) && DecimalValue(t[..i]) < limit
    ensures AllDigits(t[..DigitRun(t)])
    ensures ScanDigits(t[i..], DecimalValue(t[..i]), limit)
         == if DigitRun(t) > 0 && DecimalValue(t[..DigitRun(t)]) >= limit then Err(PosOverflow)
            else if DigitRun(t) < |t| then Err(InvalidDigit)
            else Ok(DecimalValue(t[..DigitRun(t)]))
    decreases |t| - i
  {
    var d := DigitRun(t);
    DigitRunIsDigits(t);
    DigitRunCovers(t, i);
    var acc := DecimalValue(t[..i]);
    if i == |t| {
      assert t[..d] == t[..i];
    } else if !IsDigit(t[i]) {
      assert t[i..][0] == t[i];
      assert d == i;
    } else {
      assert t[i..][0] == t[i];
      assert t[..i + 1][..i] == t[..i];
      var v := acc * 10 + DigitValue(t[i]);
      assert DecimalValue(t[..i + 1]) == v;
      assert AllDigits(t[..i + 1]);
      DigitRunCovers(t, i + 1);
      if v >= limit {
        DecimalValuePrefix(t[..d], i + 1);
        assert t[..d][..i + 1] == t[..i + 1];
      } else {
        assert t[i..][1..] == t[i + 1..];
        ScanFrom(t, i + 1, limit);
      }
    }
  }

  /** The digit loop agrees with the declarative parse: it succeeds exactly
      when `ParseUnsigned` does, with the same value, and otherwise reports
      the error `ParseIntErrorKind` names. */
  lemma FromStrRadixMeaning(s: string, limit: nat)
    ensures FromStrRadix(s, limit).Ok? <==> ParseUnsigned(s, limit).Some?
    ensures FromStrRadix(s, limit).Ok? ==> FromStrRadix(s, limit).value == ParseUnsigned(s, limit).value
    ensures FromStrRadix(s, limit).Err? ==> FromStrRadix(s, limit).error == ParseIntErrorKind(s, limit)
  {
    var digits := UnsignedDigits(s);
    var d := DigitRun(digits);
    DigitRunIsDigits(digits);
    if |s| == 0 || s == "+" {
    } else if limit == 0 {
      assert ParseUnsigned(s, limit).None?;
      if IsDigit(digits[0]) {
        DigitRunCovers(digits, 1);
      } else {
        assert d == 0;
      }
    } else {
      assert digits[..0] == "";
      ScanFrom(digits, 0, limit);
      assert digits[0..] == digits;
      if d == |digits| {
        assert digits[..d] == digits;
      } else {
        assert !AllDigits(digits) by { assert !IsDigit(digits[d]); }
      }
    }
  }

  /** `Display for ManifestTypes`. */
  function ManifestTypeName(m: ManifestType): string {
    match m
    case Master => "master"
    case Mpd => "mpd"
    case Media => "media"
  }

  /** `Display for FragmentIndex`. */
  function IndexName(x: FragmentIndex): string {
    match x
    case Index(n) => NatToDecimal(n)
    case Init => "init"
    case ManifestIndex(m) => ManifestTypeName(m)
  }

  /** `FromStr for FragmentIndex`: the four keywords in any letter case,
      else an unsigned 32-bit number read by the `u32` parse. */
  function ParseIndex(s: string): (r: Result<FragmentIndex, string>)
    ensures r.Ok? ==> ValidIndex(r.value)
    ensures r.Ok? && r.value.Index? ==> ParseUnsigned(AsciiLower(s), U32_LIMIT) == Some(r.value.n)
    ensures r.Err? <==> AsciiLower(s) !in {"init", "mpd", "media", "master"}
                        && ParseUnsigned(AsciiLower(s), U32_LIMIT).None?
    ensures r.Err? ==> r.error == ParseIntError(AsciiLower(s), U32_LIMIT)
  {
    var lower := AsciiLower(s);
    if lower == "init" then Ok(Init)
    else if lower == "mpd" then Ok(ManifestIndex(Mpd))
    else if lower == "media" then Ok(ManifestIndex(Media))
    else if lower == "master" then Ok(ManifestIndex(Master))
    else
      FromStrRadixMeaning(lower, U32_LIMIT);
      match FromStrRadix(lower, U32_LIMIT)
      case Ok(n) => Ok(Index(n))
      case Err(k) => Err(KindMessage(k))
  }

  /** Parsing undoes printing for every index. */
  lemma ParseIndexName(x: FragmentIndex)
    requires ValidIndex(x)
    ensures ParseIndex(IndexName(x)) == Ok(x)
  {
    match x
    case Index(n) =>
      ParseNumberName(n);
      ParseRendered(n, U32_LIMIT);
    case Init =>
      assert AsciiLower("init") == "init";
    case ManifestIndex(m) =>
      assert AsciiLower("mpd") == "mpd";
      assert AsciiLower("media") == "media";
      assert AsciiLower("master") == "master";
  }

  /** A string that starts with a digit is no keyword. */
  lemma DigitFirstIsNoKeyword(s: string)
    requires |s| > 0 && IsDigit(s[0])
    ensures s !in {"init", "mpd", "media", "master"}
  {
    assert s != "init" by { assert "init"[0] == 'i'; }
    assert s != "mpd" by { assert "mpd"[0] == 'm'; }
    assert s != "media" by { assert "media"[0] == 'm'; }
    assert s != "master" by { assert "master"[0] == 'm'; }
  }

  /** A rendered number is its own lower-case form and no keyword, so
      `ParseIndex` reads it as a number. */
  lemma ParseNumberName(n: nat)
    ensures ParseIndex(NatToDecimal(n))
         == match ParseUnsigned(NatToDecimal(n), U32_LIMIT)
            case Some(v) => Ok(Index(v))
            case None => Err(ParseIntError(NatToDecimal(n), U32_LIMIT))
  {
    var s := NatToDecimal(n);
    AsciiLowerKeepsDigits(s);
    DigitFirstIsNoKeyword(s);
  }

  /** The `u32` parse reports overflow as soon as the digits read so far
      pass `u32::MAX`, before it reaches any later non-digit: a number of
      `2^32` or more followed by anything at all is too large, not invalid
      (`4294967296x` is one such input). */
  lemma ParseIndexOverflowFirst(n: nat, tail: string)
    requires n >= U32_LIMIT
    ensures ParseIndex(NatToDecimal(n) + tail) == Err(TOO_LARGE)
  {
    var p := NatToDecimal(n);
    var lower := AsciiLower(p + tail);
    assert lower[..|p|] == p;
    assert lower[0] == p[0];
    DigitFirstIsNoKeyword(lower);
    OverflowingPrefix(lower, p, U32_LIMIT);
  }

  /** A string that starts with digits worth `limit` or more does not parse,
      and the error is overflow. */
  lemma OverflowingPrefix(s: string, p: string, limit: nat)
    requires 0 < |p| <= |s| && s[..|p|] == p && AllDigits(p) && DecimalValue(p) >= limit
    ensures ParseUnsigned(s, limit).None?
    ensures ParseIntErrorKind(s, limit) == PosOverflow
  {
    assert s[0] == p[0];
    assert UnsignedDigits(s) == s;
    if AllDigits(s) {
      DecimalValuePrefix(s, |p|);
    }
    var d := DigitRun(s);
    DigitRunCovers(s, |p|);
    DigitRunIsDigits(s);
    DecimalValuePrefix(s[..d], |p|);
    assert s[..d][..|p|] == p;
  }

  /** Rendering a number one digit longer appends that digit. */
  lemma RenderedDigit(p: nat, c: nat)
    requires p >= 1 && c < 10
    ensures NatToDecimal(p * 10 + c) == NatToDecimal(p) + [DigitChar(c)]
  {
    assert (p * 10 + c) / 10 == p && (p * 10 + c) % 10 == c;
  }

  lemma RenderedLimit()
    ensures NatToDecimal(4294967296) == "4294967296"
  {
    RenderedLimitHead();
    RenderedDigit(42949, 6);
    RenderedDigit(429496, 7);
    RenderedDigit(4294967, 2);
    RenderedDigit(42949672, 9);
    RenderedDigit(429496729, 6);
  }

  lemma RenderedLimitHead()
    ensures NatToDecimal(42949) == "42949"
  {
    assert NatToDecimal(4) == "4";
    RenderedDigit(4, 2);
    RenderedDigit(42, 9);
    RenderedDigit(429, 4);
    RenderedDigit(4294, 9);
  }

  /** The input on which the digit loop's order shows. */
  lemma ParseIndexOverflowExample()
    ensures ParseIndex("4294967296x") == Err(TOO_LARGE)
  {
    RenderedLimit();
    ParseIndexOverflowFirst(4294967296, "x");
    assert NatToDecimal(4294967296) + "x" == "4294967296x";
  }

  /** An index beyond `u32` is rejected, not wrapped. */
  lemma ParseIndexTooLarge(n: nat)
    requires n >= U32_LIMIT
    ensures ParseIndex(NatToDecimal(n)) == Err(TOO_LARGE)
  {
    ParseIndexOverflowFirst(n, "");
    assert NatToDecimal(n) + "" == NatToDecimal(n);
  }

  lemma LowerIdempotent(s: string)
    ensures AsciiLower(AsciiLower(s)) == AsciiLower(s)
  {
  }

  /** Letter case never matters: a string parses as its lower-case form. */
  lemma ParseIndexIgnoresCase(s: string)
    ensures ParseIndex(s) == ParseIndex(AsciiLower(s))
  {
    LowerIdempotent(s);
  }

  // ---- matching ----

  /** Whether `c` continues a run: any digit, or only `0`. */
  predicate InRun(c: char, zerosOnly: bool) {
    if zerosOnly then c == '0' else IsDigit(c)
  }

  /** The length of the longest run at the start of `s`; greedy `\d+` and
      `0*` take exactly this much when what follows can match. */
  function RunLength(s: string, zerosOnly: bool): (n: nat)
    ensures n <= |s|
    ensures forall k :: 0 <= k < n ==> InRun(s[k], zerosOnly)
    ensures n == |s| || !InRun(s[n], zerosOnly)
  {
    if |s| > 0 && InRun(s[0], zerosOnly) then 1 + RunLength(s[1..], zerosOnly) else 0
  }

  function DigitRun(s: string): nat {
    RunLength(s, false)
  }

  lemma DigitRunIsDigits(s: string)
    ensures AllDigits(s[..DigitRun(s)])
  {
    var d := DigitRun(s);
    forall k | 0 <= k < d ensures IsDigit(s[..d][k]) {
      assert InRun(s[k], false);
    }
  }

  function ZeroRun(s: string): nat {
    RunLength(s, true)
  }

  /** A run stops exactly where its characters do. */
  lemma RunOf(x: string, y: string, zerosOnly: bool)
    requires forall k :: 0 <= k < |x| ==> InRun(x[k], zerosOnly)
    requires |y| == 0 || !InRun(y[0], zerosOnly)
    ensures RunLength(x + y, zerosOnly) == |x|
  {
    assert |x| < |x + y| ==> (x + y)[|x|] == y[0];
    assert forall k :: 0 <= k < |x| ==> (x + y)[k] == x[k];
  }

  const SEGMENT: string := "/segment_"
  const M4S: string := ".m4s"

  /** The index part of the fragment pattern at the start of `u`: zero
      padding, then a run of digits, `init`, or the last padding zero when
      the digits are all zeros, then `.m4s`. Gives the `index` capture. */
  function IndexMatch(u: string): (r: Option<string>)
    ensures r.Some? ==> r.value == "init" || (|r.value| > 0 && AllDigits(r.value))
  {
    var z := ZeroRun(u);
    var v := u[z..];
    var d := DigitRun(v);
    if d > 0 && StartsWith(v[d..], M4S) then Some(v[..d])
    else if StartsWith(v, "init" + M4S) then Some("init")
    else if z > 0 && d == 0 && StartsWith(v, M4S) then Some("0")
    else None
  }

  /** The fragment pattern at the start of `t`; gives the `rep` and `index`
      captures. */
  function FragmentMatch(t: string): (r: Option<(string, string)>)
    ensures r.Some? ==> |r.value.0| > 0 && AllDigits(r.value.0)
    ensures r.Some? ==> r.value.1 == "init" || (|r.value.1| > 0 && AllDigits(r.value.1))
  {
    var repLen := DigitRun(t);
    if repLen == 0 || !StartsWith(t[repLen..], SEGMENT) then None
    else
      DigitRunIsDigits(t);
      match IndexMatch(t[repLen + |SEGMENT|..])
      case None => None
      case Some(index) => Some((t[..repLen], index))
  }

  /** The leftmost match starting at or after `i`. */
  function FirstFragmentMatch(s: string, i: nat): Option<(string, string)>
    requires i <= |s|
    decreases |s| - i
  {
    match FragmentMatch(s[i..])
    case Some(m) => Some(m)
    case None => if i == |s| then None else FirstFragmentMatch(s, i + 1)
  }

  /** `Regexp::uri`: the captured index (`init`, or a `u32`), then the
      captured representation id (a `u8`). */
  function Uri(uri: string): (r: Result<UriInfo, string>)
    ensures r.Ok? ==> r.value.repId < U8_LIMIT && ValidIndex(r.value.index)
    ensures r.Ok? ==> r.value.index.Index? || r.value.index.Init?
    ensures r.Err? ==> r.error in {"no matches uri", TOO_LARGE}
    ensures r == Err("no matches uri") <==> FirstFragmentMatch(uri, 0).None?
  {
    match FirstFragmentMatch(uri, 0)
    case None => Err("no matches uri")
    case Some((rep, idx)) => UriOfCaptures(rep, idx)
  }

  /** The conversions `uri` applies to the two captures. */
  function UriOfCaptures(rep: string, idx: string): (r: Result<UriInfo, string>)
    ensures r.Ok? ==> r.value.repId < U8_LIMIT && ValidIndex(r.value.index)
    ensures r.Ok? ==> r.value.index.Index? || r.value.index.Init?
    ensures r.Err? ==> r.error == TOO_LARGE
  {
    var index :- if idx == "init" then Ok(Init)
                 else match ParseUnsigned(idx, U32_LIMIT)
                   case Some(n) => Ok(Index(n))
                   case None => Err(TOO_LARGE);
    match ParseUnsigned(rep, U8_LIMIT)
    case Some(r) => Ok(UriInfo(r, index))
    case None => Err(TOO_LARGE)
  }

  /** `n` zero characters. */
  function ZeroPad(n: nat): (z: string)
    ensures |z| == n && forall k :: 0 <= k < n ==> z[k] == '0'
  {
    seq(n, k => '0')
  }

  /** The index part of a segment name, with `pad` leading zeros. */
  function IndexText(index: FragmentIndex, pad: nat): string {
    match index
    case Index(n) => ZeroPad(pad) + NatToDecimal(n)
    case _ => "init"
  }

  /** The `index` capture expected for a segment: its number without padding. */
  function IndexCapture(index: FragmentIndex): string {
    match index
    case Index(n) => NatToDecimal(n)
    case _ => "init"
  }

  /** A segment URI as the packager writes it: `<rep>/segment_<index>.m4s`
      after a directory part. */
  function SegmentUri(dir: string, rep: nat, index: FragmentIndex, pad: nat): string {
    dir + NatToDecimal(rep) + SEGMENT + IndexText(index, pad) + M4S
  }

  /** A directory part that cannot start a match of its own or lend digits
      to the representation id: it does not end in a digit and holds no
      `/segment_`. */
  predicate SegmentDir(dir: string) {
    (|dir| == 0 || !IsDigit(dir[|dir| - 1])) && !Contains(dir, SEGMENT)
  }

  /** `/segment_` does not start inside such a directory when a digit
      follows it: it would lie in the directory, or cross into the digit. */
  lemma SegmentNotInDir(dir: string, tail: string, p: nat)
    requires p < |dir| && |tail| >= 2 && IsDigit(tail[0]) && !Contains(dir, SEGMENT)
    ensures !OccursAt(dir + tail, SEGMENT, p)
  {
    var s := dir + tail;
    if OccursAt(s, SEGMENT, p) {
      if p + |SEGMENT| <= |dir| {
        assert dir[p..p + |SEGMENT|] == s[p..p + |SEGMENT|];
        assert OccursAt(dir, SEGMENT, p);
        assert false;
      } else {
        SeamChars(dir, tail, SEGMENT, p);
      }
    }
  }

  lemma RunStopsAt(t: string, j: nat)
    requires j < |t| && !IsDigit(t[j])
    ensures DigitRun(t) <= j
  {
  }

  /** No match of the fragment pattern starts inside the directory part. */
  lemma NoMatchInDir(dir: string, tail: string, i: nat)
    requires SegmentDir(dir) && i < |dir| && |tail| >= 2 && IsDigit(tail[0])
    ensures FragmentMatch((dir + tail)[i..]).None?
  {
    var s := dir + tail;
    var t := s[i..];
    var d := DigitRun(t);
    if d > 0 {
      assert t[|dir| - 1 - i] == dir[|dir| - 1];
      RunStopsAt(t, |dir| - 1 - i);
      SegmentNotInDir(dir, tail, i + d);
      if |SEGMENT| <= |t[d..]| {
        assert t[d..][..|SEGMENT|] == s[i + d..i + d + |SEGMENT|];
      }
    }
  }

  /** The leftmost match is not in the directory part. */
  lemma {:induction false} NoEarlierMatch(dir: string, tail: string, i: nat)
    requires SegmentDir(dir) && i <= |dir| && |tail| >= 2 && IsDigit(tail[0])
    ensures FirstFragmentMatch(dir + tail, i) == FirstFragmentMatch(dir + tail, |dir|)
    decreases |dir| - i
  {
    if i < |dir| {
      NoMatchInDir(dir, tail, i);
      NoEarlierMatch(dir, tail, i + 1);
    }
  }

  /** The index part of the pattern reads the number back without padding. */
  lemma IndexMatchOf(index: FragmentIndex, pad: nat)
    requires index.Index? || index.Init?
    ensures IndexMatch(IndexText(index, pad) + M4S) == Some(IndexCapture(index))
  {
    match index
    case Init =>
      var u := "init" + M4S;
      assert u[0] == 'i';
      assert u[..8] == "init" + M4S;
    case Index(n) =>
      if n == 0 {
        IndexMatchOfZero(pad);
      } else {
        IndexMatchOfNumber(n, pad);
      }
  }

  /** Padding zeros before a zero: the last zero is the capture. */
  lemma IndexMatchOfZero(pad: nat)
    ensures IndexMatch(ZeroPad(pad) + NatToDecimal(0) + M4S) == Some("0")
  {
    var u := ZeroPad(pad) + NatToDecimal(0) + M4S;
    assert NatToDecimal(0) == "0";
    assert u == ZeroPad(pad + 1) + M4S;
    RunOf(ZeroPad(pad + 1), M4S, true);
    assert u[pad + 1..] == M4S;
  }

  /** Padding zeros before a positive number: the number is the capture. */
  lemma IndexMatchOfNumber(n: nat, pad: nat)
    requires n > 0
    ensures IndexMatch(ZeroPad(pad) + NatToDecimal(n) + M4S) == Some(NatToDecimal(n))
  {
    var digits := NatToDecimal(n);
    var u := ZeroPad(pad) + digits + M4S;
    assert digits[0] != '0';
    assert u == ZeroPad(pad) + (digits + M4S);
    RunOf(ZeroPad(pad), digits + M4S, true);
    assert u[pad..] == digits + M4S;
    RunOf(digits, M4S, false);
    assert (digits + M4S)[|digits|..] == M4S;
    assert (digits + M4S)[..|digits|] == digits;
  }

  /** The pattern at the start of `<rep>/segment_<index>.m4s`. */
  lemma SegmentTailCaptures(repText: string, index: FragmentIndex, pad: nat)
    requires |repText| > 0 && AllDigits(repText) && (index.Index? || index.Init?)
    ensures FragmentMatch(repText + SEGMENT + IndexText(index, pad) + M4S)
         == Some((repText, IndexCapture(index)))
  {
    var u := IndexText(index, pad) + M4S;
    Regroup(repText, SEGMENT, IndexText(index, pad), M4S);
    IndexMatchOf(index, pad);
    RepThenSegment(repText, u);
  }

  lemma Regroup(a: string, b: string, c: string, d: string)
    ensures a + b + c + d == a + (b + (c + d))
  {
  }

  lemma PrefixThen(p: string, a: string, b: string, c: string, d: string)
    ensures p + a + b + c + d == p + (a + b + c + d)
  {
  }

  /** The representation id and `/segment_` are read off the front; the
      rest is left to the index part of the pattern. */
  lemma RepThenSegment(repText: string, u: string)
    requires |repText| > 0 && AllDigits(repText)
    ensures FragmentMatch(repText + (SEGMENT + u))
         == match IndexMatch(u) case None => None case Some(index) => Some((repText, index))
  {
    var tail := SEGMENT + u;
    var t := repText + tail;
    assert tail[0] == '/';
    RunOf(repText, tail, false);
    assert DigitRun(t) == |repText|;
    assert t[|repText|..] == tail;
    assert tail[..|SEGMENT|] == SEGMENT;
    assert t[|repText| + |SEGMENT|..] == u;
    assert t[..|repText|] == repText;
  }

  /** What the fragment pattern captures in a segment URI: the rendered
      representation id, and the index without its padding (`0` when the
      index is zero). */
  lemma SegmentUriCaptures(dir: string, rep: nat, index: FragmentIndex, pad: nat)
    requires SegmentDir(dir) && (index.Index? || index.Init?)
    ensures FirstFragmentMatch(SegmentUri(dir, rep, index, pad), 0)
         == Some((NatToDecimal(rep), IndexCapture(index)))
  {
    var repText := NatToDecimal(rep);
    var t := repText + SEGMENT + IndexText(index, pad) + M4S;
    var s := SegmentUri(dir, rep, index, pad);
    PrefixThen(dir, repText, SEGMENT, IndexText(index, pad), M4S);
    SegmentTailCaptures(repText, index, pad);
    assert s == dir + t;
    assert IsDigit(t[0]);
    NoEarlierMatch(dir, t, 0);
    assert s[|dir|..] == t;
  }

  /** `uri` reads back what the packager wrote, padding or not, for every
      representation id that fits in a `u8`. */
  lemma UriRoundTrip(dir: string, rep: nat, index: FragmentIndex, pad: nat)
    requires SegmentDir(dir) && (index.Index? || index.Init?) && ValidIndex(index)
    requires rep < U8_LIMIT
    ensures Uri(SegmentUri(dir, rep, index, pad)) == Ok(UriInfo(rep, index))
  {
    SegmentUriCaptures(dir, rep, index, pad);
    CapturedIndex(index);
    ParseRendered(rep, U8_LIMIT);
  }

  /** A representation id beyond `u8` is an error, not a wrapped value. */
  lemma UriRepTooLarge(dir: string, rep: nat, index: FragmentIndex, pad: nat)
    requires SegmentDir(dir) && (index.Index? || index.Init?) && ValidIndex(index)
    requires rep >= U8_LIMIT
    ensures Uri(SegmentUri(dir, rep, index, pad)) == Err(TOO_LARGE)
  {
    SegmentUriCaptures(dir, rep, index, pad);
    CapturedIndex(index);
    ParseRenderedTooLarge(rep, U8_LIMIT);
  }

  /** What `uri` makes of a `rep` capture once the index is known. */
  function UriOfRep(rep: string, index: FragmentIndex): Result<UriInfo, string> {
    match ParseUnsigned(rep, U8_LIMIT)
    case Some(r) => Ok(UriInfo(r, index))
    case None => Err(TOO_LARGE)
  }

  /** The `index` capture of a segment converts back to its index. */
  lemma CapturedIndex(index: FragmentIndex)
    requires (index.Index? || index.Init?) && ValidIndex(index)
    ensures forall rep :: UriOfCaptures(rep, IndexCapture(index)) == UriOfRep(rep, index)
  {
    if index.Index? {
      ParseRendered(index.n, U32_LIMIT);
      assert IsDigit(NatToDecimal(index.n)[0]);
    }
  }

  // ---- manifests ----

  const MEDIA: string := "media_"
  const M3U8: string := ".m3u8"

  /** The playlist pattern at the start of `t`; gives the `rep` capture. */
  function PlaylistMatch(t: string): (r: Option<string>)
    ensures r.Some? ==> |r.value| > 0 && AllDigits(r.value)
  {
    if !StartsWith(t, MEDIA) then None
    else
      var v := t[|MEDIA|..];
      var d := DigitRun(v);
      if d > 0 && StartsWith(v[d..], M3U8) then Some(v[..d]) else None
  }

  /** The leftmost match starting at or after `i`. */
  function FirstPlaylistMatch(s: string, i: nat): Option<string>
    requires i <= |s|
    decreases |s| - i
  {
    match PlaylistMatch(s[i..])
    case Some(m) => Some(m)
    case None => if i == |s| then None else FirstPlaylistMatch(s, i + 1)
  }

  /** `Regexp::manifest`: `.mpd` anywhere wins, then `master.m3u8`, then a
      media playlist whose representation id must fit in a `u8`. */
  function Manifest(url: string): (r: Result<UriInfo, string>)
    ensures r.Ok? ==> r.value.index.ManifestIndex? && r.value.repId < U8_LIMIT
    ensures (r.Ok? && r.value.index == ManifestIndex(Mpd)) <==> Contains(url, ".mpd")
    ensures (r.Ok? && r.value.index == ManifestIndex(Master)) <==> !Contains(url, ".mpd") && Contains(url, "master.m3u8")
    ensures r.Ok? && r.value.index.kind != Media ==> r.value.repId == 0
    ensures r == Err("invalid manifest url")
        <==> !Contains(url, ".mpd") && !Contains(url, "master.m3u8") && !Contains(url, MEDIA)
    ensures r == Err("no matches manifest")
        <==> !Contains(url, ".mpd") && !Contains(url, "master.m3u8") && Contains(url, MEDIA)
             && FirstPlaylistMatch(url, 0).None?
    ensures !Contains(url, ".mpd") && !Contains(url, "master.m3u8") && Contains(url, MEDIA)
            && FirstPlaylistMatch(url, 0).Some? ==>
              var rep := ParseUnsigned(FirstPlaylistMatch(url, 0).value, U8_LIMIT);
              && (r.Ok? <==> rep.Some?)
              && (r.Ok? ==> r.value == UriInfo(rep.value, ManifestIndex(Media)))
              && (r.Err? ==> r.error == TOO_LARGE)
    ensures r.Ok? && r.value.index == ManifestIndex(Media) ==>
      FirstPlaylistMatch(url, 0).Some? && ParseUnsigned(FirstPlaylistMatch(url, 0).value, U8_LIMIT) == Some(r.value.repId)
  {
    if Contains(url, ".mpd") then Ok(UriInfo(0, ManifestIndex(Mpd)))
    else if Contains(url, "master.m3u8") then Ok(UriInfo(0, ManifestIndex(Master)))
    else if Contains(url, MEDIA) then
      match FirstPlaylistMatch(url, 0)
      case None => Err("no matches manifest")
      case Some(rep) =>
        match ParseUnsigned(rep, U8_LIMIT)
        case Some(r) => Ok(UriInfo(r, ManifestIndex(Media)))
        case None => Err(TOO_LARGE)
    else Err("invalid manifest url")
  }

  /** A media playlist URL as the packager writes it. */
  function PlaylistUrl(dir: string, rep: nat): string {
    dir + MEDIA + NatToDecimal(rep) + M3U8
  }

  /** `sub` cannot straddle the seam before a text that starts with `me`:
      no `m` after its first character is followed by `e`. */
  predicate NoSeamBeforeMe(sub: string) {
    forall j :: 1 <= j < |sub| && sub[j] == 'm' ==> j + 1 < |sub| && sub[j + 1] != 'e'
  }

  /** An occurrence of such a `sub` in `dir + tail`, where `dir` has none
      and `tail` starts with `me`, lies in `tail`. */
  lemma OnlyInTail(dir: string, tail: string, sub: string, k: nat)
    requires OccursAt(dir + tail, sub, k) && |sub| > 0
    requires !Contains(dir, sub) && StartsWith(tail, "me") && NoSeamBeforeMe(sub)
    ensures k >= |dir|
  {
    var s := dir + tail;
    if k < |dir| {
      if k + |sub| <= |dir| {
        assert dir[k..k + |sub|] == s[k..k + |sub|];
        assert OccursAt(dir, sub, k);
        assert false;
      } else {
        SeamChars(dir, tail, sub, k);
      }
    }
  }

  /** Where an occurrence of `sub` crosses from `dir` into `tail`, its
      next two characters are the first two of `tail`. */
  lemma SeamChars(dir: string, tail: string, sub: string, k: nat)
    requires OccursAt(dir + tail, sub, k) && k < |dir| < k + |sub| && |tail| >= 2
    ensures var j := |dir| - k;
      sub[j] == tail[0] && (j + 1 < |sub| ==> sub[j + 1] == tail[1])
  {
    var s := dir + tail;
    var j := |dir| - k;
    assert sub[j] == s[k..k + |sub|][j] == s[|dir|];
    if j + 1 < |sub| {
      assert sub[j + 1] == s[k..k + |sub|][j + 1] == s[|dir| + 1];
    }
  }

  /** Such a `sub` occurs in `dir + tail` only if it occurs in one of them. */
  lemma NotAcrossSeam(dir: string, tail: string, sub: string)
    requires |sub| > 0 && !Contains(dir, sub) && !Contains(tail, sub)
    requires StartsWith(tail, "me") && NoSeamBeforeMe(sub)
    ensures !Contains(dir + tail, sub)
  {
    var s := dir + tail;
    forall k | 0 <= k <= |s| - |sub| && OccursAt(s, sub, k) ensures false {
      OnlyInTail(dir, tail, sub, k);
      assert s[k..k + |sub|] == tail[k - |dir|..k - |dir| + |sub|];
      assert OccursAt(tail, sub, k - |dir|);
    }
  }

  /** Before a `media_...` tail, a directory without `media_` holds no
      playlist match. */
  lemma {:induction false} PlaylistNoEarlierMatch(dir: string, tail: string, i: nat)
    requires !Contains(dir, MEDIA) && StartsWith(tail, "me") && i <= |dir|
    ensures FirstPlaylistMatch(dir + tail, i) == FirstPlaylistMatch(dir + tail, |dir|)
    decreases |dir| - i
  {
    var s := dir + tail;
    if i < |dir| {
      if StartsWith(s[i..], MEDIA) {
        assert s[i..][..|MEDIA|] == s[i..i + |MEDIA|];
        OnlyInTail(dir, tail, MEDIA, i);
      }
      PlaylistNoEarlierMatch(dir, tail, i + 1);
    }
  }

  /** In a playlist URL whose directory has no `.`, the only `.` is the
      one before the extension. */
  lemma PlaylistUrlDots(dir: string, rep: nat)
    requires '.' !in dir
    ensures var url := PlaylistUrl(dir, rep);
      var dot := |url| - |M3U8|;
      url[dot..] == M3U8 && IsDigit(url[dot - 1])
      && forall k :: 0 <= k < |url| && k != dot ==> url[k] != '.'
  {
    var url := PlaylistUrl(dir, rep);
    var digits := NatToDecimal(rep);
    var dot := |url| - |M3U8|;
    assert url == dir + MEDIA + digits + M3U8;
    assert url[dot - 1] == digits[|digits| - 1];
    forall k | 0 <= k < |url| && k != dot ensures url[k] != '.' {
      if k < |dir| {
        assert url[k] == dir[k];
      } else if k < |dir| + |MEDIA| {
        assert url[k] == MEDIA[k - |dir|];
      } else if k < dot {
        assert url[k] == digits[k - |dir| - |MEDIA|];
      } else {
        assert url[k] == M3U8[k - dot];
      }
    }
  }

  /** A URL whose only `.` starts a final `.m3u8`, after a digit, names
      neither a DASH manifest nor a master playlist. */
  lemma NotMpdNorMaster(url: string, dot: nat)
    requires 0 < dot && dot + |M3U8| == |url| && url[dot..] == M3U8 && IsDigit(url[dot - 1])
    requires forall k :: 0 <= k < |url| && k != dot ==> url[k] != '.'
    ensures !Contains(url, ".mpd") && !Contains(url, "master.m3u8")
  {
    forall k | 0 <= k <= |url| - 4 ensures !OccursAt(url, ".mpd", k) {
      if k != dot {
        assert url[k..k + 4][0] == url[k];
      } else {
        assert url[k..k + 4][2] == M3U8[2];
      }
    }
    forall k | 0 <= k <= |url| - 11 ensures !OccursAt(url, "master.m3u8", k) {
      if k + 6 != dot {
        assert url[k..k + 11][6] == url[k + 6];
      } else {
        assert url[k..k + 11][5] == url[dot - 1];
      }
    }
  }

  /** `manifest` reads the representation id back from a media playlist URL
      whose directory part names no other manifest and no playlist. */
  lemma ManifestRoundTrip(dir: string, rep: nat)
    requires !Contains(dir, ".mpd") && !Contains(dir, "master.m3u8") && !Contains(dir, MEDIA)
    requires rep < U8_LIMIT
    ensures Manifest(PlaylistUrl(dir, rep)) == Ok(UriInfo(rep, ManifestIndex(Media)))
  {
    var url := PlaylistUrl(dir, rep);
    var digits := NatToDecimal(rep);
    var tail := MEDIA + (digits + M3U8);
    Regroup(dir, MEDIA, digits, M3U8);
    assert url == dir + tail;
    assert tail[..2] == "me";
    PlaylistTailNamesNoOther(rep);
    assert NoSeamBeforeMe(".mpd");
    assert NoSeamBeforeMe("master.m3u8");
    NotAcrossSeam(dir, tail, ".mpd");
    NotAcrossSeam(dir, tail, "master.m3u8");
    assert url[|dir|..] == tail;
    assert OccursAt(url, MEDIA, |dir|);
    PlaylistNoEarlierMatch(dir, tail, 0);
    PlaylistMatchOf(digits);
    ParseRendered(rep, U8_LIMIT);
  }

  /** `media_<rep>.m3u8` names neither a DASH manifest nor a master playlist. */
  lemma PlaylistTailNamesNoOther(rep: nat)
    ensures var tail := MEDIA + (NatToDecimal(rep) + M3U8);
      !Contains(tail, ".mpd") && !Contains(tail, "master.m3u8")
  {
    var tail := MEDIA + (NatToDecimal(rep) + M3U8);
    PlaylistUrlDots("", rep);
    assert PlaylistUrl("", rep) == tail;
    NotMpdNorMaster(tail, |tail| - |M3U8|);
  }

  /** The playlist pattern captures the digits of `media_<digits>.m3u8`. */
  lemma PlaylistMatchOf(digits: string)
    requires |digits| > 0 && AllDigits(digits)
    ensures PlaylistMatch(MEDIA + (digits + M3U8)) == Some(digits)
  {
    var t := MEDIA + (digits + M3U8);
    assert t[..|MEDIA|] == MEDIA;
    assert t[|MEDIA|..] == digits + M3U8;
    RunOf(digits, M3U8, false);
    assert (digits + M3U8)[|digits|..] == M3U8;
    assert (digits + M3U8)[..|digits|] == digits;
  }
}

=== FILE: live_signer.dfy ===
/** The pure selection and naming logic of the live signer
    (`cli/src/live/mod.rs`): which files of a representation are signed
    (`paths_to_sign`), which are forwarded to the CDN and in what order
    (`forward`), and where a signed copy is written (`path_to_signed_path`).

    Directory listings, HTTP and the URL joining that builds the forward
    URLs are not modelled: `forward` receives its (local path, URL) pairs
    already built. */
module LiveSigner {
  import opened Wrappers
  import opened Text
  import opened LivePaths

  /** FFmpeg's `-window_size`: the number of segments a DASH manifest lists. */
  const SEGMENT_LIST_NUM: nat := 5

  /** The four flavours of signed output a stream is forwarded as. */
  datatype ForwardType = Manifest | Separate | Signed | RollingHash

  /** `Display for ForwardType`. */
  function ForwardTypeName(ty: ForwardType): (s: string)
    ensures s != "" && '/' !in s
  {
    match ty
    case Manifest => "manifest"
    case Separate => "separate"
    case Signed => "signed"
    case RollingHash => "rolling-hash"
  }

  /** The four names differ, so a signed directory name tells which output
      it holds. */
  lemma ForwardTypeNamesDistinct(a: ForwardType, b: ForwardType)
    requires ForwardTypeName(a) == ForwardTypeName(b)
    ensures a == b
  {
    assert ForwardTypeName(a)[1] == ForwardTypeName(b)[1];
    assert ForwardTypeName(a)[0] == ForwardTypeName(b)[0];
  }

  // ---- path_to_signed_path ----

  /** `{name}_{ty}`. */
  function SignedName(name: string, ty: ForwardType): string {
    name + "_" + ForwardTypeName(ty)
  }

  function RenamePart(name: string, ty: ForwardType, part: string): string {
    if part == name then SignedName(name, ty) else part
  }

  function RenameParts(name: string, ty: ForwardType, parts: seq<string>): (r: seq<string>)
    ensures |r| == |parts|
    ensures forall k :: 0 <= k < |parts| ==> r[k] == RenamePart(name, ty, parts[k])
  {
    seq(|parts|, k requires 0 <= k < |parts| => RenamePart(name, ty, parts[k]))
  }

  /** `PathBuf::push` of a relative piece: a separator goes in between
      unless the buffer is empty or already ends in one. */
  function Push(buf: string, piece: string): string {
    if |buf| > 0 && buf[|buf| - 1] != '/' then buf + "/" + piece else buf + piece
  }

  /** `PathBuf::from_iter`: the pieces pushed one after another. */
  function FromPieces(buf: string, pieces: seq<string>): string
    decreases |pieces|
  {
    if |pieces| == 0 then buf else FromPieces(Push(buf, pieces[0]), pieces[1..])
  }

  /** `path_to_signed_path` as written: the `/`-pieces of the path, each
      equal to `name` renamed to `{name}_{ty}`, collected into a `PathBuf`.
      Pushing the empty first piece of an absolute path adds nothing, so the
      leading `/` is lost. */
  function SignedPathAsWritten(name: string, path: string, ty: ForwardType): string {
    FromPieces("", RenameParts(name, ty, Split(path, '/')))
  }

  /** `path_to_signed_path` as its documentation describes it
      (`/path/to/media/<name>/<uri..>` to `/path/to/media/<name>_<ty>/<uri..>`):
      the renamed pieces joined with `/` again. */
  function SignedPath(name: string, path: string, ty: ForwardType): string {
    Join(RenameParts(name, ty, Split(path, '/')), '/')
  }

  /** The signed path has the same pieces as the original, except that the
      pieces equal to `name`, and only those, become `{name}_{ty}`. */
  lemma SignedPathPieces(name: string, path: string, ty: ForwardType)
    ensures Split(SignedPath(name, path, ty), '/') == RenameParts(name, ty, Split(path, '/'))
    ensures |Split(SignedPath(name, path, ty), '/')| == |Split(path, '/')|
  {
    var parts := Split(path, '/');
    RenamedPieces(name, ty, parts);
    SplitJoin(RenameParts(name, ty, parts), '/');
  }

  /** Renaming keeps pieces free of separators, and non-empty ones
      non-empty. */
  lemma RenamedPieces(name: string, ty: ForwardType, parts: seq<string>)
    requires forall k :: 0 <= k < |parts| ==> '/' !in parts[k]
    ensures forall k :: 0 <= k < |parts| ==> '/' !in RenameParts(name, ty, parts)[k]
    ensures forall k :: 0 <= k < |parts| ==> parts[k] != "" ==> RenameParts(name, ty, parts)[k] != ""
  {
    var renamed := RenameParts(name, ty, parts);
    forall k | 0 <= k < |parts| ensures '/' !in renamed[k] {
      if parts[k] == name {
        assert renamed[k] == name + "_" + ForwardTypeName(ty);
      }
    }
  }

  /** A path without a piece equal to `name` is left as it is. */
  lemma SignedPathUnchanged(name: string, path: string, ty: ForwardType)
    requires name !in Split(path, '/')
    ensures SignedPath(name, path, ty) == path
  {
    var parts := Split(path, '/');
    assert RenameParts(name, ty, parts) == parts;
  }

  /** Pushing pieces that are neither empty nor hold a separator onto a
      buffer that does not end in one joins them with `/`. */
  lemma {:induction false} FromPiecesJoins(buf: string, pieces: seq<string>)
    requires |buf| > 0 && buf[|buf| - 1] != '/'
    requires forall k :: 0 <= k < |pieces| ==> pieces[k] != "" && '/' !in pieces[k]
    ensures FromPieces(buf, pieces) == if |pieces| == 0 then buf else buf + "/" + Join(pieces, '/')
    decreases |pieces|
  {
    if |pieces| > 0 {
      var next := buf + "/" + pieces[0];
      assert next[|next| - 1] == pieces[0][|pieces[0]| - 1];
      FromPiecesJoins(next, pieces[1..]);
      if |pieces| > 1 {
        assert Join(pieces, '/') == pieces[0] + "/" + Join(pieces[1..], '/');
      }
    }
  }

  /** For a relative path without empty pieces the code does what its
      documentation says. */
  lemma AsWrittenAgreesOnPlainRelativePaths(name: string, path: string, ty: ForwardType)
    requires forall k :: 0 <= k < |Split(path, '/')| ==> Split(path, '/')[k] != ""
    ensures SignedPathAsWritten(name, path, ty) == SignedPath(name, path, ty)
  {
    var parts := Split(path, '/');
    var renamed := RenameParts(name, ty, parts);
    RenamedPieces(name, ty, parts);
    var first := renamed[0];
    assert first[|first| - 1] in first;
    assert Push("", first) == first;
    FromPiecesJoins(first, renamed[1..]);
    assert FromPieces("", renamed) == FromPieces(first, renamed[1..]);
  }

  /** The leading `/` of an absolute path is lost: `/a` with name `a`
      becomes the relative `a_manifest`, where `/a_manifest` is meant; the
      same happens to every name. */
  lemma AsWrittenDropsRoot(name: string, ty: ForwardType)
    requires name != "" && '/' !in name
    ensures SignedPathAsWritten(name, "/" + name, ty) == SignedName(name, ty)
    ensures SignedPath(name, "/" + name, ty) == "/" + SignedName(name, ty)
  {
    SplitRooted(name);
    var signed := SignedName(name, ty);
    var renamed := RenameParts(name, ty, ["", name]);
    assert renamed == ["", signed] by {
      assert renamed[0] == RenamePart(name, ty, "") == "";
      assert renamed[1] == RenamePart(name, ty, name) == signed;
    }
    assert FromPieces("", renamed) == FromPieces(Push("", ""), [signed]);
    assert FromPieces("", [signed]) == FromPieces(Push("", signed), []);
    assert Join(renamed, '/') == "" + "/" + signed;
  }

  /** `/c` splits into an empty piece and `c`. */
  lemma SplitRooted(c: string)
    requires '/' !in c
    ensures Split("/" + c, '/') == ["", c]
  {
    var s := "/" + c;
    assert FirstIndex(s, '/') == Some(0);
    assert s[1..] == c;
    assert FirstIndex(c, '/') == None;
  }


  // ---- paths_to_sign ----

  function Filter<T>(s: seq<T>, keep: T -> bool): (r: seq<T>)
    ensures |r| <= |s|
    ensures forall k :: 0 <= k < |r| ==> keep(r[k])
  {
    if |s| == 0 then [] else (if keep(s[0]) then [s[0]] else []) + Filter(s[1..], keep)
  }

  /** The elements `drop` rejects, in order. */
  function Reject<T>(s: seq<T>, drop: T -> bool): (r: seq<T>)
    ensures |r| <= |s|
    ensures forall k :: 0 <= k < |r| ==> !drop(r[k])
  {
    if |s| == 0 then [] else (if drop(s[0]) then [] else [s[0]]) + Reject(s[1..], drop)
  }

  /** The loop of `paths_to_sign`: inits are remembered, a second one is an
      error, everything else is collected in order. */
  function Partition<T>(paths: seq<T>, isInit: T -> bool, init: Option<T>, fragments: seq<T>)
    : Result<(Option<T>, seq<T>), string>
    decreases |paths|
  {
    if |paths| == 0 then Ok((init, fragments))
    else if isInit(paths[0]) then
      if init.Some? then Err("found multiple init files")
      else Partition(paths[1..], isInit, Some(paths[0]), fragments)
    else Partition(paths[1..], isInit, init, fragments + [paths[0]])
  }

  lemma {:induction false} PartitionSpec<T>(paths: seq<T>, isInit: T -> bool, init: Option<T>, fragments: seq<T>)
    ensures var r := Partition(paths, isInit, init, fragments);
            var inits := Filter(paths, isInit);
      && (r.Ok? <==> |inits| + (if init.Some? then 1 else 0) <= 1)
      && (r.Err? ==> r.error == "found multiple init files")
      && (r.Ok? ==> r.value.1 == fragments + Reject(paths, isInit))
      && (r.Ok? ==> r.value.0 == if init.Some? then init else if |inits| == 1 then Some(inits[0]) else None)
    decreases |paths|
  {
    if |paths| > 0 {
      var rest := paths[1..];
      if isInit(paths[0]) {
        assert Filter(paths, isInit) == [paths[0]] + Filter(rest, isInit);
        assert Reject(paths, isInit) == Reject(rest, isInit);
        if init.None? {
          PartitionSpec(rest, isInit, Some(paths[0]), fragments);
        }
      } else {
        assert Filter(paths, isInit) == Filter(rest, isInit);
        assert Reject(paths, isInit) == [paths[0]] + Reject(rest, isInit);
        PartitionSpec(rest, isInit, init, fragments + [paths[0]]);
        assert fragments + [paths[0]] + Reject(rest, isInit) == fragments + Reject(paths, isInit);
      }
    }
  }

  /** `paths_to_sign`: the one init file and the other files in path order.
      Two or more inits, or none, are errors. */
  function PathsToSign(paths: seq<string>): (r: Result<(string, seq<string>), string>)
    ensures r == Err("found multiple init files") <==> |Filter(paths, IsInit)| >= 2
    ensures r == Err("missing init file") <==> |Filter(paths, IsInit)| == 0
    ensures r.Ok? <==> |Filter(paths, IsInit)| == 1
    ensures r.Ok? ==> r.value.0 == Filter(paths, IsInit)[0]
    ensures r.Ok? ==> multiset(r.value.1) == multiset(Reject(paths, IsInit))
    ensures r.Ok? ==> SortedBy(r.value.1, PathLeq)
  {
    PartitionSpec(paths, IsInit, None, []);
    match Partition(paths, IsInit, None, [])
    case Err(e) => Err(e)
    case Ok((init, fragments)) =>
      match init
      case None => Err("missing init file")
      case Some(i) =>
        PathLeqIsTotalPreorder();
        SortBySorted(fragments, PathLeq);
        Ok((i, SortBy(fragments, PathLeq)))
  }

  // ---- forward ----

  /** A signed local path and the URL it is forwarded to. */
  type Pair = (string, string)

  /** The source's init test for a pair: `is_init` on the local path. The
      ordering and selection below work for any init test `isInit`, and
      `forward` itself uses this one. */
  predicate PairIsInit(p: Pair) {
    IsInit(p.0)
  }

  predicate PairLeq(a: Pair, b: Pair) {
    PathLeq(a.0, b.0)
  }

  lemma PairLeqIsTotalPreorder()
    ensures IsTotalPreorder(PairLeq)
  {
    PathLeqIsTotalPreorder();
  }

  /** The pairs that are not init, in path order. */
  function Fragments(pairs: seq<Pair>, isInit: Pair -> bool): (r: seq<Pair>)
    ensures multiset(r) == multiset(Reject(pairs, isInit))
  {
    SortBy(Reject(pairs, isInit), PairLeq)
  }

  /** The order `forward` sorts by: an init pair before everything, the rest
      by path. With a single init this comparator is a total order and the
      stable sort gives the init pair followed by the others in path order. */
  function SortForward(pairs: seq<Pair>, isInit: Pair -> bool): (r: seq<Pair>)
    requires |Filter(pairs, isInit)| <= 1
    ensures |r| == |Filter(pairs, isInit)| + |Reject(pairs, isInit)|
  {
    Filter(pairs, isInit) + Fragments(pairs, isInit)
  }

  function Reverse<T>(s: seq<T>): (r: seq<T>)
    ensures |r| == |s|
    ensures forall k :: 0 <= k < |s| ==> r[k] == s[|s| - 1 - k]
  {
    if |s| == 0 then [] else Reverse(s[1..]) + [s[0]]
  }

  /** `n` is a whole number of chunks of `w`. */
  predicate IsMultipleOf(n: nat, w: nat)
    requires w > 0
    decreases n
  {
    n == 0 || (n >= w && IsMultipleOf(n - w, w))
  }

  /** The length of the last of the chunks of `w` cut from the front of
      `n` elements: between 1 and `w`, after a whole number of chunks. */
  function LastChunkLength(n: nat, w: nat): (k: nat)
    requires w > 0 && n > 0
    ensures 1 <= k <= w && k <= n && IsMultipleOf(n - k, w)
    decreases n
  {
    if n <= w then
      assert IsMultipleOf(0, w);
      n
    else
      var k := LastChunkLength(n - w, w);
      assert (n - k) - w == (n - w) - k;
      k
  }

  /** `chunks(w).last()` on a non-empty slice: chunks of `w` are cut from
      the front, so the last one holds between 1 and `w` elements and
      follows a whole number of chunks. */
  function LastChunk<T>(s: seq<T>, w: nat): (r: seq<T>)
    requires w > 0 && |s| > 0
    ensures 1 <= |r| <= w && |r| <= |s|
    ensures r == s[|s| - |r|..] && IsMultipleOf(|s| - |r|, w)
  {
    s[|s| - LastChunkLength(|s|, w)..]
  }

  /** There is only one such chunk length: the conditions pin it down. */
  lemma {:induction false} LastChunkLengthUnique(n: nat, w: nat, k: nat)
    requires w > 0 && 1 <= k <= w && k <= n && IsMultipleOf(n - k, w)
    ensures LastChunkLength(n, w) == k
    decreases n
  {
    if n <= w {
      assert n - k < w;
      assert n - k == 0;
    } else {
      assert n - k != 0;
      assert IsMultipleOf((n - w) - k, w);
      LastChunkLengthUnique(n - w, w, k);
    }
  }

  /** There is only one such chunk. */
  lemma LastChunkUnique<T>(s: seq<T>, w: nat, k: nat)
    requires w > 0 && 1 <= k <= w && k <= |s| && IsMultipleOf(|s| - k, w)
    ensures LastChunk(s, w) == s[|s| - k..]
  {
    LastChunkLengthUnique(|s|, w, k);
  }

  /** Where the manifest's segment list starts, as written: with exactly
      `SEGMENT_LIST_NUM` pairs the start is 0, the init pair itself. */
  function CutoffAsWritten(len: nat): nat {
    if len < SEGMENT_LIST_NUM then 1 else len - SEGMENT_LIST_NUM
  }

  /** Where it evidently should start: never before the first fragment. */
  function Cutoff(len: nat): nat {
    if len <= SEGMENT_LIST_NUM then 1 else len - SEGMENT_LIST_NUM
  }

  /** The selection `forward` makes from the sorted pairs, with the
      manifest cutoff passed in. */
  function Select(sorted: seq<Pair>, isInit: Pair -> bool, ty: ForwardType, windowSize: nat, cutoff: nat)
    : Result<seq<Pair>, string>
    requires |sorted| > 0 && cutoff <= |sorted|
  {
    var init := sorted[0];
    if !isInit(init) then Err("first forward pair is not init")
    else if windowSize == 0 then Ok(sorted)
    else
      var kept :- match ty
        case Manifest => Ok(sorted[cutoff..])
        case _ => if |sorted| == 1 then Err("missing fragments") else Ok(LastChunk(sorted[1..], windowSize));
      Ok(Reverse(kept + [init]))
  }

  /** Every pair is either init or not. */
  lemma {:induction false} FilterSplits(pairs: seq<Pair>, isInit: Pair -> bool)
    ensures |Filter(pairs, isInit)| + |Reject(pairs, isInit)| == |pairs|
  {
    if |pairs| > 0 {
      FilterSplits(pairs[1..], isInit);
    }
  }

  /** `forward` as written, for the init test `isInit`. Indexing the first
      pair panics on an empty listing, and two init pairs make the
      comparator inconsistent, so neither is in the domain. */
  function ForwardAsWritten(pairs: seq<Pair>, isInit: Pair -> bool, ty: ForwardType, windowSize: nat)
    : Result<seq<Pair>, string>
    requires |pairs| > 0 && |Filter(pairs, isInit)| <= 1
  {
    FilterSplits(pairs, isInit);
    Select(SortForward(pairs, isInit), isInit, ty, windowSize, CutoffAsWritten(|pairs|))
  }

  /** `forward` with the manifest cutoff corrected. */
  function Forward(pairs: seq<Pair>, isInit: Pair -> bool, ty: ForwardType, windowSize: nat)
    : Result<seq<Pair>, string>
    requires |pairs| > 0 && |Filter(pairs, isInit)| <= 1
  {
    FilterSplits(pairs, isInit);
    Select(SortForward(pairs, isInit), isInit, ty, windowSize, Cutoff(|pairs|))
  }

  /** `forward` fails exactly when there is no init pair, and otherwise
      only for want of fragments. */
  lemma ForwardErrors(pairs: seq<Pair>, isInit: Pair -> bool, ty: ForwardType, windowSize: nat)
    requires |pairs| > 0 && |Filter(pairs, isInit)| <= 1
    ensures var r := Forward(pairs, isInit, ty, windowSize);
            (r == Err("first forward pair is not init") <==> |Filter(pairs, isInit)| == 0)
            && (r.Err? ==> r.error == "first forward pair is not init" || r.error == "missing fragments")
  {
    FilterSplits(pairs, isInit);
    if |Filter(pairs, isInit)| == 0 {
      ForwardWithNoInit(pairs, isInit, ty, windowSize, Cutoff(|pairs|));
    } else {
      SortForwardWithInit(pairs, isInit);
      SelectShape(SortForward(pairs, isInit), isInit, ty, windowSize, Cutoff(|pairs|));
    }
  }


  lemma {:induction false} ReverseSnoc<T>(s: seq<T>, x: T)
    ensures Reverse(s + [x]) == [x] + Reverse(s)
  {
    if |s| > 0 {
      assert (s + [x])[0] == s[0];
      assert (s + [x])[1..] == s[1..] + [x];
      ReverseSnoc(s[1..], x);
    }
  }

  /** No fragment is init. */
  lemma FragmentsNotInit(pairs: seq<Pair>, isInit: Pair -> bool, j: nat)
    requires j < |Fragments(pairs, isInit)|
    ensures !isInit(Fragments(pairs, isInit)[j])
  {
    var rejected := Reject(pairs, isInit);
    var x := Fragments(pairs, isInit)[j];
    assert x in multiset(Fragments(pairs, isInit));
    assert x in multiset(rejected);
    var k :| 0 <= k < |rejected| && rejected[k] == x;
  }

  /** Without an init pair `forward` fails. */
  lemma ForwardWithNoInit(pairs: seq<Pair>, isInit: Pair -> bool, ty: ForwardType, windowSize: nat, cutoff: nat)
    requires |pairs| > 0 && |Filter(pairs, isInit)| == 0
    requires cutoff <= |SortForward(pairs, isInit)|
    ensures Select(SortForward(pairs, isInit), isInit, ty, windowSize, cutoff) == Err("first forward pair is not init")
  {
    FilterSplits(pairs, isInit);
    var sorted := SortForward(pairs, isInit);
    assert sorted == Fragments(pairs, isInit);
    FragmentsNotInit(pairs, isInit, 0);
  }

  /** With the init pair, the sorted list is that pair and the fragments. */
  lemma SortForwardWithInit(pairs: seq<Pair>, isInit: Pair -> bool)
    requires |Filter(pairs, isInit)| == 1
    ensures SortForward(pairs, isInit) == [Filter(pairs, isInit)[0]] + Fragments(pairs, isInit)
    ensures isInit(SortForward(pairs, isInit)[0])
  {
    var inits := Filter(pairs, isInit);
    assert inits == [inits[0]];
    assert SortForward(pairs, isInit) == inits + Fragments(pairs, isInit);
    assert SortForward(pairs, isInit)[0] == inits[0];
  }

  /** What `forward` selects from a sorted list headed by the init pair,
      whatever the manifest cutoff. */
  lemma SelectShape(sorted: seq<Pair>, isInit: Pair -> bool, ty: ForwardType, windowSize: nat, cutoff: nat)
    requires |sorted| > 0 && cutoff <= |sorted| && isInit(sorted[0])
    ensures var r := Select(sorted, isInit, ty, windowSize, cutoff);
      && (windowSize == 0 ==> r == Ok(sorted))
      && (windowSize > 0 && ty == Manifest ==> r == Ok([sorted[0]] + Reverse(sorted[cutoff..])))
      && (windowSize > 0 && ty != Manifest ==>
            r == if |sorted| == 1 then Err("missing fragments") else Ok([sorted[0]] + Reverse(LastChunk(sorted[1..], windowSize))))
  {
    ReverseSnoc(sorted[cutoff..], sorted[0]);
    if |sorted| > 1 && windowSize > 0 {
      ReverseSnoc(LastChunk(sorted[1..], windowSize), sorted[0]);
    }
  }

  /** With no window every pair is forwarded: init first, then the
      fragments in path order. */
  lemma ForwardAll(pairs: seq<Pair>, isInit: Pair -> bool, ty: ForwardType)
    requires |pairs| > 0 && |Filter(pairs, isInit)| == 1
    ensures Forward(pairs, isInit, ty, 0) == Ok([Filter(pairs, isInit)[0]] + Fragments(pairs, isInit))
  {
    FilterSplits(pairs, isInit);
    SortForwardWithInit(pairs, isInit);
    SelectShape(SortForward(pairs, isInit), isInit, ty, 0, Cutoff(|pairs|));
  }

  /** The last `SEGMENT_LIST_NUM` elements, or all if there are fewer. */
  function NewestSegments<T>(s: seq<T>): (r: seq<T>)
    ensures |r| == if |s| < SEGMENT_LIST_NUM then |s| else SEGMENT_LIST_NUM
    ensures |r| <= |s| && r == s[|s| - |r|..]
  {
    if |s| < SEGMENT_LIST_NUM then s else s[|s| - SEGMENT_LIST_NUM..]
  }

  /** For the manifest the newest `SEGMENT_LIST_NUM` fragments (or all of
      them, if fewer) follow the init pair, newest first. */
  lemma ForwardManifest(pairs: seq<Pair>, isInit: Pair -> bool, windowSize: nat)
    requires |pairs| > 0 && |Filter(pairs, isInit)| == 1 && windowSize > 0
    ensures Forward(pairs, isInit, Manifest, windowSize)
         == Ok([Filter(pairs, isInit)[0]] + Reverse(NewestSegments(Fragments(pairs, isInit))))
  {
    FilterSplits(pairs, isInit);
    SortForwardWithInit(pairs, isInit);
    var sorted := SortForward(pairs, isInit);
    var frags := Fragments(pairs, isInit);
    var cutoff := Cutoff(|pairs|);
    SelectShape(sorted, isInit, Manifest, windowSize, cutoff);
    assert |sorted| == |pairs| && |frags| + 1 == |pairs|;
    assert sorted[1..] == frags;
    assert sorted[cutoff..] == frags[cutoff - 1..];
    assert frags[cutoff - 1..] == NewestSegments(frags);
  }

  /** For the other outputs the last window of fragments follows the init
      pair, newest first; without fragments there is nothing to forward. */
  lemma ForwardWindow(pairs: seq<Pair>, isInit: Pair -> bool, ty: ForwardType, windowSize: nat)
    requires |pairs| > 0 && |Filter(pairs, isInit)| == 1 && windowSize > 0 && ty != Manifest
    ensures var frags := Fragments(pairs, isInit);
            Forward(pairs, isInit, ty, windowSize)
              == if |frags| == 0 then Err("missing fragments")
                 else Ok([Filter(pairs, isInit)[0]] + Reverse(LastChunk(frags, windowSize)))
  {
    FilterSplits(pairs, isInit);
    SortForwardWithInit(pairs, isInit);
    SelectShape(SortForward(pairs, isInit), isInit, ty, windowSize, Cutoff(|pairs|));
    assert SortForward(pairs, isInit)[1..] == Fragments(pairs, isInit);
  }

  /** With exactly `SEGMENT_LIST_NUM` pairs (one init, four fragments) the
      code as written lists the init pair twice: first and again last. */
  lemma AsWrittenRepeatsInit(pairs: seq<Pair>, isInit: Pair -> bool, windowSize: nat)
    requires |pairs| == SEGMENT_LIST_NUM && |Filter(pairs, isInit)| == 1 && windowSize > 0
    ensures var r := ForwardAsWritten(pairs, isInit, Manifest, windowSize);
            var init := Filter(pairs, isInit)[0];
            r.Ok? && |r.value| == SEGMENT_LIST_NUM + 1 && r.value[0] == init && r.value[SEGMENT_LIST_NUM] == init
  {
    FilterSplits(pairs, isInit);
    SortForwardWithInit(pairs, isInit);
    var sorted := SortForward(pairs, isInit);
    SelectShape(sorted, isInit, Manifest, windowSize, 0);
    assert sorted[0..] == sorted;
    assert Reverse(sorted)[SEGMENT_LIST_NUM - 1] == sorted[0];
  }

  /** The cutoff only matters for the manifest. */
  lemma SelectIgnoresCutoff(sorted: seq<Pair>, isInit: Pair -> bool, ty: ForwardType, windowSize: nat, c1: nat, c2: nat)
    requires |sorted| > 0 && c1 <= |sorted| && c2 <= |sorted| && ty != Manifest
    ensures Select(sorted, isInit, ty, windowSize, c1) == Select(sorted, isInit, ty, windowSize, c2)
  {
  }

  /** Away from that boundary the code and the correction agree. */
  lemma AsWrittenAgreesOffBoundary(pairs: seq<Pair>, isInit: Pair -> bool, ty: ForwardType, windowSize: nat)
    requires |pairs| > 0 && |Filter(pairs, isInit)| <= 1
    requires |pairs| != SEGMENT_LIST_NUM || ty != Manifest
    ensures ForwardAsWritten(pairs, isInit, ty, windowSize) == Forward(pairs, isInit, ty, windowSize)
  {
    FilterSplits(pairs, isInit);
    var sorted := SortForward(pairs, isInit);
    var forward := Select(sorted, isInit, ty, windowSize, Cutoff(|pairs|));
    assert Forward(pairs, isInit, ty, windowSize) == forward;
    assert ForwardAsWritten(pairs, isInit, ty, windowSize) == Select(sorted, isInit, ty, windowSize, CutoffAsWritten(|pairs|));
    if |pairs| != SEGMENT_LIST_NUM {
      assert CutoffAsWritten(|pairs|) == Cutoff(|pairs|);
    } else {
      SelectIgnoresCutoff(sorted, isInit, ty, windowSize, CutoffAsWritten(|pairs|), Cutoff(|pairs|));
    }
  }

  /** Each element of a reversed suffix of `s` is an element of `s`, at the
      position `pos` names. */
  lemma ReversedSuffixPositions<T>(s: seq<T>, chosen: seq<T>) returns (pos: seq<nat>)
    requires |chosen| <= |s| && chosen == s[|s| - |chosen|..]
    ensures |pos| == |chosen|
    ensures forall k :: 0 <= k < |pos| ==> pos[k] < |s| && Reverse(chosen)[k] == s[pos[k]]
  {
    pos := seq(|chosen|, k requires 0 <= k < |chosen| => |s| - 1 - k);
    forall k | 0 <= k < |pos| ensures pos[k] < |s| && Reverse(chosen)[k] == s[pos[k]] {
      assert Reverse(chosen)[k] == chosen[|chosen| - 1 - k];
    }
  }

  /** The init pair followed by a reversed suffix of `s`, in the form
      `ForwardShape` states. */
  lemma ReversedTail<T>(r: seq<T>, head: T, s: seq<T>, chosen: seq<T>) returns (tail: seq<T>, pos: seq<nat>)
    requires |chosen| <= |s| && chosen == s[|s| - |chosen|..]
    requires r == [head] + Reverse(chosen)
    ensures r == [head] + tail && |pos| == |tail|
    ensures forall k :: 0 <= k < |tail| ==> pos[k] < |s| && tail[k] == s[pos[k]]
  {
    tail := Reverse(chosen);
    pos := ReversedSuffixPositions(s, chosen);
  }

  /** A successful `forward` is the init pair followed by fragments: the
      `k`-th pair after the init pair is fragment `pos[k]`. */
  lemma ForwardShape(pairs: seq<Pair>, isInit: Pair -> bool, ty: ForwardType, windowSize: nat)
    returns (tail: seq<Pair>, pos: seq<nat>)
    requires |pairs| > 0 && |Filter(pairs, isInit)| == 1
    requires Forward(pairs, isInit, ty, windowSize).Ok?
    ensures Forward(pairs, isInit, ty, windowSize).value == [Filter(pairs, isInit)[0]] + tail
    ensures |pos| == |tail|
    ensures forall k :: 0 <= k < |tail| ==> pos[k] < |Fragments(pairs, isInit)| && tail[k] == Fragments(pairs, isInit)[pos[k]]
  {
    if windowSize == 0 {
      tail, pos := ShapeOfAll(pairs, isInit, ty, windowSize);
    } else if ty == Manifest {
      tail, pos := ShapeOfManifest(pairs, isInit, ty, windowSize);
    } else {
      tail, pos := ShapeOfWindow(pairs, isInit, ty, windowSize);
    }
  }

  lemma ShapeOfAll(pairs: seq<Pair>, isInit: Pair -> bool, ty: ForwardType, windowSize: nat)
    returns (tail: seq<Pair>, pos: seq<nat>)
    requires windowSize == 0
    requires |pairs| > 0 && |Filter(pairs, isInit)| == 1
    requires Forward(pairs, isInit, ty, windowSize).Ok?
    ensures Forward(pairs, isInit, ty, windowSize).value == [Filter(pairs, isInit)[0]] + tail
    ensures |pos| == |tail|
    ensures forall k :: 0 <= k < |tail| ==> pos[k] < |Fragments(pairs, isInit)| && tail[k] == Fragments(pairs, isInit)[pos[k]]
  {
    var frags := Fragments(pairs, isInit);
    ForwardAll(pairs, isInit, ty);
    tail := frags;
    pos := seq(|frags|, k requires 0 <= k < |frags| => k);
  }

  lemma ShapeOfManifest(pairs: seq<Pair>, isInit: Pair -> bool, ty: ForwardType, windowSize: nat)
    returns (tail: seq<Pair>, pos: seq<nat>)
    requires windowSize > 0 && ty == Manifest
    requires |pairs| > 0 && |Filter(pairs, isInit)| == 1
    requires Forward(pairs, isInit, ty, windowSize).Ok?
    ensures Forward(pairs, isInit, ty, windowSize).value == [Filter(pairs, isInit)[0]] + tail
    ensures |pos| == |tail|
    ensures forall k :: 0 <= k < |tail| ==> pos[k] < |Fragments(pairs, isInit)| && tail[k] == Fragments(pairs, isInit)[pos[k]]
  {
    var frags := Fragments(pairs, isInit);
    ForwardManifest(pairs, isInit, windowSize);
    tail, pos := ReversedTail(Forward(pairs, isInit, ty, windowSize).value, Filter(pairs, isInit)[0], frags, NewestSegments(frags));
  }

  lemma ShapeOfWindow(pairs: seq<Pair>, isInit: Pair -> bool, ty: ForwardType, windowSize: nat)
    returns (tail: seq<Pair>, pos: seq<nat>)
    requires windowSize > 0 && ty != Manifest
    requires |pairs| > 0 && |Filter(pairs, isInit)| == 1
    requires Forward(pairs, isInit, ty, windowSize).Ok?
    ensures Forward(pairs, isInit, ty, windowSize).value == [Filter(pairs, isInit)[0]] + tail
    ensures |pos| == |tail|
    ensures forall k :: 0 <= k < |tail| ==> pos[k] < |Fragments(pairs, isInit)| && tail[k] == Fragments(pairs, isInit)[pos[k]]
  {
    var frags := Fragments(pairs, isInit);
    ForwardWindow(pairs, isInit, ty, windowSize);
    assert |frags| > 0;
    tail, pos := ReversedTail(Forward(pairs, isInit, ty, windowSize).value, Filter(pairs, isInit)[0], frags, LastChunk(frags, windowSize));
  }

  /** What follows the init pair in a successful `forward`: fragments only. */
  lemma ForwardTail(pairs: seq<Pair>, isInit: Pair -> bool, ty: ForwardType, windowSize: nat) returns (tail: seq<Pair>)
    requires |pairs| > 0 && |Filter(pairs, isInit)| == 1
    requires Forward(pairs, isInit, ty, windowSize).Ok?
    ensures Forward(pairs, isInit, ty, windowSize).value == [Filter(pairs, isInit)[0]] + tail
    ensures forall k :: 0 <= k < |tail| ==> tail[k] in Fragments(pairs, isInit)
  {
    var pos;
    tail, pos := ForwardShape(pairs, isInit, ty, windowSize);
  }

  /** The corrected `forward` lists the init pair exactly once, at the
      front, followed only by fragments. */
  lemma InitListedOnce(pairs: seq<Pair>, isInit: Pair -> bool, ty: ForwardType, windowSize: nat)
    requires |pairs| > 0 && |Filter(pairs, isInit)| == 1
    requires Forward(pairs, isInit, ty, windowSize).Ok?
    ensures var r := Forward(pairs, isInit, ty, windowSize).value;
            |r| > 0 && isInit(r[0]) && forall k :: 1 <= k < |r| ==> !isInit(r[k])
  {
    var r := Forward(pairs, isInit, ty, windowSize).value;
    var frags := Fragments(pairs, isInit);
    var tail, pos := ForwardShape(pairs, isInit, ty, windowSize);
    forall j | 0 <= j < |frags| ensures !isInit(frags[j]) {
      FragmentsNotInit(pairs, isInit, j);
    }
    HeadThenOthers(r, Filter(pairs, isInit)[0], tail, pos, frags, isInit);
  }

  /** A list made of one element passing `test` followed by elements drawn
      from a list where none pass has its only passing element at the front. */
  lemma HeadThenOthers<T>(r: seq<T>, head: T, tail: seq<T>, pos: seq<nat>, from: seq<T>, test: T -> bool)
    requires r == [head] + tail && test(head)
    requires |pos| == |tail| && forall k :: 0 <= k < |tail| ==> pos[k] < |from| && tail[k] == from[pos[k]]
    requires forall j :: 0 <= j < |from| ==> !test(from[j])
    ensures |r| > 0 && test(r[0]) && forall k :: 1 <= k < |r| ==> !test(r[k])
  {
    forall k | 1 <= k < |r| ensures !test(r[k]) {
      assert r[k] == tail[k - 1] == from[pos[k - 1]];
    }
  }


}

=== FILE: manifold.dfy ===
/** The live CLI's hand-off of rolling hashes to manifest requests
    (`cli/src/live/manifold.rs`): a map from representation id to the
    latest payload, each payload serving a fixed number of reads before it
    is dropped. The map is a value here; the concurrent `DashMap` is not
    modelled. */
module Manifold {
  import opened Wrappers
  import opened Text

  /** `EventPayload`: the anchor point and rolling hash to hand out, and how
      many more reads the payload may serve. */
  datatype EventPayload = EventPayload(anchorPoint: Option<Bytes>, rollingHash: Bytes, count: nat)

  type Payloads = map<string, EventPayload>

  /** Every stored payload can serve at least one more read, so `get` never
      decrements a zero count. */
  predicate Valid(m: Payloads) {
    forall rep :: rep in m ==> m[rep].count >= 1
  }

  /** `EventPayload::new`: one read (the DASH manifest). */
  function NewEventPayload(rh: Bytes, ap: Option<Bytes>): (p: EventPayload)
    ensures p.count == 1 && p.rollingHash == rh && p.anchorPoint == ap
  {
    EventPayload(ap, rh, 1)
  }

  /** `Manifold::insert`: the payload replaces any earlier one for `rep`. */
  function Insert(m: Payloads, rep: string, event: EventPayload): (r: Payloads)
    ensures rep in r && r[rep] == event
    ensures r.Keys == m.Keys + {rep}
    ensures forall k :: k in m && k != rep ==> r[k] == m[k]
    ensures Valid(m) && event.count >= 1 ==> Valid(r)
  {
    m[rep := event]
  }

  /** `Manifold::remove`. */
  function Remove(m: Payloads, rep: string): (r: Payloads)
    ensures rep !in r && r.Keys == m.Keys - {rep}
    ensures forall k :: k in r ==> r[k] == m[k]
    ensures Valid(m) ==> Valid(r)
  {
    m - {rep}
  }

  /** `Manifold::get`: a missing representation is an error; otherwise the
      count goes down by one, the caller gets the payload with the new
      count, and a payload whose count reaches zero leaves the map. The
      count is a `usize`, so it must not already be zero. */
  function Get(m: Payloads, rep: string): (r: (Payloads, Result<EventPayload, string>))
    requires rep in m ==> m[rep].count >= 1
    ensures rep !in m ==> r == (m, Err("missing value"))
    ensures rep in m ==> r.1 == Ok(m[rep].(count := m[rep].count - 1))
    ensures rep in m ==> (rep in r.0 <==> m[rep].count > 1)
    ensures rep in r.0 ==> r.0[rep].count + 1 == m[rep].count
    ensures forall k :: k != rep ==> (k in r.0 <==> k in m) && (k in m ==> r.0[k] == m[k])
    ensures Valid(m) ==> Valid(r.0)
  {
    if rep !in m then (m, Err("missing value"))
    else
      var event := m[rep].(count := m[rep].count - 1);
      if event.count == 0 then (Remove(m, rep), Ok(event)) else (m[rep := event], Ok(event))
  }

  /** `n` reads of `rep` in a row: the map afterwards and each read's result. */
  function Gets(m: Payloads, rep: string, n: nat): (r: (Payloads, seq<Result<EventPayload, string>>))
    requires Valid(m)
    ensures Valid(r.0) && |r.1| == n
    decreases n
  {
    if n == 0 then (m, [])
    else
      var (m', first) := Get(m, rep);
      var (last, rest) := Gets(m', rep, n - 1);
      (last, [first] + rest)
  }

  /** A payload with count `c` serves exactly `c` reads, each seeing the
      count left after it, and then is gone; other representations are
      untouched. */
  lemma {:induction false} Drain(m: Payloads, rep: string)
    requires Valid(m) && rep in m
    ensures var c := m[rep].count;
      var (after, results) := Gets(m, rep, c + 1);
      (forall j :: 0 <= j < c ==> results[j] == Ok(m[rep].(count := c - 1 - j)))
      && results[c] == Err("missing value")
      && rep !in after
      && forall k :: k != rep ==> (k in after <==> k in m) && (k in m ==> after[k] == m[k])
    decreases m[rep].count
  {
    var c := m[rep].count;
    var (m', first) := Get(m, rep);
    var (after, rest) := Gets(m', rep, c);
    assert Gets(m, rep, c + 1) == (after, [first] + rest);
    if c == 1 {
      assert rep !in m';
      assert rest == [Err("missing value")];
    } else {
      Drain(m', rep);
      assert m'[rep] == m[rep].(count := c - 1);
      forall j | 1 <= j < c ensures ([first] + rest)[j] == Ok(m[rep].(count := c - 1 - j)) {
        assert ([first] + rest)[j] == rest[j - 1];
      }
    }
  }

  /** A fresh payload is served to exactly one manifest request. */
  lemma InsertThenGet(m: Payloads, rep: string, rh: Bytes, ap: Option<Bytes>)
    requires Valid(m)
    ensures var p := NewEventPayload(rh, ap);
      var (after, results) := Gets(Insert(m, rep, p), rep, 2);
      results == [Ok(p.(count := 0)), Err("missing value")] && rep !in after
  {
    var m1 := Insert(m, rep, NewEventPayload(rh, ap));
    Drain(m1, rep);
  }

  /** Removing twice is removing once. */
  lemma RemoveIdempotent(m: Payloads, rep: string)
    ensures Remove(Remove(m, rep), rep) == Remove(m, rep)
  {
  }
}

=== FILE: merkle_proof.dfy ===
/** Merkle-proof playback for the fragment maps of a `c2pa.hash.bmff`
    assertion (`MerkleMap::hash_check` and `check_merkle_tree`). A
    `MerkleMap` stores one row of a Merkle tree over `count` fragment hashes;
    a fragment proves its membership by replaying the sibling hashes from
    its leaf up to that row.

    The tree's layout (the sizes of its rows, leaves first) comes from
    `C2PAMerkleTree::to_layout`, which is not part of this model: it is a
    parameter here. `Layout` and `Tree` below are reference definitions of a
    tree that promotes an unpaired last node unchanged; the completeness
    theorem shows that playback reaches the stored row of such a tree. */
module MerkleProof {
  import opened Wrappers
  import opened Text
  import opened Hashing

  /** The `merkle` entry of a BMFF hash assertion. */
  datatype MerkleMap = MerkleMap(
    uniqueId: nat,
    localId: nat,
    count: nat,
    alg: Option<string>,
    initHash: Option<Bytes>,
    hashes: seq<Bytes>)

  /** `hash_check`: the stored hash at `index` exists and equals `h`. */
  predicate HashCheck(mm: MerkleMap, index: nat, h: Bytes) {
    index < |mm.hashes| && mm.hashes[index] == h
  }

  /** The proof playback loop. `layers` are the remaining row sizes and
      `proof` the proof elements not yet used (the source's `proof_index`
      counts the used ones). The loop stops at the row as long as the
      stored one; a right node takes its left sibling from the proof, a left
      node takes its right sibling when it has one, and an unpaired left
      node moves up unchanged. A missing proof element fails the check.
      The result is the index and hash reached. */
  function Playback(ch: ConcatHash, alg: string, layers: seq<nat>, stored: nat,
                    index: nat, hash: Bytes, proof: seq<Bytes>): Option<(nat, Bytes)>
  {
    if |layers| == 0 || layers[0] == stored then Some((index, hash))
    else if index % 2 == 1 then
      if index - 1 < layers[0] then
        if |proof| == 0 then None
        else Playback(ch, alg, layers[1..], stored, index / 2, ch(alg, proof[0], Some(hash)), proof[1..])
      else Playback(ch, alg, layers[1..], stored, index / 2, hash, proof)
    else if index + 1 < layers[0] then
      if |proof| == 0 then None
      else Playback(ch, alg, layers[1..], stored, index / 2, ch(alg, hash, Some(proof[0])), proof[1..])
    else Playback(ch, alg, layers[1..], stored, index / 2, hash, proof)
  }

  /** The playback without a proof: only the index moves up. */
  function EmptyPlayback(layers: seq<nat>, stored: nat, index: nat): nat {
    if |layers| == 0 || layers[0] == stored then index
    else EmptyPlayback(layers[1..], stored, index / 2)
  }

  /** `check_merkle_tree` with the layout of `count` leaves given as `layers`. */
  function CheckMerkleTree(mm: MerkleMap, ch: ConcatHash, alg: string, layers: seq<nat>,
                           hash: Bytes, location: nat, proof: Option<seq<Bytes>>): (ok: bool)
    ensures location >= mm.count ==> !ok
    ensures ok <==>
      && location < mm.count
      && (proof.Some? ==> Playback(ch, alg, layers, |mm.hashes|, location, hash, proof.value).Some?)
      && HashCheck(mm, EmptyPlayback(layers, |mm.hashes|, location), PlaybackHash(ch, alg, layers, mm, hash, location, proof))
    ensures ok ==> exists i :: 0 <= i < |mm.hashes| && mm.hashes[i] == PlaybackHash(ch, alg, layers, mm, hash, location, proof)
  {
    if location >= mm.count then false
    else
      match proof
      case None => HashCheck(mm, EmptyPlayback(layers, |mm.hashes|, location), hash)
      case Some(p) =>
        match Playback(ch, alg, layers, |mm.hashes|, location, hash, p)
        case None => false
        case Some((i, h)) =>
          PlaybackIndex(ch, alg, layers, |mm.hashes|, location, hash, p);
          HashCheck(mm, i, h)
  }

  /** The hash the playback arrives at (the given one when there is no proof
      or the proof runs out). */
  function PlaybackHash(ch: ConcatHash, alg: string, layers: seq<nat>, mm: MerkleMap,
                        hash: Bytes, location: nat, proof: Option<seq<Bytes>>): Bytes
  {
    match proof
    case None => hash
    case Some(p) =>
      match Playback(ch, alg, layers, |mm.hashes|, location, hash, p)
      case None => hash
      case Some((_, h)) => h
  }

  /** Proof elements after the ones the playback uses make no difference. */
  lemma {:induction false} PlaybackIgnoresExtra(ch: ConcatHash, alg: string, layers: seq<nat>, stored: nat,
                                                index: nat, hash: Bytes, proof: seq<Bytes>, extra: seq<Bytes>)
    requires Playback(ch, alg, layers, stored, index, hash, proof).Some?
    ensures Playback(ch, alg, layers, stored, index, hash, proof + extra)
         == Playback(ch, alg, layers, stored, index, hash, proof)
  {
    if |layers| == 0 || layers[0] == stored {
    } else if (index % 2 == 1 && index - 1 < layers[0]) || (index % 2 == 0 && index + 1 < layers[0]) {
      assert (proof + extra)[0] == proof[0];
      assert (proof + extra)[1..] == proof[1..] + extra;
      var h := if index % 2 == 1 then ch(alg, proof[0], Some(hash)) else ch(alg, hash, Some(proof[0]));
      PlaybackIgnoresExtra(ch, alg, layers[1..], stored, index / 2, h, proof[1..], extra);
    } else {
      PlaybackIgnoresExtra(ch, alg, layers[1..], stored, index / 2, hash, proof, extra);
    }
  }

  /** The index reached is the location shifted right once per row passed. */
  lemma {:induction false} PlaybackIndex(ch: ConcatHash, alg: string, layers: seq<nat>, stored: nat,
                                         index: nat, hash: Bytes, proof: seq<Bytes>)
    requires Playback(ch, alg, layers, stored, index, hash, proof).Some?
    ensures Playback(ch, alg, layers, stored, index, hash, proof).value.0 == EmptyPlayback(layers, stored, index)
  {
    if |layers| == 0 || layers[0] == stored {
    } else if (index % 2 == 1 && index - 1 < layers[0]) || (index % 2 == 0 && index + 1 < layers[0]) {
      var h := if index % 2 == 1 then ch(alg, proof[0], Some(hash)) else ch(alg, hash, Some(proof[0]));
      PlaybackIndex(ch, alg, layers[1..], stored, index / 2, h, proof[1..]);
    } else {
      PlaybackIndex(ch, alg, layers[1..], stored, index / 2, hash, proof);
    }
  }

  // ---- reference tree ----

  /** `index >> m`. */
  function Shift(index: nat, m: nat): nat {
    if m == 0 then index else Shift(index / 2, m - 1)
  }

  /** The row above `row`: neighbours paired left to right, an unpaired last
      node promoted unchanged. */
  function NextRow(ch: ConcatHash, alg: string, row: seq<Bytes>): (r: seq<Bytes>)
    ensures |r| == (|row| + 1) / 2
    ensures forall i :: 0 <= i < |r| ==>
      r[i] == if 2 * i + 1 < |row| then ch(alg, row[2 * i], Some(row[2 * i + 1])) else row[2 * i]
  {
    seq((|row| + 1) / 2, i requires 0 <= i < (|row| + 1) / 2 =>
      if 2 * i + 1 < |row| then ch(alg, row[2 * i], Some(row[2 * i + 1])) else row[2 * i])
  }

  /** All rows of the tree over `leaves`, leaves first, root last. */
  function Tree(ch: ConcatHash, alg: string, leaves: seq<Bytes>): (t: seq<seq<Bytes>>)
    ensures |t| >= 1 && t[0] == leaves
    decreases |leaves|
  {
    if |leaves| <= 1 then [leaves] else [leaves] + Tree(ch, alg, NextRow(ch, alg, leaves))
  }

  /** The row sizes of a tree over `n` leaves, leaves first. */
  function Layout(n: nat): (l: seq<nat>)
    ensures |l| >= 1 && l[0] == n
  {
    if n <= 1 then [n] else [n] + Layout((n + 1) / 2)
  }

  /** The row sizes of `Tree` are `Layout`, and every row above the leaves
      is shorter than the leaves. */
  lemma {:induction false} TreeShape(ch: ConcatHash, alg: string, leaves: seq<Bytes>)
    ensures |Tree(ch, alg, leaves)| == |Layout(|leaves|)|
    ensures forall j :: 0 <= j < |Layout(|leaves|)| ==> |Tree(ch, alg, leaves)[j]| == Layout(|leaves|)[j]
    ensures forall j :: 1 <= j < |Layout(|leaves|)| ==> Layout(|leaves|)[j] < |leaves|
    decreases |leaves|
  {
    if |leaves| > 1 {
      var next := NextRow(ch, alg, leaves);
      TreeShape(ch, alg, next);
      assert Tree(ch, alg, leaves)[1..] == Tree(ch, alg, next);
      assert Layout(|leaves|)[1..] == Layout(|next|);
      forall j | 1 <= j < |Layout(|leaves|)|
        ensures |Tree(ch, alg, leaves)[j]| == Layout(|leaves|)[j] && Layout(|leaves|)[j] < |leaves|
      {
        assert Tree(ch, alg, leaves)[j] == Tree(ch, alg, next)[j - 1];
        assert Layout(|leaves|)[j] == Layout(|next|)[j - 1];
      }
    }
  }

  /** The proof element row `row` contributes for node `index`: its
      sibling, or nothing for an unpaired last node. */
  function Sibling(row: seq<Bytes>, index: nat): (s: seq<Bytes>)
    requires index < |row|
    ensures |s| <= 1
  {
    if index % 2 == 1 then [row[index - 1]] else if index + 1 < |row| then [row[index + 1]] else []
  }

  /** The sibling hashes on the way from leaf `index` up to row `m`. */
  function ProofPath(rows: seq<seq<Bytes>>, index: nat, m: nat): seq<Bytes>
    requires m < |rows|
    requires index < |rows[0]|
  {
    if m == 0 then []
    else if index / 2 < |rows[1]| then Sibling(rows[0], index) + ProofPath(rows[1..], index / 2, m - 1)
    else Sibling(rows[0], index)
  }

  /** One playback step over a tree row consumes the node's sibling and
      lands on the node's parent in the next row. */
  lemma PlaybackStep(ch: ConcatHash, alg: string, row: seq<Bytes>, layers: seq<nat>, stored: nat,
                     index: nat, rest: seq<Bytes>)
    requires |layers| > 0 && layers[0] == |row| && layers[0] != stored && index < |row|
    ensures Playback(ch, alg, layers, stored, index, row[index], Sibling(row, index) + rest)
         == Playback(ch, alg, layers[1..], stored, index / 2, NextRow(ch, alg, row)[index / 2], rest)
  {
    var sib := Sibling(row, index);
    if |sib| == 1 {
      assert (sib + rest)[0] == sib[0];
      assert (sib + rest)[1..] == rest;
    } else {
      assert sib + rest == rest;
    }
  }

  /** Completeness of playback: along the sibling path of a tree, the leaf
      hash reaches the node above it in row `m`. */
  lemma {:induction false} PlaybackComplete(ch: ConcatHash, alg: string, leaves: seq<Bytes>, index: nat, m: nat)
    requires index < |leaves|
    requires m < |Tree(ch, alg, leaves)|
    ensures Shift(index, m) < |Tree(ch, alg, leaves)[m]|
    ensures Playback(ch, alg, Layout(|leaves|), |Tree(ch, alg, leaves)[m]|, index, leaves[index],
                     ProofPath(Tree(ch, alg, leaves), index, m))
         == Some((Shift(index, m), Tree(ch, alg, leaves)[m][Shift(index, m)]))
    decreases |leaves|
  {
    if m > 0 {
      var t := Tree(ch, alg, leaves);
      var next := NextRow(ch, alg, leaves);
      var up := Tree(ch, alg, next);
      var layers := Layout(|leaves|);
      var stored := |t[m]|;
      var rest := ProofPath(up, index / 2, m - 1);
      TreeUp(ch, alg, leaves, index, m);
      PlaybackStep(ch, alg, leaves, layers, stored, index, rest);
      PlaybackComplete(ch, alg, next, index / 2, m - 1);
      calc {
        Playback(ch, alg, layers, stored, index, leaves[index], ProofPath(t, index, m));
        Playback(ch, alg, layers, stored, index, leaves[index], Sibling(leaves, index) + rest);
        Playback(ch, alg, layers[1..], stored, index / 2, next[index / 2], rest);
        Playback(ch, alg, Layout(|next|), |up[m - 1]|, index / 2, next[index / 2], rest);
      }
    }
  }

  /** Above the leaves the tree over `leaves` is the tree over the next row,
      and the sibling path starts with the leaf's sibling. */
  lemma TreeUp(ch: ConcatHash, alg: string, leaves: seq<Bytes>, index: nat, m: nat)
    requires index < |leaves|
    requires 0 < m < |Tree(ch, alg, leaves)|
    ensures var t := Tree(ch, alg, leaves);
            var next := NextRow(ch, alg, leaves);
            && |leaves| > 1
            && index / 2 < |next|
            && m - 1 < |Tree(ch, alg, next)|
            && t[m] == Tree(ch, alg, next)[m - 1]
            && Layout(|leaves|)[0] == |leaves| && Layout(|leaves|)[0] != |t[m]|
            && Layout(|leaves|)[1..] == Layout(|next|)
            && Shift(index, m) == Shift(index / 2, m - 1)
            && ProofPath(t, index, m) == Sibling(leaves, index) + ProofPath(Tree(ch, alg, next), index / 2, m - 1)
  {
    var t := Tree(ch, alg, leaves);
    var next := NextRow(ch, alg, leaves);
    TreeShape(ch, alg, leaves);
    assert t[1..] == Tree(ch, alg, next);
    assert t[m] == t[1..][m - 1];
  }

  /** A map holding row `m` of the tree over its `count` fragment hashes
      accepts every fragment's hash with that fragment's sibling path. */
  lemma CheckMerkleTreeComplete(mm: MerkleMap, ch: ConcatHash, alg: string, leaves: seq<Bytes>, location: nat, m: nat)
    requires mm.count == |leaves| && location < |leaves|
    requires m < |Tree(ch, alg, leaves)| && mm.hashes == Tree(ch, alg, leaves)[m]
    ensures CheckMerkleTree(mm, ch, alg, Layout(mm.count), leaves[location], location,
                            Some(ProofPath(Tree(ch, alg, leaves), location, m)))
  {
    PlaybackComplete(ch, alg, leaves, location, m);
  }

  /** Without a proof the given hash is compared with the stored node above
      the location: when the map stores the leaves themselves, that is the
      plain membership test. */
  lemma EmptyProofChecksLeaf(mm: MerkleMap, ch: ConcatHash, alg: string, hash: Bytes, location: nat)
    requires mm.count == |mm.hashes|
    ensures CheckMerkleTree(mm, ch, alg, Layout(mm.count), hash, location, None)
        <==> location < |mm.hashes| && mm.hashes[location] == hash
  {
  }

  /** A playback that needs a proof element but finds none fails: when the
      map does not store the leaf row, an empty proof list is rejected for
      every leaf that has a sibling. */
  lemma ExhaustedProofFails(mm: MerkleMap, ch: ConcatHash, alg: string, hash: Bytes, location: nat)
    requires 2 <= mm.count && location < mm.count && |mm.hashes| < mm.count
    requires location % 2 == 1 || location + 1 < mm.count
    ensures !CheckMerkleTree(mm, ch, alg, Layout(mm.count), hash, location, Some([]))
  {
    var layers := Layout(mm.count);
    assert layers[0] == mm.count;
  }
}

=== FILE: replace_box.dfy ===
/** In-place replacement of an ISO-BMFF box inside a seekable byte stream
    (`replace_c2pa_box`). A box starts with its size as a big-endian 32-bit
    integer (section 4.2 of ISO/IEC 14496-12). The stream is a byte sequence
    and its seeks, reads and writes are modelled as functions on it. */
module LiveBox {
  import opened Wrappers
  import opened Text

  /** `read_exact` found fewer bytes than requested. */
  datatype IoError = UnexpectedEof

  function Max(a: nat, b: nat): nat {
    if a >= b then a else b
  }

  /** `u32::from_be_bytes`. */
  function BigEndianU32(b: Bytes): (n: nat)
    requires |b| == 4
    ensures n < U32_LIMIT
  {
    ((b[0] as int * 0x100 + b[1] as int) * 0x100 + b[2] as int) * 0x100 + b[3] as int
  }

  /** `u32::to_be_bytes`, the partner of `BigEndianU32`: the base-256
      digits of `n`, most significant first. */
  function U32ToBigEndian(n: nat): (b: Bytes)
    requires n < U32_LIMIT
    ensures |b| == 4
  {
    var q1 := n / 0x100;
    var q2 := q1 / 0x100;
    [(q2 / 0x100) as byte, (q2 % 0x100) as byte, (q1 % 0x100) as byte, (n % 0x100) as byte]
  }

  lemma BigEndianRoundTrip(n: nat)
    requires n < U32_LIMIT
    ensures BigEndianU32(U32ToBigEndian(n)) == n
  {
    var q1 := n / 0x100;
    var q2 := q1 / 0x100;
    assert n == q1 * 0x100 + n % 0x100;
    assert q1 == q2 * 0x100 + q1 % 0x100;
    assert q2 == (q2 / 0x100) * 0x100 + q2 % 0x100;
  }

  /** Everything from `at` to the end, as `seek(at)` then `read_to_end`
      returns it: nothing when `at` is at or past the end. */
  function Remainder(file: Bytes, at: nat): (r: Bytes)
    ensures at <= |file| ==> r == file[at..]
    ensures at >= |file| ==> r == []
  {
    if at <= |file| then file[at..] else []
  }

  /** `seek(pos)` then `write_all(data)` on a file: bytes from `pos` are
      overwritten, the file grows when the data runs past its end, and it is
      never truncated. */
  function WriteAt(file: Bytes, pos: nat, data: Bytes): (r: Bytes)
    requires pos <= |file|
    ensures |r| == Max(|file|, pos + |data|)
    ensures r[..pos] == file[..pos]
    ensures r[pos..pos + |data|] == data
    ensures pos + |data| < |file| ==> r[pos + |data|..] == file[pos + |data|..]
  {
    file[..pos] + data + (if pos + |data| < |file| then file[pos + |data|..] else [])
  }

  /** The size field of the box at `start`. */
  function DeclaredSize(file: Bytes, start: nat): nat
    requires start + 4 <= |file|
  {
    BigEndianU32(file[start..start + 4])
  }

  /** `replace_c2pa_box` as written: read the old box size at `start`, keep
      every byte after the old box, then write the new box followed by those
      bytes from `start` on. A missing offset is an `unimplemented!` panic,
      hence the precondition. */
  function ReplaceC2paBox(file: Bytes, buf: Bytes, offset: Option<nat>): (r: Result<Bytes, IoError>)
    requires offset.Some?
    ensures r.Err? <==> offset.value + 4 > |file|
    ensures r.Ok? ==>
      var start := offset.value;
      var rest := Remainder(file, start + DeclaredSize(file, start));
      && |r.value| == Max(|file|, start + |buf| + |rest|)
      && r.value[..start] == file[..start]
      && r.value[start..start + |buf|] == buf
      && r.value[start + |buf|..start + |buf| + |rest|] == rest
      && (start + |buf| + |rest| < |file| ==> r.value[start + |buf| + |rest|..] == file[start + |buf| + |rest|..])
  {
    var start := offset.value;
    if start + 4 > |file| then Err(UnexpectedEof)
    else
      var rest := Remainder(file, start + DeclaredSize(file, start));
      var out := WriteAt(file, start, buf + rest);
      WriteTwoAt(file, start, buf, rest);
      assert out[start + |buf|..start + |buf| + |rest|] == rest;
      Ok(out)
  }

  /** Writing `a + b` at `pos` puts `a` at `pos` and `b` right after it. */
  lemma WriteTwoAt(file: Bytes, pos: nat, a: Bytes, b: Bytes)
    requires pos <= |file|
    ensures var out := WriteAt(file, pos, a + b);
            && |out| == Max(|file|, pos + |a| + |b|)
            && out[..pos] == file[..pos]
            && out[pos..pos + |a|] == a
            && out[pos + |a|..pos + |a| + |b|] == b
  {
    var out := WriteAt(file, pos, a + b);
    assert out[pos..pos + |a| + |b|] == a + b;
    assert out[pos..pos + |a|] == (a + b)[..|a|];
    assert out[pos + |a|..pos + |a| + |b|] == (a + b)[|a|..];
  }

  /** A replacement at least as long as the old box gives exactly the prefix,
      the new box and the bytes after the old box, as the module's own test
      expects. */
  lemma ReplaceWithLongerBox(file: Bytes, buf: Bytes, start: nat)
    requires start + 4 <= |file|
    requires start + DeclaredSize(file, start) <= |file|
    requires |buf| >= DeclaredSize(file, start)
    ensures ReplaceC2paBox(file, buf, Some(start))
         == Ok(file[..start] + buf + file[start + DeclaredSize(file, start)..])
  {
    var size := DeclaredSize(file, start);
    var rest := file[start + size..];
    var w := buf + rest;
    assert Remainder(file, start + size) == rest;
    assert start + |w| >= |file|;
    assert WriteAt(file, start, w) == file[..start] + w;
    assert ReplaceC2paBox(file, buf, Some(start)) == Ok(WriteAt(file, start, w));
    assert file[..start] + w == file[..start] + buf + rest;
  }

  /** As written, a shorter replacement leaves stale bytes: the file keeps
      its length, so its last `size - |buf|` bytes are still the old ones,
      where the intended result is shorter by that much. */
  lemma ReplaceWithShorterBoxLeavesStaleBytes(file: Bytes, buf: Bytes, start: nat)
    requires start + 4 <= |file|
    requires start + DeclaredSize(file, start) <= |file|
    requires |buf| < DeclaredSize(file, start)
    ensures var r := ReplaceC2paBox(file, buf, Some(start));
            var stale := DeclaredSize(file, start) - |buf|;
            && r.Ok? && |r.value| == |file|
            && r.value[|file| - stale..] == file[|file| - stale..]
            && |r.value| != |file[..start] + buf + file[start + DeclaredSize(file, start)..]|
  {
    assert Remainder(file, start + DeclaredSize(file, start)) == file[start + DeclaredSize(file, start)..];
  }

  /** The evidently intended replacement: the stream ends right after the
      moved remainder (a truncation the written code omits). */
  function ReplaceC2paBoxTruncating(file: Bytes, buf: Bytes, offset: Option<nat>): (r: Result<Bytes, IoError>)
    requires offset.Some?
    ensures r.Err? <==> offset.value + 4 > |file|
    ensures r.Ok? ==>
      var start := offset.value;
      var end := start + DeclaredSize(file, start);
      && |r.value| == start + |buf| + |Remainder(file, end)|
      && r.value[..start] == file[..start]
      && r.value[start..start + |buf|] == buf
      && r.value[start + |buf|..] == Remainder(file, end)
      && (end <= |file| ==> |r.value| == |file| - DeclaredSize(file, start) + |buf|)
  {
    var start := offset.value;
    if start + 4 > |file| then Err(UnexpectedEof)
    else
      var rest := Remainder(file, start + DeclaredSize(file, start));
      var out := file[..start] + buf + rest;
      assert out[start..start + |buf|] == buf;
      assert out[start + |buf|..] == rest;
      Ok(out)
  }

  /** With truncation, putting the old box back undoes a replacement by any
      well-formed box (one whose size field is its length). */
  lemma TruncatingReplaceIsUndone(file: Bytes, buf: Bytes, start: nat)
    requires start + 4 <= |file|
    requires start + DeclaredSize(file, start) <= |file|
    requires |buf| >= 4 && BigEndianU32(buf[..4]) == |buf|
    ensures var oldBox := file[start..start + DeclaredSize(file, start)];
            && ReplaceC2paBoxTruncating(file, buf, Some(start)).Ok?
            && ReplaceC2paBoxTruncating(ReplaceC2paBoxTruncating(file, buf, Some(start)).value, oldBox, Some(start)) == Ok(file)
  {
    var size := DeclaredSize(file, start);
    var oldBox := file[start..start + size];
    var after := file[start + size..];
    var f1 := file[..start] + buf + after;
    TruncatingResult(file, buf, start);
    Pieces(file[..start], buf, after);
    assert f1[start..start + 4] == buf[..4];
    assert DeclaredSize(f1, start) == |buf|;
    TruncatingResult(f1, oldBox, start);
    assert Remainder(f1, start + |buf|) == after;
    Cut(file, start, start + size);
  }

  /** The three pieces of `a + b + c` are found where they were put. */
  lemma Pieces(a: Bytes, b: Bytes, c: Bytes)
    ensures var s := a + b + c;
            s[..|a|] == a && s[|a|..|a| + |b|] == b && s[|a| + |b|..] == c
  {
  }

  /** A sequence is the concatenation of its pieces around two cuts. */
  lemma Cut(s: Bytes, i: nat, j: nat)
    requires i <= j <= |s|
    ensures s == s[..i] + s[i..j] + s[j..]
  {
  }

  /** The truncating replacement in one piece: prefix, new box, and the
      bytes after the old box. */
  lemma TruncatingResult(file: Bytes, buf: Bytes, start: nat)
    requires start + 4 <= |file|
    ensures ReplaceC2paBoxTruncating(file, buf, Some(start))
         == Ok(file[..start] + buf + Remainder(file, start + DeclaredSize(file, start)))
  {
  }
}

=== FILE: rolling_hash.dfy ===
/** The rolling-hash assertion for live fragmented BMFF streams
    (`rolling_hash.rs`). Every fragment's value is chained onto the previous
    one, `CH(previous, fragment)`, or `CH(fragment)` for the first fragment
    of a stream; a fragment carries the previous value as its anchor point
    in an embedded box, so a viewer can join the stream anywhere.

    Reading and hashing streams is not modelled: a fragment's digest is the
    uninterpreted `FragHash(alg, stream, exclusions)` and the boxes
    `C2PABmffBoxesRollingHash::from_reader` finds are given with the
    fragment. */
module RollingHashes {
  import opened Wrappers
  import opened Text
  import opened Hashing

  /** An entry of the assertion's exclusion list; only its identity matters
      here, since the digest that applies it is uninterpreted. */
  datatype Exclusion = Exclusion(xpath: string)

  /** The uninterpreted hashing: `concat_and_hash`, and
      `hash_stream_by_alg` over a stream with the exclusions applied.
      `streamError` is the error the producer's digest of its output stream
      returns (locating the exclusions or `hash_stream_by_alg`), `None`
      when it yields `fragHash`. */
  datatype Crypto = Crypto(ch: ConcatHash, fragHash: (string, Bytes, seq<Exclusion>) -> Bytes,
                           streamError: (string, Bytes, seq<Exclusion>) -> Option<Error>)

  /** What `C2PABmffBoxesRollingHash::from_reader` finds in a fragment: its
      top-level box types, the anchor points of its rolling-hash boxes, and
      the number of its Merkle-map boxes. */
  datatype FragmentBoxes = FragmentBoxes(boxPaths: seq<string>, anchors: seq<Option<Bytes>>, merkleBoxes: nat)

  datatype Fragment = Fragment(stream: Bytes, boxes: FragmentBoxes)

  /** The `RollingHash` assertion. */
  datatype RollingHash = RollingHash(
    exclusions: seq<Exclusion>,
    alg: Option<string>,
    hash: Option<Bytes>,
    rollingHash: Option<Bytes>,
    previousHash: Option<Bytes>,
    name: Option<string>)
  {
    function SetHash(h: Bytes): RollingHash {
      this.(hash := Some(h))
    }

    function ClearHash(): RollingHash {
      this.(hash := None)
    }

    function SetRollingHash(h: Bytes): RollingHash {
      this.(rollingHash := Some(h))
    }

    function ClearRollingHash(): RollingHash {
      this.(rollingHash := None)
    }

    function SetPreviousHash(h: Bytes): RollingHash {
      this.(previousHash := Some(h))
    }

    function ClearPreviousHash(): RollingHash {
      this.(previousHash := None)
    }

    /** `shift_rolling_hash`: the current value becomes the previous one. */
    function Shift(): RollingHash {
      this.(previousHash := rollingHash, rollingHash := None)
    }
  }

  /** `RollingHash::new`. */
  function NewRollingHash(name: string, alg: string): RollingHash {
    RollingHash([], Some(alg), None, None, None, Some(name))
  }

  /** A new assertion stores no hashes yet: any init segment passes its
      check, and it carries no anchor for a first fragment. */
  lemma NewRollingHashAcceptsAnyInit(c: Crypto, name: string, alg: string, init: Bytes, a: Option<string>)
    ensures var rh := NewRollingHash(name, alg);
      && VerifyStreamHash(c, rh, init, a).Pass?
      && rh.alg == Some(alg) && rh.name == Some(name) && rh.exclusions == []
      && rh.rollingHash.None? && rh.previousHash.None?
  {
  }

  /** `shift_rolling_hash` hands the current value over as the anchor for
      the next fragment and leaves every other field alone; the setters only
      touch their own field. */
  lemma ShiftHandsOver(rh: RollingHash, h: Bytes)
    ensures rh.SetRollingHash(h).Shift().previousHash == Some(h)
    ensures rh.Shift().rollingHash.None? && rh.Shift().previousHash == rh.rollingHash
    ensures rh.Shift().(previousHash := rh.previousHash, rollingHash := rh.rollingHash) == rh
    ensures rh.SetHash(h).ClearHash() == rh.ClearHash()
    ensures rh.SetPreviousHash(h).ClearPreviousHash() == rh.ClearPreviousHash()
    ensures rh.SetRollingHash(h).ClearRollingHash() == rh.ClearRollingHash()
  {
  }

  /** The algorithm in force: the assertion's own, else the caller's, else
      SHA-256. */
  function CurrAlg(rh: RollingHash, alg: Option<string>): string {
    match rh.alg
    case Some(a) => a
    case None => alg.GetOr(SHA256)
  }

  function FragmentHash(c: Crypto, rh: RollingHash, alg: string, stream: Bytes): Bytes {
    c.fragHash(alg, stream, rh.exclusions)
  }

  /** `verify_stream_hash`: the init segment's digest must equal the stored
      file-level hash, when there is one. */
  function VerifyStreamHash(c: Crypto, rh: RollingHash, init: Bytes, alg: Option<string>): (r: Outcome<Error>)
    ensures r.Pass? <==> rh.hash.None? || rh.hash.value == FragmentHash(c, rh, CurrAlg(rh, alg), init)
  {
    match rh.hash
    case Some(h) =>
      if c.fragHash(CurrAlg(rh, alg), init, rh.exclusions) != h then Fail(HashMismatch("BMFF file level hash mismatch"))
      else Pass
    case None => Pass
  }

  /** More than one rolling-hash or Merkle-map box in a fragment. */
  predicate TooManyBoxes(b: FragmentBoxes) {
    |b.anchors| > 1 || b.merkleBoxes > 1
  }

  /** `verify_stream_segment` reads `rolling_hashes[0]` after the box-count
      check when there is a previous hash; an empty list panics there. */
  predicate SegmentReadsAnchor(c: Crypto, rh: RollingHash, init: Bytes, frag: Fragment, alg: Option<string>) {
    && (rh.hash.Some? ==> VerifyStreamHash(c, rh, init, alg).Pass?)
    && rh.previousHash.Some?
    && !TooManyBoxes(frag.boxes)
  }

  /** `verify_stream_segment`: the init hash (if stored), then, with a
      previous hash, the fragment's anchor point (if it has one) against it,
      then the fragment's chained value against the stored rolling hash. */
  function VerifyStreamSegment(c: Crypto, rh: RollingHash, init: Bytes, frag: Fragment, alg: Option<string>): (r: Outcome<Error>)
    requires SegmentReadsAnchor(c, rh, init, frag, alg) ==> |frag.boxes.anchors| > 0
    ensures r.Pass? <==>
      && VerifyStreamHash(c, rh, init, alg).Pass?
      && (rh.previousHash.Some? ==>
            && !TooManyBoxes(frag.boxes)
            && (frag.boxes.anchors[0].Some? ==> frag.boxes.anchors[0].value == rh.previousHash.value))
      && rh.rollingHash == Some(ChainStep(c.ch, CurrAlg(rh, alg), rh.previousHash, FragmentHash(c, rh, CurrAlg(rh, alg), frag.stream)))
    ensures rh.rollingHash.None? && VerifyStreamHash(c, rh, init, alg).Pass? && !(rh.previousHash.Some? && TooManyBoxes(frag.boxes))
            && !(rh.previousHash.Some? && frag.boxes.anchors[0].Some? && frag.boxes.anchors[0].value != rh.previousHash.value)
            ==> r == Fail(HashMismatch("Asset File has no Rolling Hash"))
  {
    var currAlg := CurrAlg(rh, alg);
    var initCheck := if rh.hash.Some? then VerifyStreamHash(c, rh, init, alg) else Pass;
    if initCheck.Fail? then initCheck
    else if rh.previousHash.Some? && TooManyBoxes(frag.boxes) then
      Fail(HashMismatch("BMFF Fragments shouldn't have more than 1 BmffMerkleMap"))
    else if rh.previousHash.Some? && frag.boxes.anchors[0].Some? && rh.previousHash.value != frag.boxes.anchors[0].value then
      Fail(HashMismatch("Previous Hash does not match Fragment Anchor Point"))
    else
      match rh.rollingHash
      case Some(roll) =>
        var fragHash := c.fragHash(currAlg, frag.stream, rh.exclusions);
        var (left, right) := match rh.previousHash
          case Some(prev) => (prev, Some(fragHash))
          case None => (fragHash, None);
        if c.ch(currAlg, left, right) != roll then Fail(HashMismatch("Fragment Hash does not match Rolling Hash"))
        else Pass
      case None => Fail(HashMismatch("Asset File has no Rolling Hash"))
  }

  /** `verify_fragment` reads `rolling_hashes[0]` once the init hash and the
      box count are fine; an empty list panics there. */
  predicate FragmentReadsAnchor(c: Crypto, rh: RollingHash, init: Bytes, frag: Fragment, alg: Option<string>) {
    VerifyStreamHash(c, rh, init, alg).Pass? && !TooManyBoxes(frag.boxes)
  }

  /** `verify_fragment`: a fragment checked against a previous hash given by
      the caller. When the fragment carries an anchor point, the anchor, the
      given previous hash and the manifest's previous hash must all agree;
      then `CH(previous, fragment)` must be the stored rolling hash. */
  function VerifyFragment(c: Crypto, rh: RollingHash, init: Bytes, frag: Fragment, alg: Option<string>,
                          previousHash: Bytes): (r: Outcome<Error>)
    requires FragmentReadsAnchor(c, rh, init, frag, alg) ==> |frag.boxes.anchors| > 0
    ensures r.Pass? <==>
      && VerifyStreamHash(c, rh, init, alg).Pass?
      && !TooManyBoxes(frag.boxes)
      && (frag.boxes.anchors[0].Some? ==>
            frag.boxes.anchors[0].value == previousHash && rh.previousHash == Some(previousHash))
      && rh.rollingHash == Some(ChainStep(c.ch, CurrAlg(rh, alg), Some(previousHash), FragmentHash(c, rh, CurrAlg(rh, alg), frag.stream)))
    ensures FragmentReadsAnchor(c, rh, init, frag, alg) && frag.boxes.anchors[0].Some? ==>
      && (previousHash != frag.boxes.anchors[0].value ==> r == Fail(HashMismatch("Anchor point does not match given previous hash")))
      && (previousHash == frag.boxes.anchors[0].value && rh.previousHash.None? ==> r == Fail(HashMismatch("Manifest is missing previous hash")))
      && (previousHash == frag.boxes.anchors[0].value && rh.previousHash.Some? && rh.previousHash.value != previousHash ==>
            r == Fail(HashMismatch("Previous Hashes are mismatched")))
  {
    var initCheck := VerifyStreamHash(c, rh, init, alg);
    if initCheck.Fail? then initCheck
    else
      var currAlg := CurrAlg(rh, alg);
      if TooManyBoxes(frag.boxes) then Fail(HashMismatch("BMFF Fragments shouldn't have more than 1 BmffMerkleMap"))
      else if frag.boxes.anchors[0].Some? && previousHash != frag.boxes.anchors[0].value then
        Fail(HashMismatch("Anchor point does not match given previous hash"))
      else if frag.boxes.anchors[0].Some? && rh.previousHash.None? then
        Fail(HashMismatch("Manifest is missing previous hash"))
      else if frag.boxes.anchors[0].Some? && rh.previousHash.value != previousHash then
        Fail(HashMismatch("Previous Hashes are mismatched"))
      else
        var fragHash := c.fragHash(currAlg, frag.stream, rh.exclusions);
        var refHash := c.ch(currAlg, previousHash, Some(fragHash));
        match rh.rollingHash
        case None => Fail(HashMismatch("Asset File has no Rolling Hash"))
        case Some(roll) => if refHash != roll then Fail(HashMismatch("Fragment Hash does not match Rolling Hash")) else Pass
  }

  /** `verify_fragment_memory`: the chained value from a given previous hash
      must equal a given rolling hash. */
  function VerifyFragmentMemory(c: Crypto, rh: RollingHash, stream: Bytes, alg: Option<string>,
                                rollingHash: Bytes, previousHash: Bytes): (r: Outcome<Error>)
    ensures r.Pass? <==> rollingHash == ChainStep(c.ch, CurrAlg(rh, alg), Some(previousHash), FragmentHash(c, rh, CurrAlg(rh, alg), stream))
  {
    var currAlg := CurrAlg(rh, alg);
    var refHash := c.ch(currAlg, previousHash, Some(c.fragHash(currAlg, stream, rh.exclusions)));
    if refHash != rollingHash then Fail(HashMismatch("missing rolling hash")) else Pass
  }

  /** The number of embedded rolling-hash boxes `hash_fragment` demands: none
      in the first fragment, exactly one in every other. */
  function ExpectedAnchors(isFirst: bool): nat {
    if isFirst then 0 else 1
  }

  /** `hash_fragment`: one link of the chain. The first fragment must come
      without a previous hash and without embedded boxes; every other one
      with a previous hash and exactly one embedded box. */
  function HashFragment(c: Crypto, rh: RollingHash, frag: Fragment, alg: string,
                        previousHash: Option<Bytes>, isFirst: bool): (r: Result<Bytes, Error>)
    ensures r.Ok? <==> (previousHash.None? <==> isFirst) && |frag.boxes.anchors| == ExpectedAnchors(isFirst)
    ensures r.Ok? ==> r.value == ChainStep(c.ch, alg, previousHash, FragmentHash(c, rh, alg, frag.stream))
  {
    var fragHash := c.fragHash(alg, frag.stream, rh.exclusions);
    match (previousHash, isFirst)
    case (Some(ph), false) =>
      if |frag.boxes.anchors| != 1 then Err(HashMismatch("non-first Fragment requires exactly one embedded previous hash"))
      else Ok(c.ch(alg, ph, Some(fragHash)))
    case (Some(_), true) => Err(HashMismatch("first Fragment expects no previous hash"))
    case (None, false) => Err(HashMismatch("non-first Fragment requires previous hash"))
    case (None, true) =>
      if |frag.boxes.anchors| != 0 then Err(HashMismatch("first Fragment should not have a previous hash embedded"))
      else Ok(c.ch(alg, fragHash, None))
  }

  /** The `for frag in fragments` loop: every further fragment is chained
      onto the running value. */
  function RollOver(c: Crypto, rh: RollingHash, alg: string, rolling: Bytes, frags: seq<Fragment>): Result<Bytes, Error>
    decreases |frags|
  {
    if |frags| == 0 then Ok(rolling)
    else
      var next :- HashFragment(c, rh, frags[0], alg, Some(rolling), false);
      RollOver(c, rh, alg, next, frags[1..])
  }

  /** `verify_stream_fragments`: the init hash, then the fold of
      `hash_fragment` over the fragments from the start of the stream, whose
      result must be the stored rolling hash. No fragments: nothing to check. */
  function VerifyStreamFragments(c: Crypto, rh: RollingHash, init: Bytes, frags: seq<Fragment>, alg: Option<string>): Outcome<Error> {
    var initCheck := VerifyStreamHash(c, rh, init, alg);
    if initCheck.Fail? then initCheck
    else if |frags| == 0 then Pass
    else
      var currAlg := CurrAlg(rh, alg);
      match HashFragment(c, rh, frags[0], currAlg, None, true)
      case Err(e) => Fail(e)
      case Ok(first) =>
        match RollOver(c, rh, currAlg, first, frags[1..])
        case Err(e) => Fail(e)
        case Ok(rolling) =>
          match rh.rollingHash
          case Some(refHash) => if rolling != refHash then Fail(HashMismatch("mismatch rolling hash")) else Pass
          case None => Fail(HashMismatch("missing rolling hash"))
  }

  /** The fragment digests of a run of fragments. */
  function FragmentHashes(c: Crypto, rh: RollingHash, alg: string, frags: seq<Fragment>): (hs: seq<Bytes>)
    ensures |hs| == |frags|
    ensures forall i :: 0 <= i < |frags| ==> hs[i] == FragmentHash(c, rh, alg, frags[i].stream)
  {
    seq(|frags|, i requires 0 <= i < |frags| => FragmentHash(c, rh, alg, frags[i].stream))
  }

  /** A run as the fold expects it: no embedded box in the first fragment,
      exactly one in every other. */
  predicate WellAnchored(frags: seq<Fragment>) {
    forall i :: 0 <= i < |frags| ==> |frags[i].boxes.anchors| == ExpectedAnchors(i == 0)
  }

  lemma {:induction false} RollOverIsChain(c: Crypto, rh: RollingHash, alg: string, rolling: Bytes, frags: seq<Fragment>)
    ensures RollOver(c, rh, alg, rolling, frags).Ok? <==> forall i :: 0 <= i < |frags| ==> |frags[i].boxes.anchors| == 1
    ensures RollOver(c, rh, alg, rolling, frags).Ok? ==>
      Some(RollOver(c, rh, alg, rolling, frags).value) == Chain(c.ch, alg, Some(rolling), FragmentHashes(c, rh, alg, frags))
    decreases |frags|
  {
    if |frags| > 0 {
      var next := HashFragment(c, rh, frags[0], alg, Some(rolling), false);
      var hs := FragmentHashes(c, rh, alg, frags);
      assert hs[1..] == FragmentHashes(c, rh, alg, frags[1..]);
      if next.Ok? {
        RollOverIsChain(c, rh, alg, next.value, frags[1..]);
        assert forall i :: 1 <= i < |frags| ==> frags[i] == frags[1..][i - 1];
      }
    }
  }

  /** The fold verifier accepts exactly the streams whose fragments are
      anchored as it expects and whose chain from the start of the stream
      ends in the stored rolling hash. */
  lemma VerifyStreamFragmentsIsChain(c: Crypto, rh: RollingHash, init: Bytes, frags: seq<Fragment>, alg: Option<string>)
    ensures VerifyStreamFragments(c, rh, init, frags, alg).Pass? <==>
      && VerifyStreamHash(c, rh, init, alg).Pass?
      && (|frags| > 0 ==>
            && WellAnchored(frags)
            && rh.rollingHash == Chain(c.ch, CurrAlg(rh, alg), None, FragmentHashes(c, rh, CurrAlg(rh, alg), frags)))
  {
    if |frags| > 0 {
      var currAlg := CurrAlg(rh, alg);
      var hs := FragmentHashes(c, rh, currAlg, frags);
      var first := HashFragment(c, rh, frags[0], currAlg, None, true);
      if first.Ok? {
        RollOverIsChain(c, rh, currAlg, first.value, frags[1..]);
        assert hs[1..] == FragmentHashes(c, rh, currAlg, frags[1..]);
        assert Chain(c.ch, currAlg, None, hs) == Chain(c.ch, currAlg, Some(first.value), hs[1..]);
        assert forall i :: 1 <= i < |frags| ==> frags[i] == frags[1..][i - 1];
      }
    }
  }

  // ---- producing fragments ----

  /** The chain update of `add_new_fragment` for a source fragment whose
      boxes are `source` and whose signed output stream is `output`. The
      checks come in the source's order: one `moof`, one `mdat`, at most
      one box of each embedded kind, then the digest of the output stream,
      whose failure is passed on. Only then does the rolling hash become
      `CH(previous, fragment)` (or `CH(fragment)`), and only after that is
      the placeholder init hash chosen, so an algorithm the stream digest
      accepts but the placeholder does not fails with the rolling hash
      already replaced. The output carries the previous hash as its anchor
      point. */
  function AddNewFragment(c: Crypto, rh: RollingHash, alg: string, source: FragmentBoxes, output: Bytes)
    : (r: (RollingHash, Outcome<Error>))
    ensures Count(source.boxPaths, "moof") != 1 ==> r == (rh, Fail(BadParam("expected 1 moof in fragment")))
    ensures Count(source.boxPaths, "moof") == 1 && Count(source.boxPaths, "mdat") != 1 ==>
      r == (rh, Fail(BadParam("expected 1 mdat in fragment")))
    ensures Count(source.boxPaths, "moof") == 1 && Count(source.boxPaths, "mdat") == 1 && TooManyBoxes(source) ==>
      r == (rh, Fail(BadParam("BMFF Fragments shouldn't have more than 1 BmffMerkleMap")))
    ensures WellFormedSource(source) && c.streamError(alg, output, rh.exclusions).Some? ==>
      r == (rh, Fail(c.streamError(alg, output, rh.exclusions).value))
    ensures WellFormedSource(source) && c.streamError(alg, output, rh.exclusions).None? ==>
      && r.0.rollingHash == Some(ChainStep(c.ch, alg, rh.previousHash, FragmentHash(c, rh, alg, output)))
      && (r.1.Pass? <==> IsSupportedAlg(alg))
      && (r.1.Pass? ==> r.0.hash == PlaceholderHash(alg))
      && (r.1.Fail? ==> r.1.error == UnsupportedType && r.0.hash == rh.hash)
    ensures r.0 == rh.(rollingHash := r.0.rollingHash, hash := r.0.hash)
  {
    if Count(source.boxPaths, "moof") != 1 then (rh, Fail(BadParam("expected 1 moof in fragment")))
    else if Count(source.boxPaths, "mdat") != 1 then (rh, Fail(BadParam("expected 1 mdat in fragment")))
    else if TooManyBoxes(source) then (rh, Fail(BadParam("BMFF Fragments shouldn't have more than 1 BmffMerkleMap")))
    else
      match c.streamError(alg, output, rh.exclusions)
      case Some(e) => (rh, Fail(e))
      case None =>
        var fragHash := c.fragHash(alg, output, rh.exclusions);
        var (left, right) := match rh.previousHash
          case Some(prev) => (prev, Some(fragHash))
          case None => (fragHash, None);
        var rolled := rh.SetRollingHash(c.ch(alg, left, right));
        match PlaceholderHash(alg)
        case None => (rolled, Fail(UnsupportedType))
        case Some(h) => (rolled.SetHash(h), Pass)
  }

  function Count(paths: seq<string>, p: string): nat {
    if |paths| == 0 then 0 else (if paths[0] == p then 1 else 0) + Count(paths[1..], p)
  }

  /** A source fragment `add_new_fragment` accepts: one `moof`, one `mdat`,
      at most one rolling-hash box and at most one Merkle-map box. */
  predicate WellFormedSource(source: FragmentBoxes) {
    Count(source.boxPaths, "moof") == 1 && Count(source.boxPaths, "mdat") == 1 && !TooManyBoxes(source)
  }

  /** `update_fragmented_inithash`: the placeholder is replaced by the init
      segment's digest under the assertion's algorithm (SHA-256 if unset). */
  function UpdateInitHash(c: Crypto, rh: RollingHash, init: Bytes): (r: RollingHash)
    ensures r.(hash := rh.hash) == rh
    ensures r.hash.Some?
  {
    rh.(hash := Some(c.fragHash(rh.alg.GetOr(SHA256), init, rh.exclusions)))
  }

  /** After the update the file-level check passes, whether or not the
      verifier names an algorithm, as long as the assertion names one;
      without one only the default is guaranteed. */
  lemma UpdatedInitHashVerifies(c: Crypto, rh: RollingHash, init: Bytes, alg: Option<string>)
    requires rh.alg.Some? || alg.None?
    ensures VerifyStreamHash(c, UpdateInitHash(c, rh, init), init, alg).Pass?
  {
  }

  /** `hash_from_stream`/`gen_hash_from_stream`: the digest of the asset
      under the assertion's algorithm (SHA-256 if unset); an empty digest
      is refused and leaves the assertion as it was. */
  function GenHashFromStream(c: Crypto, rh: RollingHash, asset: Bytes): (r: (RollingHash, Outcome<Error>))
    ensures r.1.Pass? <==> |c.fragHash(rh.alg.GetOr(SHA256), asset, rh.exclusions)| > 0
    ensures r.1.Pass? ==> r.0 == UpdateInitHash(c, rh, asset)
    ensures r.1.Fail? ==> r.0 == rh && r.1.error == BadParam("could not generate data hash")
  {
    var h := c.fragHash(rh.alg.GetOr(SHA256), asset, rh.exclusions);
    if |h| == 0 then (rh, Fail(BadParam("could not generate data hash")))
    else (rh.(hash := Some(h)), Pass)
  }

  /** What the producer writes is what the segment verifier accepts: after
      `add_new_fragment` and `update_fragmented_inithash`, a fragment whose
      only embedded box carries the previous hash as its anchor point
      passes `verify_stream_segment`. */
  lemma ProducedSegmentVerifies(c: Crypto, rh: RollingHash, alg: string, source: FragmentBoxes, output: Bytes,
                                init: Bytes, parsed: FragmentBoxes)
    requires rh.alg == Some(alg) && IsSupportedAlg(alg) && WellFormedSource(source)
    requires c.streamError(alg, output, rh.exclusions).None?
    requires parsed.anchors == [rh.previousHash] && parsed.merkleBoxes <= 1
    ensures var produced := AddNewFragment(c, rh, alg, source, output).0;
            VerifyStreamSegment(c, UpdateInitHash(c, produced, init), init, Fragment(output, parsed), None).Pass?
  {
  }

  /** The producer's first fragment always carries an embedded box (its
      anchor point is empty), and the fold verifier rejects a first fragment
      with an embedded box. */
  lemma FirstProducedFragmentRejectedByFold(c: Crypto, rh: RollingHash, init: Bytes, output: Bytes,
                                            parsed: FragmentBoxes, rest: seq<Fragment>, alg: Option<string>)
    requires VerifyStreamHash(c, rh, init, alg).Pass?
    requires parsed.anchors == [None]
    ensures VerifyStreamFragments(c, rh, init, [Fragment(output, parsed)] + rest, alg)
         == Fail(HashMismatch("first Fragment should not have a previous hash embedded"))
  {
  }

  /** Producing a stream fragment by fragment (shifting after each) chains
      the fragment digests: the last fragment's rolling hash is the chain of
      all of them from the starting anchor. */
  function ProduceAll(c: Crypto, rh: RollingHash, alg: string, sources: seq<FragmentBoxes>, outputs: seq<Bytes>)
    : (RollingHash, Outcome<Error>)
    requires |sources| == |outputs| > 0
    decreases |sources|
  {
    var (next, outcome) := AddNewFragment(c, rh, alg, sources[0], outputs[0]);
    if outcome.Fail? || |sources| == 1 then (next, outcome)
    else ProduceAll(c, next.Shift(), alg, sources[1..], outputs[1..])
  }

  lemma {:induction false} ProduceAllChains(c: Crypto, rh: RollingHash, alg: string, sources: seq<FragmentBoxes>, outputs: seq<Bytes>)
    requires |sources| == |outputs| > 0
    requires IsSupportedAlg(alg)
    requires forall i :: 0 <= i < |sources| ==> WellFormedSource(sources[i])
    requires forall i :: 0 <= i < |outputs| ==> c.streamError(alg, outputs[i], rh.exclusions).None?
    ensures ProduceAll(c, rh, alg, sources, outputs).1.Pass?
    ensures ProduceAll(c, rh, alg, sources, outputs).0.rollingHash
         == Chain(c.ch, alg, rh.previousHash, seq(|outputs|, i requires 0 <= i < |outputs| => c.fragHash(alg, outputs[i], rh.exclusions)))
    decreases |sources|
  {
    var hs := seq(|outputs|, i requires 0 <= i < |outputs| => c.fragHash(alg, outputs[i], rh.exclusions));
    var (next, outcome) := AddNewFragment(c, rh, alg, sources[0], outputs[0]);
    if |sources| > 1 {
      ProduceAllChains(c, next.Shift(), alg, sources[1..], outputs[1..]);
      var tail := seq(|outputs| - 1, i requires 0 <= i < |outputs| - 1 => c.fragHash(alg, outputs[1..][i], rh.exclusions));
      assert hs[1..] == tail;
      assert next.Shift().exclusions == rh.exclusions;
    } else {
      assert hs == [hs[0]];
    }
  }
}

=== FILE: signer_payload.dfy ===
/** The CAWG signer-payload check (`SignerPayload::check_against_manifest`),
    following section 5.1 of the CAWG Identity Assertion specification:
    every referenced assertion must be referenced by the claim with the same
    hash, one of them must be a hard binding (`c2pa.hash.*`), and none may be
    referenced twice. Assertion references are (url, hash) pairs. */
module SignerPayload {
  import opened Wrappers
  import opened Text

  datatype HashedUri = HashedUri(url: string, hash: Bytes)

  datatype ValidationError =
    | AssertionMismatch(url: string)
    | AssertionNotInClaim(url: string)
    | NoHardBindingAssertion
    | DuplicateAssertionReference(assertion: string)

  const C2PA_SEGMENT: string := "/c2pa/"
  const HARD_BINDING_PREFIX: string := "c2pa.hash."

  /** The end of a match of the regex `/c2pa/[^/]+/` starting at `i`: the
      literal `/c2pa/`, one or more non-slash characters, then a slash. */
  function MatchEndAt(url: string, i: nat): (r: Option<nat>)
    ensures r.Some? ==> i + |C2PA_SEGMENT| < r.value <= |url|
  {
    if !OccursAt(url, C2PA_SEGMENT, i) then None
    else
      var j := i + |C2PA_SEGMENT|;
      match FirstIndex(url[j..], '/')
      case None => None
      case Some(p) => if p == 0 then None else Some(j + p + 1)
  }

  /** The leftmost match at or after `i`, as (start, end). */
  function FirstMatch(url: string, i: nat): (r: Option<(nat, nat)>)
    ensures r.None? ==> forall k :: i <= k <= |url| ==> MatchEndAt(url, k).None?
    ensures r.Some? ==> i <= r.value.0 && MatchEndAt(url, r.value.0) == Some(r.value.1)
    ensures r.Some? ==> forall k :: i <= k < r.value.0 ==> MatchEndAt(url, k).None?
    decreases |url| - i
  {
    if i > |url| then None
    else
      match MatchEndAt(url, i)
      case Some(e) => Some((i, e))
      case None => FirstMatch(url, i + 1)
  }

  /** `ABSOLUTE_URL_PREFIX.replace(url, "")`: the first (leftmost) match of
      `/c2pa/[^/]+/` is removed; without a match the url is unchanged. */
  function StripAbsolutePrefix(url: string): string {
    match FirstMatch(url, 0)
    case None => url
    case Some((a, b)) => url[..a] + url[b..]
  }

  lemma MatchStartsWithSlash(url: string, k: nat)
    ensures MatchEndAt(url, k).Some? ==> k < |url| && url[k] == '/'
  {
    if k + |C2PA_SEGMENT| <= |url| {
      assert url[k..k + 6][0] == url[k];
    }
  }

  /** An absolute assertion url `p/c2pa/<manifest>/r` (no slash in `p` or in
      the manifest label) becomes the relative url `pr`. */
  lemma StripAbsoluteUrl(p: string, m: string, r: string)
    requires '/' !in p
    requires |m| > 0 && '/' !in m
    ensures StripAbsolutePrefix(p + C2PA_SEGMENT + m + "/" + r) == p + r
  {
    var url := p + C2PA_SEGMENT + m + "/" + r;
    var e := |p| + |C2PA_SEGMENT| + |m| + 1;
    SegmentAfterPrefix(p, m, r);
    NoMatchInPrefix(url, p);
    FirstMatchSkips(url, 0, |p|);
    assert FirstMatch(url, |p|) == Some((|p|, e));
  }

  /** Where `p` holds no slash, no match starts inside it. */
  lemma NoMatchInPrefix(url: string, p: string)
    requires '/' !in p && |p| <= |url| && url[..|p|] == p
    ensures forall k :: 0 <= k < |p| ==> MatchEndAt(url, k).None?
  {
    forall k | 0 <= k < |p|
      ensures MatchEndAt(url, k).None?
    {
      assert url[k] == url[..|p|][k] == p[k];
      MatchStartsWithSlash(url, k);
    }
  }

  /** In `p/c2pa/<m>/r` a match runs from the end of `p` through the slash
      after `m`. */
  lemma SegmentAfterPrefix(p: string, m: string, r: string)
    requires |m| > 0 && '/' !in m
    ensures var url := p + C2PA_SEGMENT + m + "/" + r;
            var e := |p| + |C2PA_SEGMENT| + |m| + 1;
            MatchEndAt(url, |p|) == Some(e) && url[..|p|] == p && url[e..] == r
  {
    var url := p + C2PA_SEGMENT + m + "/" + r;
    var j := |p| + |C2PA_SEGMENT|;
    assert url[|p|..j] == C2PA_SEGMENT;
    assert url[j..] == m + ("/" + r);
    FirstIndexAfterFree(m, "/" + r, '/');
    assert url[..|p|] == p;
    assert url[j + |m| + 1..] == r;
  }

  lemma {:induction false} FirstMatchSkips(url: string, i: nat, k: nat)
    requires i <= k <= |url|
    requires forall q :: i <= q < k ==> MatchEndAt(url, q).None?
    ensures FirstMatch(url, i) == FirstMatch(url, k)
    decreases k - i
  {
    if i < k {
      FirstMatchSkips(url, i + 1, k);
    }
  }

  /** Only a url holding `/c2pa/` is ever rewritten. */
  lemma StripNeedsSegment(url: string)
    ensures StripAbsolutePrefix(url) != url ==> Contains(url, C2PA_SEGMENT)
  {
    if FirstMatch(url, 0).Some? {
      var a := FirstMatch(url, 0).value.0;
      assert OccursAt(url, C2PA_SEGMENT, a);
    }
  }

  /** A claim reference stands for a referenced assertion when the urls are
      equal, or equal once the absolute prefix is removed from the claim's. */
  predicate RefersTo(claimUrl: string, url: string) {
    claimUrl == url || StripAbsolutePrefix(claimUrl) == url
  }

  /** `assertion_references().find(..)`: the first claim reference for `url`. */
  function FindReference(claims: seq<HashedUri>, url: string): (r: Option<nat>)
    ensures r.None? ==> forall j :: 0 <= j < |claims| ==> !RefersTo(claims[j].url, url)
    ensures r.Some? ==> r.value < |claims| && RefersTo(claims[r.value].url, url)
    ensures r.Some? ==> forall j :: 0 <= j < r.value ==> !RefersTo(claims[j].url, url)
  {
    FirstWhere(claims, (c: HashedUri) => RefersTo(c.url, url))
  }

  /** `Iterator::position`: the first element `test` accepts. */
  function FirstWhere<T>(xs: seq<T>, test: T -> bool): (r: Option<nat>)
    ensures r.None? ==> forall j :: 0 <= j < |xs| ==> !test(xs[j])
    ensures r.Some? ==> r.value < |xs| && test(xs[r.value])
    ensures r.Some? ==> forall j :: 0 <= j < r.value ==> !test(xs[j])
  {
    if |xs| == 0 then None
    else if test(xs[0]) then Some(0)
    else
      match FirstWhere(xs[1..], test)
      case None =>
        assert forall j :: 1 <= j < |xs| ==> xs[j] == xs[1..][j - 1];
        None
      case Some(k) =>
        assert forall j :: 1 <= j < k + 1 ==> xs[j] == xs[1..][j - 1];
        Some(k + 1)
  }

  /** The failure, if any, of one referenced assertion. */
  function ReferenceError(ref: HashedUri, claims: seq<HashedUri>): Option<ValidationError> {
    match FindReference(claims, ref.url)
    case None => Some(AssertionNotInClaim(ref.url))
    case Some(k) => if claims[k].hash != ref.hash then Some(AssertionMismatch(ref.url)) else None
  }

  /** A referenced assertion is accounted for: some claim reference stands for
      it, and the first such one carries the same hash. */
  predicate ReferenceOk(ref: HashedUri, claims: seq<HashedUri>) {
    exists k :: 0 <= k < |claims| && RefersTo(claims[k].url, ref.url) && claims[k].hash == ref.hash
      && forall j :: 0 <= j < k ==> !RefersTo(claims[j].url, ref.url)
  }

  lemma ReferenceErrorIff(ref: HashedUri, claims: seq<HashedUri>)
    ensures ReferenceError(ref, claims).None? <==> ReferenceOk(ref, claims)
    ensures ReferenceError(ref, claims) == Some(AssertionNotInClaim(ref.url))
        <==> forall j :: 0 <= j < |claims| ==> !RefersTo(claims[j].url, ref.url)
    ensures ReferenceError(ref, claims) == Some(AssertionMismatch(ref.url))
        <==> (exists j :: 0 <= j < |claims| && RefersTo(claims[j].url, ref.url)) && !ReferenceOk(ref, claims)
    ensures ReferenceError(ref, claims).Some? ==>
      ReferenceError(ref, claims) == Some(AssertionNotInClaim(ref.url))
      || ReferenceError(ref, claims) == Some(AssertionMismatch(ref.url))
  {
    var found := FindReference(claims, ref.url);
    if found.Some? {
      assert RefersTo(claims[found.value].url, ref.url);
    }
    if found.Some? && claims[found.value].hash == ref.hash {
      var k := found.value;
      assert 0 <= k < |claims| && RefersTo(claims[k].url, ref.url) && claims[k].hash == ref.hash
        && forall j :: 0 <= j < k ==> !RefersTo(claims[j].url, ref.url);
    }
    if ReferenceOk(ref, claims) {
      var k :| 0 <= k < |claims| && RefersTo(claims[k].url, ref.url) && claims[k].hash == ref.hash
        && forall j :: 0 <= j < k ==> !RefersTo(claims[j].url, ref.url);
      assert found.Some?;
      assert !(found.value < k);
      assert !(k < found.value);
    }
  }


  /** The first loop of `check_against_manifest`: references in list order,
      stopping at the first failure. */
  function CheckReferences(refs: seq<HashedUri>, claims: seq<HashedUri>): (r: Outcome<ValidationError>)
    ensures r.Pass? <==> forall k :: 0 <= k < |refs| ==> ReferenceError(refs[k], claims).None?
    ensures r.Fail? ==> (exists k :: 0 <= k < |refs| && ReferenceError(refs[k], claims) == Some(r.error)
                           && forall i :: 0 <= i < k ==> ReferenceError(refs[i], claims).None?)
  {
    FirstFailure(refs, ref => ReferenceError(ref, claims))
  }

  /** A loop that checks each element in order and stops at the first
      failure. */
  function FirstFailure<T, E(==)>(xs: seq<T>, check: T -> Option<E>): (r: Outcome<E>)
    ensures r.Pass? <==> forall k :: 0 <= k < |xs| ==> check(xs[k]).None?
    ensures r.Fail? ==> (exists k :: 0 <= k < |xs| && check(xs[k]) == Some(r.error)
                           && forall i :: 0 <= i < k ==> check(xs[i]).None?)
  {
    if |xs| == 0 then Pass
    else
      match check(xs[0])
      case Some(e) => Fail(e)
      case None =>
        var rest := FirstFailure(xs[1..], check);
        if rest.Fail? then
          var k :| 0 <= k < |xs| - 1 && check(xs[1..][k]) == Some(rest.error)
            && forall i :: 0 <= i < k ==> check(xs[1..][i]).None?;
          assert forall i :: 0 <= i < k + 1 ==> check(xs[i]).None? by {
            forall i | 0 <= i < k + 1
              ensures check(xs[i]).None?
            {
              if i > 0 { assert xs[i] == xs[1..][i - 1]; }
            }
          }
          assert xs[k + 1] == xs[1..][k];
          rest
        else
          assert forall k :: 0 <= k < |xs| ==> check(xs[k]).None? by {
            forall k | 0 <= k < |xs|
              ensures check(xs[k]).None?
            {
              if k > 0 { assert xs[k] == xs[1..][k - 1]; }
            }
          }
          rest
  }

  /** `rsplit_once('/')`: the text after the last slash, if there is a slash. */
  function LastSegment(url: string): (r: Option<string>)
    ensures r.None? <==> '/' !in url
    ensures r.Some? ==> '/' !in r.value && EndsWith(url, "/" + r.value)
  {
    if |url| == 0 then None
    else if url[|url| - 1] == '/' then
      assert EndsWith(url, "/" + "");
      Some("")
    else
      match LastSegment(url[..|url| - 1])
      case None =>
        assert '/' !in url by {
          assert url == url[..|url| - 1] + [url[|url| - 1]];
        }
        None
      case Some(seg) =>
        var s := seg + [url[|url| - 1]];
        assert url == url[..|url| - 1] + [url[|url| - 1]];
        assert url[|url| - |"/" + s|..] == url[..|url| - 1][|url| - 1 - |"/" + seg|..] + [url[|url| - 1]];
        Some(s)
  }

  /** A hard-binding assertion url: its last path segment names a
      `c2pa.hash.*` assertion. */
  predicate IsHardBinding(url: string) {
    match LastSegment(url)
    case None => false
    case Some(name) => StartsWith(name, HARD_BINDING_PREFIX)
  }

  predicate HasHardBinding(refs: seq<HashedUri>) {
    exists k :: 0 <= k < |refs| && IsHardBinding(refs[k].url)
  }

  function Urls(refs: seq<HashedUri>): (urls: seq<string>)
    ensures |urls| == |refs| && forall k :: 0 <= k < |refs| ==> urls[k] == refs[k].url
  {
    seq(|refs|, k requires 0 <= k < |refs| => refs[k].url)
  }

  /** Position `j` repeats an earlier url. */
  predicate RepeatsEarlier(urls: seq<string>, j: nat)
    requires j < |urls|
  {
    urls[j] in urls[..j]
  }

  /** The duplicate scan with a `HashSet`: the first url already seen. */
  method FindDuplicate(urls: seq<string>) returns (r: Option<string>)
    ensures r.None? <==> forall j :: 0 <= j < |urls| ==> !RepeatsEarlier(urls, j)
    ensures r.Some? ==> (exists j :: 0 <= j < |urls| && urls[j] == r.value && RepeatsEarlier(urls, j)
                           && forall i :: 0 <= i < j ==> !RepeatsEarlier(urls, i))
  {
    var seen: set<string> := {};
    var k := 0;
    while k < |urls|
      invariant 0 <= k <= |urls|
      invariant forall u :: u in seen <==> u in urls[..k]
      invariant forall i :: 0 <= i < k ==> !RepeatsEarlier(urls, i)
    {
      if urls[k] in seen {
        assert RepeatsEarlier(urls, k);
        return Some(urls[k]);
      }
      assert urls[..k + 1] == urls[..k] + [urls[k]];
      seen := seen + {urls[k]};
      k := k + 1;
    }
    return None;
  }

  /** `check_against_manifest`: references first (in list order), then the
      hard-binding requirement, then duplicates. */
  method CheckAgainstManifest(refs: seq<HashedUri>, claims: seq<HashedUri>) returns (r: Outcome<ValidationError>)
    ensures r.Pass? <==>
      && (forall k :: 0 <= k < |refs| ==> ReferenceOk(refs[k], claims))
      && HasHardBinding(refs)
      && (forall j :: 0 <= j < |refs| ==> !RepeatsEarlier(Urls(refs), j))
    ensures r.Fail? && (r.error.AssertionNotInClaim? || r.error.AssertionMismatch?) ==>
      (exists k :: 0 <= k < |refs| && ReferenceError(refs[k], claims) == Some(r.error) && !ReferenceOk(refs[k], claims)
         && forall i :: 0 <= i < k ==> ReferenceOk(refs[i], claims))
    ensures r == Fail(NoHardBindingAssertion) <==>
      (forall k :: 0 <= k < |refs| ==> ReferenceOk(refs[k], claims)) && !HasHardBinding(refs)
    ensures r.Fail? && r.error.DuplicateAssertionReference? ==>
      && (forall k :: 0 <= k < |refs| ==> ReferenceOk(refs[k], claims))
      && HasHardBinding(refs)
      && (exists j :: 0 <= j < |refs| && refs[j].url == r.error.assertion && RepeatsEarlier(Urls(refs), j)
            && forall i :: 0 <= i < j ==> !RepeatsEarlier(Urls(refs), i))
  {
    forall k | 0 <= k < |refs| {
      ReferenceErrorIff(refs[k], claims);
    }
    var checked := CheckReferences(refs, claims);
    if checked.Fail? {
      return checked;
    }
    if !HasHardBinding(refs) {
      return Fail(NoHardBindingAssertion);
    }
    var dup := FindDuplicate(Urls(refs));
    if dup.Some? {
      return Fail(DuplicateAssertionReference(dup.value));
    }
    return Pass;
  }
}

=== FILE: text.dfy ===
/** Character-level helpers the modelled Rust code gets from its standard
    library: decimal rendering (`to_string`, `{}`), unsigned integer parsing
    (`str::parse::<u32>()`), ASCII lower-casing, substring tests, `split`
    on a single separator, and two-digit lower-case hex (`{:02x}`). */
module Text {
  import opened Wrappers

  const U8_LIMIT: nat := 0x100
  const U32_LIMIT: nat := 0x1_0000_0000

  /** An octet, as Rust's `u8`. */
  newtype byte = x: int | 0 <= x < 0x100

  type Bytes = seq<byte>

  predicate IsDigit(c: char) {
    '0' <= c <= '9'
  }

  predicate AllDigits(s: string) {
    forall i :: 0 <= i < |s| ==> IsDigit(s[i])
  }

  function DigitValue(c: char): nat
    requires IsDigit(c)
  {
    c as int - '0' as int
  }

  function DigitChar(d: nat): (c: char)
    requires d < 10
    ensures IsDigit(c) && DigitValue(c) == d
  {
    ('0' as int + d) as char
  }

  /** The value of a string of decimal digits, most significant digit first. */
  function DecimalValue(s: string): nat
    requires AllDigits(s)
  {
    if |s| == 0 then 0 else DecimalValue(s[..|s| - 1]) * 10 + DigitValue(s[|s| - 1])
  }

  /** Reading more digits never lowers the value. */
  lemma {:induction false} DecimalValuePrefix(s: string, j: nat)
    requires AllDigits(s) && j <= |s|
    ensures AllDigits(s[..j]) && DecimalValue(s[..j]) <= DecimalValue(s)
    decreases |s|
  {
    if j < |s| {
      var p := s[..|s| - 1];
      assert p[..j] == s[..j];
      DecimalValuePrefix(p, j);
    } else {
      assert s[..j] == s;
    }
  }

  /** Rust's `n.to_string()` for an unsigned integer: shortest decimal, no sign,
      no leading zero; its value is n. */
  function NatToDecimal(n: nat): (s: string)
    ensures |s| >= 1 && AllDigits(s)
    ensures s[0] == '0' ==> n == 0 && |s| == 1
    ensures DecimalValue(s) == n
  {
    if n < 10 then [DigitChar(n)]
    else
      var prefix := NatToDecimal(n / 10);
      var s := prefix + [DigitChar(n % 10)];
      assert s[..|s| - 1] == prefix;
      s
  }

  lemma NatToDecimalInjective(m: nat, n: nat)
    requires NatToDecimal(m) == NatToDecimal(n)
    ensures m == n
  {
    assert DecimalValue(NatToDecimal(m)) == m;
  }

  /** Rust's `str::parse` for an unsigned integer type whose values are below
      `limit`: an optional leading `+`, then one or more ASCII digits (leading
      zeros allowed); an empty digit string, any other character, or a value
      that does not fit is an error. */
  function ParseUnsigned(s: string, limit: nat): (r: Option<nat>)
    ensures r.Some? ==> r.value < limit
    ensures r.Some? ==> |s| > 0 && (IsDigit(s[0]) || s[0] == '+')
  {
    var digits := if |s| > 0 && s[0] == '+' then s[1..] else s;
    if |digits| == 0 || !AllDigits(digits) then None
    else if DecimalValue(digits) < limit then Some(DecimalValue(digits))
    else None
  }

  /** Parsing undoes rendering for every value of the target type. */
  lemma ParseRendered(n: nat, limit: nat)
    requires n < limit
    ensures ParseUnsigned(NatToDecimal(n), limit) == Some(n)
  {
    var s := NatToDecimal(n);
    assert s[0] != '+' by { assert IsDigit(s[0]); }
  }

  /** A rendered number at or beyond the limit does not parse. */
  lemma ParseRenderedTooLarge(n: nat, limit: nat)
    requires n >= limit
    ensures ParseUnsigned(NatToDecimal(n), limit) == None
  {
    var s := NatToDecimal(n);
    assert s[0] != '+' by { assert IsDigit(s[0]); }
  }

  /** A string that parses is made of digits (after an optional `+`) whose value is the result. */
  lemma ParsedIsDecimal(s: string, limit: nat)
    requires ParseUnsigned(s, limit).Some?
    ensures var digits := if s[0] == '+' then s[1..] else s;
      |digits| > 0 && AllDigits(digits) && DecimalValue(digits) == ParseUnsigned(s, limit).value
  {
  }

  function Lower(c: char): char {
    if 'A' <= c <= 'Z' then (c as int + 32) as char else c
  }

  /** Rust's `str::to_ascii_lowercase`: only `A`..`Z` change. */
  function AsciiLower(s: string): (r: string)
    ensures |r| == |s|
    ensures forall i :: 0 <= i < |s| ==> r[i] == Lower(s[i])
  {
    seq(|s|, i requires 0 <= i < |s| => Lower(s[i]))
  }

  lemma AsciiLowerKeepsDigits(s: string)
    requires AllDigits(s)
    ensures AsciiLower(s) == s
  {
  }

  predicate StartsWith(s: string, prefix: string) {
    |prefix| <= |s| && s[..|prefix|] == prefix
  }

  predicate EndsWith(s: string, suffix: string) {
    |suffix| <= |s| && s[|s| - |suffix|..] == suffix
  }

  predicate OccursAt(s: string, sub: string, i: nat) {
    i + |sub| <= |s| && s[i..i + |sub|] == sub
  }

  /** Rust's `str::contains` for a string pattern. */
  predicate Contains(s: string, sub: string) {
    exists i :: 0 <= i <= |s| - |sub| && OccursAt(s, sub, i)
  }

  /** Index of the first occurrence of `c` in `s`. */
  function FirstIndex(s: string, c: char): (r: Option<nat>)
    ensures r.None? ==> c !in s
    ensures r.Some? ==> r.value < |s| && s[r.value] == c && c !in s[..r.value]
  {
    if |s| == 0 then None
    else if s[0] == c then Some(0)
    else
      match FirstIndex(s[1..], c)
      case None => None
      case Some(i) => assert s[..i + 1] == [s[0]] + s[1..][..i]; Some(i + 1)
  }

  /** The inverse of `Split`: the parts with one separator between neighbours. */
  function Join(parts: seq<string>, sep: char): string {
    if |parts| == 0 then ""
    else if |parts| == 1 then parts[0]
    else parts[0] + [sep] + Join(parts[1..], sep)
  }

  /** Rust's `str::split` on a one-character pattern: n separators give n + 1
      pieces (empty pieces included), none of which holds the separator. */
  function Split(s: string, sep: char): (parts: seq<string>)
    ensures |parts| >= 1
    ensures forall k :: 0 <= k < |parts| ==> sep !in parts[k]
    ensures Join(parts, sep) == s
    decreases |s|
  {
    match FirstIndex(s, sep)
    case None => [s]
    case Some(i) =>
      var rest := Split(s[i + 1..], sep);
      var parts := [s[..i]] + rest;
      assert parts[1..] == rest;
      assert s == s[..i] + [sep] + s[i + 1..];
      parts
  }

  /** Splitting a joined list gives the list back when no part holds the separator. */
  lemma {:induction false} SplitJoin(parts: seq<string>, sep: char)
    requires |parts| >= 1
    requires forall k :: 0 <= k < |parts| ==> sep !in parts[k]
    ensures Split(Join(parts, sep), sep) == parts
  {
    if |parts| == 1 {
      assert FirstIndex(parts[0], sep).None?;
    } else {
      var s := Join(parts, sep);
      var tail := Join(parts[1..], sep);
      assert s == parts[0] + [sep] + tail;
      var i := |parts[0]|;
      assert s[i] == sep;
      assert s[..i] == parts[0];
      FirstIndexAfterFree(parts[0], [sep] + tail, sep);
      assert FirstIndex(s, sep) == Some(i);
      assert s[i + 1..] == tail;
      SplitJoin(parts[1..], sep);
    }
  }

  lemma {:induction false} FirstIndexAfterFree(a: string, b: string, c: char)
    requires c !in a
    requires |b| > 0 && b[0] == c
    ensures FirstIndex(a + b, c) == Some(|a|)
  {
    if |a| > 0 {
      assert (a + b)[1..] == a[1..] + b;
      FirstIndexAfterFree(a[1..], b, c);
    }
  }

  function HexDigit(n: nat): (c: char)
    requires n < 16
  {
    if n < 10 then ('0' as int + n) as char else ('a' as int + n - 10) as char
  }

  /** `{:02x}` of a byte: two lower-case hex digits, high nibble first. */
  function HexByte(b: byte): (s: string)
    ensures |s| == 2
  {
    [HexDigit((b as int) / 16), HexDigit((b as int) % 16)]
  }

  predicate IsHexDigit(c: char) {
    '0' <= c <= '9' || 'a' <= c <= 'f'
  }

  function HexValue(c: char): (n: nat)
    requires IsHexDigit(c)
    ensures n < 16
  {
    if c <= '9' then c as int - '0' as int else c as int - 'a' as int + 10
  }

  lemma HexDigitRoundTrip(n: nat)
    requires n < 16
    ensures IsHexDigit(HexDigit(n)) && HexValue(HexDigit(n)) == n
  {
  }

  /** Reading the two digits back gives the byte: `HexByte` is injective. */
  lemma HexByteRoundTrip(b: byte)
    ensures IsHexDigit(HexByte(b)[0]) && IsHexDigit(HexByte(b)[1])
    ensures HexValue(HexByte(b)[0]) * 16 + HexValue(HexByte(b)[1]) == b as int
  {
    HexDigitRoundTrip((b as int) / 16);
    HexDigitRoundTrip((b as int) % 16);
  }
}

=== FILE: wrappers.dfy ===
/** Failure-compatible wrappers shared by every module of the model:
    Option for Rust's `Option`, Result for `Result<T, E>`, Outcome for `Result<(), E>`. */
module Wrappers {

  datatype Option<+T> = None | Some(value: T) {

    predicate IsFailure() {
      None?
    }

    function PropagateFailure<U>(): Option<U>
      requires None?
    {
      None
    }

    function Extract(): T
      requires Some?
    {
      value
    }

    function GetOr(default: T): T {
      match this
      case Some(v) => v
      case None => default
    }
  }

  datatype Result<+R, +E> = Ok(value: R) | Err(error: E) {

    predicate IsFailure() {
      Err?
    }

    function PropagateFailure<U>(): Result<U, E>
      requires Err?
    {
      Err(error)
    }

    function Extract(): R
      requires Ok?
    {
      value
    }
  }

  /** A result without a success value, as Rust's `Result<(), E>`. */
  datatype Outcome<+E> = Pass | Fail(error: E) {

    predicate IsFailure() {
      Fail?
    }

    function PropagateFailure(): Outcome<E>
      requires Fail?
    {
      this
    }
  }
}
